=== FILE: README.md ===
# Retrieval core of a Vietnamese legal-document QA service

This project models the retrieval core of a question-answering service over
Vietnamese legal documents, and proves properties of the model. The
repository holds two copies of most components: an older set of files at the
top level and a newer set under `app/`. Both are modelled, and every place
where they differ is modelled on its own. The core has four parts.

**Text structurer** (`doc_parser.py`, `app/core/doc_parser.py`). It turns a
document's paragraphs into markup, one line per paragraph, joined by blank
lines. The first rule that matches decides the line's markup, in this order:
- an image link, wrapped as `![image](…)`;
- a "chương" chapter heading, which gets `# `;
- a "điều" article heading, which gets `## `;
- a numbered Khoản/Điểm/Mục list item, which gets `- `;
- anything else, which is kept unchanged.

The structurer also picks the title and, in the older copy, the first date
phrase. Modules: `DocParser`, plus `Unicode` (lower-casing and character
classes) and `Strings` (Python's `split`, `join` and `strip`).

**Article chunkers** (`app/core/chunker.py`, `chunker.py`, and `WebChunker`
in `scripts/crawler.py`). Each scans lines with a title/body accumulator. It
opens a chunk at every "Điều N" heading, numbers the chunks from 1, and
builds each chunk's text as `title + "\n" + body lines`. The three variants
differ in two ways:
- their heading patterns, modelled in `Headings`;
- their input lines, modelled in `AppChunker`, `RootChunker` and
  `WebChunker`.

The scan itself is shared, in `ArticleScan`, and so is the result loop, in
`ChunkBuild`.

**Search engine** (`search.py`, `app/core/search.py`). It covers:
- the in-memory index, loaded article by article (`Index`);
- normalisation and the three-tier keyword search (`KeywordSearch`):
  1. a "điều N" reference match;
  2. a whole-query substring match;
  3. stop-word-filtered keyword overlap with a 0.2 threshold.
- the vector search over an abstract embedding (`VectorSearch`);
- the hybrid blend `alpha * v + (1 - alpha) * k`, which pairs results by
  `(doc_id, chunk_id)` (`Hybrid`);
- the shared stable descending sort and top-k cut (`Ranking`).

Scores are exact reals.

**Prompt composition** (`gemini_client.py`, `app/core/gemini_client.py`).
This covers:
- the older client's greeting/legal/general classification, its three
  prompt templates and the strict one-article prompt (`RootPrompt`);
- the newer client's single template with optional custom instructions, and
  the routing of a model name to Gemini or OpenAI (`AppPrompt`);
- the context block both clients build from the results (`PromptText`).

Records shared by the modules (`Chunk`, `SearchResult`, and the stored
vector, which is either absent, not a list, or a list of values) are in
`Records`; `Option` and slicing are in `Basics`.

The embedding model, the vector arithmetic, the database and the language
models are function parameters:
- `embed` gives `None` where encoding raises;
- `sim` and `cos` stand for the numpy products;
- `fetch(id)` gives the chunk rows of a document;
- `gemini` and `openai` give the reply, or `None` where the call fails.

In the newer engine a chunk's text is read from its `markdown` field and in
the older one from `content`. Both are the `content` field of `Chunk` here.

Lines before the first article heading stay in the accumulator and become
the first body lines of chunk 1 (`ArticleScan.SplitByArticle`,
`AppChunker.PreambleOpensFirstChunk`, `WebChunker.PreambleOpensFirstChunk`).

## Model

| member | source | states |
|---|---|---|
| Unicode.LowerChar | app/core/search.py:35 | lower-casing one character gives a character that is not upper case, leaves a non-upper character alone, and keeps word and whitespace class |
| Unicode.LowerIdempotent | app/core/search.py:35 | `lower()` applied twice is `lower()` applied once |
| Unicode.LowerOfLowerIsIdentity | app/core/search.py:35 | a string with no upper-case letter is its own lower-case form |
| Unicode.LowerConcat | app/core/search.py:35 | lower-casing works piecewise over a concatenation |
| Strings.JoinSplit | app/core/chunker.py:9 | splitting a string on a separator and joining the pieces back gives the string |
| Strings.SplitJoin | app/core/doc_parser.py:60 | joining parts that do not contain the separator's first character, and splitting again, gives the parts |
| Strings.JoinLayout | app/core/gemini_client.py:54 | in a join, each part starts after the earlier parts and one separator each, a separator follows every part but the last, and the join ends with the last part |
| Strings.Strip | app/core/search.py:35 | the result has no whitespace at either end and sits inside the input with only whitespace around it |
| Strings.StripIdempotent | app/core/search.py:35 | stripping twice is stripping once |
| Strings.StripAndDropEmptyMembers | scripts/crawler.py:26-29 | a string is among the kept paragraphs exactly when it is the non-empty stripped form of some input paragraph |
| Strings.StripAndDropEmptyIsFilter | scripts/crawler.py:26-29 | the kept paragraphs are the stripped paragraphs, in input order, with the empty ones removed; each non-empty stripped form occurs as often as it does among the stripped paragraphs |
| Strings.StripAndDropEmptyAppend | scripts/crawler.py:26-29 | the comprehension works paragraph by paragraph: the result for `a + b` is the result for `a` followed by the result for `b` |
| Basics.FilterCounts | app/core/search.py:107 | the filtering comprehension keeps exactly the accepted elements, each as often as it occurs, and never grows the list |
| Basics.FilterAppend | app/core/search.py:107 | filtering a concatenation is the concatenation of the filtered parts, so kept elements stay in order |
| DocParser.StructureLine | app/core/doc_parser.py:47-57 | a paragraph's line is its rule's opening markup, the paragraph, then the closing markup; unwrapping gives the paragraph back, the paragraph is a substring of the line, an unmatched paragraph is unchanged, and no line break is added |
| DocParser.ImageRuleWins | app/core/doc_parser.py:48-49 | a paragraph with "http" and ".jpg" or ".png" becomes `![image](p)`, even when it starts with "Điều " |
| DocParser.ChapterAndArticleExclusive | app/core/doc_parser.py:50-53 | no paragraph passes both the chapter test and the article test |
| DocParser.ArticleParagraphBecomesHeading | app/core/doc_parser.py:52-53 | a non-image paragraph starting "Điều " or "ĐIỀU " becomes `## p`, because the test is on the lower-cased text |
| DocParser.NumberedTailMatchesRegex | app/core/doc_parser.py:54 | the scan for whitespace, digits and one of `.:)` after a list word accepts exactly the strings the pattern matches |
| DocParser.StructureLines | app/core/doc_parser.py:46-57 | one line per paragraph, in paragraph order |
| DocParser.ConvertToMarkdownRoundTrip | app/core/doc_parser.py:45-60 | for single-line paragraphs, the markdown splits on blank lines into exactly one line per paragraph, in order, and each line unwraps to its paragraph |
| DocParser.ExtractTitle | app/core/doc_parser.py:32-37 | the title is the first paragraph longer than 10 characters; if there is none, it is the fixed fallback |
| DocParser.SearchDate | doc_parser.py:28-30 | returns the leftmost position where the date pattern matches, or nothing when it matches nowhere |
| DocParser.ExtractDate | doc_parser.py:27-33 | "" exactly when no paragraph holds a date; otherwise the date phrase of the first paragraph that holds one |
| DocParser.ReadParagraphs | app/core/doc_parser.py:25 | the kept paragraphs are the stripped raw paragraphs, in order and with their multiplicity, with the empty ones removed; each is its own stripped form |
| DocParser.TextRoundTrip | app/core/doc_parser.py:15 | the text joins single-line paragraphs with line breaks and splits back into them |
| DocParser.RecordRoundTrip | app/core/doc_parser.py:62-70 | for both parsers, the record's text splits back into the paragraphs and its markdown into the structured lines |
| Headings.AppHeadingMatchesRegex | app/core/chunker.py:25 | the newer chunker's test accepts a line exactly when it reads as one or two '#', optional whitespace, "Điều", whitespace and a digit |
| Headings.RootHeadingMatchesRegex | chunker.py:19 | the older chunker's test accepts a paragraph exactly when it starts with "Điều" or "ĐIỀU", whitespace and a digit |
| Headings.WebHeadingMatchesRegex | scripts/crawler.py:31 | the crawler's test accepts a paragraph exactly when it starts with "Điều", or with one or more '#' then optional whitespace then "Điều", followed by whitespace and a digit |
| Headings.BareArticleBoundaries | app/core/chunker.py:25 | a bare "Điều 5" line does not open a chunk in the newer chunker, but does in the older one and in the crawler |
| Headings.CapitalArticleBoundaries | chunker.py:19 | an "ĐIỀU 5" paragraph opens a chunk only in the older chunker |
| Headings.AppHeadingIsWebHeading | scripts/crawler.py:31 | every newer-chunker heading is also a crawler heading |
| ArticleScan.ScanInvariant | app/core/chunker.py:24-31 | after any prefix of the lines, the accumulator holds: one closed section per earlier heading, titled by it; heading-free bodies; the lines read in section order; and the pre-heading lines at the front of the first body |
| ArticleScan.SectionsSpec | app/core/chunker.py:24-34 | one section per heading line, in order and titled by it; bodies contain no heading; flattening the sections gives the input with its pre-heading lines moved behind the first heading; the sections are a permutation of the lines |
| ArticleScan.SplitByArticle | app/core/chunker.py:24-34 | the same, for each of the three heading rules |
| ArticleScan.SplitKeepsOrder | app/core/chunker.py:24-34 | when the first line is a heading, the sections' titles and bodies reproduce the input exactly |
| ArticleScan.NoHeadingNoSection | app/core/chunker.py:33-34 | without a heading line there are no sections |
| ArticleScan.SectionLinesFromInput | app/core/chunker.py:24-31 | every title and body line of a section is a line of the input |
| ArticleScan.ReorderedPermutes | app/core/chunker.py:24-31 | moving the pre-heading lines behind the first heading permutes the lines |
| ChunkBuild.ChunkTextLines | app/core/chunker.py:40 | a chunk's text splits back into its title and body lines; an empty body leaves one empty line |
| ChunkBuild.BuildChunks | app/core/chunker.py:38-57 | one chunk per section, numbered 1..n with the given document id; each chunk carries its section's title, and its text is the title, a line break and the body lines joined by line breaks; a failed encoding gives the vector `[]`, a successful one the encoding of that text, and the other chunks are still built; chunk keys are distinct |
| ChunkBuild.BuildChunksStrict | chunker.py:30-43 | fails exactly when some section's encoding fails; otherwise gives one chunk per section, as the tolerant loop builds it |
| ChunkBuild.StrictAgreesWhenEncodingSucceeds | chunker.py:30-43 | when no encoding fails, the older and newer result loops agree |
| ChunkBuild.BuiltChunkLines | scripts/crawler.py:45 | each built chunk's text splits back into its title and body lines |
| ChunkBuild.FirstChunkBody | app/core/chunker.py:40 | the first chunk's lines are its title and then its section's body lines, so whatever the body starts with follows the title |
| AppChunker.LinesInterleave | app/core/chunker.py:9 | splitting the markdown on line breaks gives the structured lines with an empty line between each pair |
| AppChunker.InterleaveHeadings | app/core/chunker.py:9 | the empty lines that splitting adds are never headings, so the heading lines are those of the structured lines |
| AppChunker.ChunkDocument | app/core/chunker.py:19-57 | one chunk per heading line of the split markdown, titled by it; its text is the title, a line break and its section's body lines joined by line breaks; chunk ids 1..n with the constructor's document id; a failed encoding gives `[]` and a successful one the encoding of the text; keys are distinct |
| AppChunker.ChunkContentLines | app/core/chunker.py:24-40 | each chunk's text splits back into its heading line and the lines up to the next heading |
| AppChunker.PreambleOpensFirstChunk | app/core/chunker.py:22-40 | the lines before the first heading follow the title at the start of chunk 1's text |
| AppChunker.ChunkPerArticleHeading | app/core/chunker.py:24-34 | for single-line paragraphs, the chunks correspond one-to-one and in order to the structured lines that are headings |
| AppChunker.ArticleParagraphOpensChunk | app/core/chunker.py:25 | a non-image paragraph "Điều N…" becomes a line that opens a chunk |
| AppChunker.CapitalArticleParagraphJoinsPrevious | app/core/chunker.py:25 | a non-image paragraph "ĐIỀU …" becomes a line that does not open a chunk, so it joins the previous chunk's body |
| RootChunker.ChunkDocument | chunker.py:14-43 | fails exactly when some chunk's encoding fails; otherwise one chunk per heading paragraph, titled by it, with ids 1..n, the given document id, content the title then the article's body paragraphs joined by line breaks, and the encoding of that content as its vector |
| RootChunker.ChunkContentLines | chunker.py:32 | when no paragraph holds a line break, each chunk's content splits back into its title and body paragraphs |
| WebChunker.RawParagraphs | scripts/crawler.py:22-24 | the pieces are the markdown's blank-line split when it has at least two pieces, and otherwise the text's line split; they join back to their source, and no piece holds its separator |
| WebChunker.ChunkByArticle | scripts/crawler.py:18-59 | one chunk per heading among the stripped non-empty paragraphs, titled by it; its text is the title, a line break and its section's paragraphs joined by line breaks; ids 1..n with the given document id; a failed encoding gives `[]` and a successful one the encoding of the text |
| WebChunker.ChunkParagraphs | scripts/crawler.py:26-59 | the same, over a given list of paragraphs |
| WebChunker.ChunkContentLines | scripts/crawler.py:26-45 | when no paragraph holds a line break, each chunk's text splits back into its heading paragraph and the paragraphs up to the next heading |
| WebChunker.PreambleOpensFirstChunk | scripts/crawler.py:26-45 | the paragraphs before the first heading are the first body paragraphs of chunk 1, whose text is the title and its body |
| WebChunker.SectionLinesAreStrippedParagraphs | scripts/crawler.py:26-29 | every title and body line is non-empty, has no surrounding whitespace, and is the stripped form of an input paragraph |
| KeywordSearch.KeepWordOrSpace | app/core/search.py:35 | removing punctuation keeps every word and whitespace character as often as it occurs and no other character; it keeps lower case and changes nothing in a string without punctuation |
| KeywordSearch.KeepWordOrSpaceAppend | app/core/search.py:35 | the removal works character by character: on a concatenation it is the concatenation of the parts' results, so the kept characters stay in order |
| KeywordSearch.Normalize | app/core/search.py:34-35 | the normalised text is lower case, has only word and whitespace characters and no whitespace at either end, and holds every word character of the lower-cased text as often as it occurs there |
| KeywordSearch.NormalizeFixesNormal | app/core/search.py:34-35 | a text already in normal form normalises to itself |
| KeywordSearch.NormalizeIdempotent | app/core/search.py:34-35 | normalising twice is normalising once |
| KeywordSearch.RefAtMatchesRegex | app/core/search.py:70 | the scan finds an article reference at a position exactly when "điều", whitespace and digits can be read there |
| KeywordSearch.ArticleRef | app/core/search.py:70-73 | no reference exactly when the pattern matches nowhere; a found reference starts with "điều" and occurs in the query |
| KeywordSearch.ArticleRefLeftmost | app/core/search.py:70-73 | the reference is the leftmost match, with the whole digit run |
| KeywordSearch.Tier1Selects | app/core/search.py:74-84 | every chunk whose normalised text contains the reference is a tier-1 hit with score 1.0 |
| KeywordSearch.ArticlePrefixCollision | app/core/search.py:74-84 | because the test is a plain substring test, a query for "điều 15" selects a chunk that mentions "điều 150" |
| KeywordSearch.AddNew | app/core/search.py:86-98 | a tier loop only appends; the appended results are new keys and score-accepted chunks; every accepted chunk's key ends up in the results; distinct keys stay distinct |
| KeywordSearch.Layer | app/core/search.py:85-100 | a tier runs only while there are fewer than `top_k` results; when it runs, every chunk it accepts is represented; what it appends are new keys of chunks it accepts, with the score it gives them |
| KeywordSearch.DropStopWords | app/core/search.py:101-107 | keeps every word that is not a stop word, as often as it occurs, and no stop word; empty exactly when all words are stop words |
| KeywordSearch.DropStopWordsAppend | app/core/search.py:107 | the filter works word by word: on a concatenation it is the concatenation of the parts' results, so the kept words stay in query order |
| KeywordSearch.Keywords | app/core/search.py:107 | the keywords are the query's non-stop words, each as often as it occurs in the query |
| KeywordSearch.MatchCount | app/core/search.py:113 | counts at most all keywords: all of them exactly when every keyword occurs, none exactly when none occurs |
| KeywordSearch.Share | app/core/search.py:113 | the ratio lies in [0, 1]; it is 0 exactly when the count is 0, and 1 exactly when every item counts |
| KeywordSearch.KeywordScore | app/core/search.py:113 | the tier-3 score lies in [0, 1] |
| KeywordSearch.KeywordScoreExtremes | app/core/search.py:113 | the score is 1 exactly when there are keywords and all occur, and 0 exactly when none occurs |
| KeywordSearch.Tier3Of | app/core/search.py:113-114 | a chunk is accepted exactly when its score reaches 0.2, with that score, which lies in [0.2, 1] |
| KeywordSearch.StopWordsAddNothing | app/core/search.py:107-114 | a query made only of stop words adds nothing in tier 3 |
| KeywordSearch.Candidates | app/core/search.py:68-122 | tier 1's hits come first, then tier 2's; with `top_k` or more after a tier nothing is added; otherwise every chunk containing the whole normalised query is represented; every result after tier 1 is a chunk containing the whole query with score 1.0 or a chunk whose keyword share reaches 0.2, with that share; keys stay distinct |
| KeywordSearch.Tier3Complete | app/core/search.py:100-122 | when tiers 1 and 2 leave fewer than `top_k` results, every chunk whose keyword share reaches 0.2 is represented |
| KeywordSearch.EmptyQueryFindsEverything | app/core/search.py:85-98 | an empty normalised query matches every chunk in tier 2 |
| KeywordSearch.CandidatesGood | app/core/search.py:68-122 | every candidate is a keyword result for some chunk, with a score in [0.2, 1], and is the hit one of the three tiers makes of that chunk with that tier's score |
| KeywordSearch.Search | app/core/search.py:66-125 | the results are the `top_k` best candidates: sorted by descending score, exactly min(`top_k`, candidates) of them, drawn from the candidates, no dropped candidate outscoring a kept one; each is a tier hit of an indexed chunk, typed keyword, scoring in [0.2, 1]; keys are distinct when the index's keys are |
| Ranking.SortDescSorted | app/core/search.py:64 | the sort gives a descending permutation of its input |
| Ranking.SortDescStable | app/core/search.py:64 | results with equal scores keep their input order |
| Ranking.InsertSorted | app/core/search.py:64 | inserting into a descending list keeps it descending |
| Ranking.InsertMembers | app/core/search.py:64 | inserting adds exactly the new result |
| Ranking.RankTop | app/core/search.py:64 | the top-k cut is sorted, has length min(k, n) for k >= 0 (and drops -k from the end for k < 0, as Python's slice does), is a sub-multiset of the input, and nothing it leaves out scores higher than anything it keeps |
| Ranking.RankTopStable | app/core/search.py:64 | among the results kept, equal scores keep their input order |
| Ranking.RankTopKeysDistinct | app/core/search.py:64 | distinct keys stay distinct |
| Ranking.ScoreEach | app/core/search.py:44-59 | one result per accepted chunk, each carrying its chunk's fields and score |
| Ranking.ScoreEachDistinct | app/core/search.py:44-59 | distinct chunk keys give distinct result keys |
| Ranking.ScoreEachAppend | app/core/search.py:44-59 | scoring a concatenation of chunk lists is the concatenation of the scored parts |
| Ranking.ScoreEachInOrder | app/core/search.py:44-59 | two accepted chunks produce results in the order of the chunks in the index |
| VectorSearch.RankScored | app/core/search.py:43-64 | the results are the `top_k` best accepted chunks: sorted, exactly min(`top_k`, accepted) of them, drawn from the accepted chunks with their scores, a chunk left out scoring no more than any result |
| VectorSearch.Search | app/core/search.py:37-64 | a failed query encoding gives no results; otherwise the results are the `top_k` best eligible chunks (sorted, exactly min(`top_k`, eligible) of them, none left out outscoring a kept one), typed vector, each of the query's dimension with its similarity score |
| VectorSearch.TiesKeepStoreOrder | app/core/search.py:43-64 | results with equal scores appear in the order their chunks have in the index |
| VectorSearch.SearchKeepsBest | app/core/search.py:43-64 | an eligible chunk that is left out scores no more than any result |
| VectorSearch.IneligibleNeverReturned | app/core/search.py:45-47 | a chunk whose vector is missing, empty or not a list is never returned |
| VectorSearch.SearchStrict | search.py:24-51 | the older search fails exactly when the encoding fails or an eligible vector has the wrong dimension; otherwise it gives the `top_k` best eligible chunks (sorted, exactly min(`top_k`, eligible) of them), typed vector, scored by the normalised product |
| Hybrid.LastWithKey | app/core/search.py:133-136 | the dict lookup finds nothing exactly when no keyword result has the key; otherwise it finds a result with that key at a position after which no result has the key, i.e. the last one |
| Hybrid.Upsert | app/core/search.py:133-136 | a dict assignment keeps keys distinct, adds the key, and keeps every other entry |
| Hybrid.Entries | app/core/search.py:133-136 | the dict has one entry per key of the keyword results, holding the last result with that key, with the keys in the order they first appear |
| Hybrid.UpsertOrder | app/core/search.py:133-136 | a dict assignment keeps the key order and puts a new key last |
| Hybrid.VectorPart | app/core/search.py:141-154 | one blended result per vector result, in order |
| Hybrid.Merge | app/core/search.py:138-165 | the blend covers exactly the keys of both pools, all typed hybrid, with each key once when the vector pool's keys are distinct; its keys are the vector pool's in pool order, then the keyword-only keys in dict order |
| Hybrid.MergeVectorScore | app/core/search.py:141-153 | a blended chunk from the vector pool scores `alpha * v + (1 - alpha) * k`, where `k` is its keyword score or 0.0 |
| Hybrid.MergeKeywordScore | app/core/search.py:156-165 | a blended chunk only in the keyword pool scores `(1 - alpha) * k` |
| Hybrid.AlphaExtremes | app/core/search.py:141-165 | `alpha = 1` keeps the vector scores and gives keyword-only chunks 0; `alpha = 0` keeps only keyword scores |
| Hybrid.BlendInUnitRange | app/core/search.py:141-165 | with `alpha` and every pooled score in [0, 1], every blended score is in [0, 1] |
| Hybrid.Blend | app/core/search.py:168 | the ranked blend is the `top_k` best of the merge: sorted, exactly min(`top_k`, merged) of them, none left out outscoring a kept one; typed hybrid, with keys distinct when the vector pool's keys are |
| Hybrid.Search | app/core/search.py:127-168 | the hybrid search is the `top_k` best of the merge of the vector and keyword pools, each cut at 100: sorted, exactly min(`top_k`, merged) of them; typed hybrid, describes indexed chunks, and has distinct keys when the index does |
| Hybrid.SearchStrict | search.py:115-155 | the older hybrid search fails exactly when its vector search fails, and otherwise is the `top_k` best of the merge of its two pools, with the same guarantees |
| Index.LoadChunks | app/core/search.py:14-21 | a chunk is loaded exactly when some listed article's rows contain it |
| Index.LoadChunksAppend | app/core/search.py:18-21 | loading two runs of articles concatenates their chunks in article order |
| Index.LoadChunksLength | app/core/search.py:18-21 | the index holds as many chunks as the articles have rows |
| Index.LoadChunksKeysDistinct | app/core/search.py:14-21 | distinct article ids over a store that keys rows by document give distinct chunk keys |
| Index.Refresh | app/core/search.py:169-180 | after a refresh the index holds exactly the stored chunks of the listed articles |
| Index.RefreshIsOpen | app/core/search.py:169-180 | a refresh gives the same index as starting afresh |
| PromptText.JoinContents | app/core/gemini_client.py:54 | every result's content occurs in the context block, at increasing offsets in the results' order, separated by a blank line, with nothing after the last; no results give "" |
| PromptText.ContentsInOrder | app/core/gemini_client.py:54 | an earlier result's content ends before a later one's starts |
| PromptText.JoinContentsSplits | app/core/gemini_client.py:54 | single-line contents can be recovered by splitting the block on blank lines |
| AppPrompt.Context | app/core/gemini_client.py:54 | `None` and an empty list give ""; otherwise every content occurs in the block, in the results' order, separated by blank lines |
| AppPrompt.Instructions | app/core/gemini_client.py:56-65 | the instructions have no surrounding whitespace; `None` or "" give the defaults; other custom text is used stripped |
| AppPrompt.InstructionsVerbatim | app/core/gemini_client.py:56 | trimmed custom instructions are used unchanged |
| AppPrompt.BlankInstructionsVanish | app/core/gemini_client.py:56 | custom instructions made only of whitespace do not fall back to the defaults; they become "" |
| AppPrompt.BuildPrompt | app/core/gemini_client.py:67-82 | the stripped prompt is the instructions, a rule, the quoted query, a rule, the context and a rule with the closing line, in that order |
| AppPrompt.PromptQuotesQuery | app/core/gemini_client.py:72 | the query occurs in double quotes, and every result's content occurs in the prompt |
| AppPrompt.Route | app/core/gemini_client.py:26-42 | a name starting "gemini" goes to Gemini, one starting "gpt" to OpenAI, and any other is unsupported |
| AppPrompt.DefaultModelIsGemini | app/core/gemini_client.py:24 | the default model name routes to Gemini |
| AppPrompt.Chat | app/core/gemini_client.py:24-46 | a gemini name gets Gemini's answer and a gpt name gets OpenAI's answer stripped, when the call succeeds; an unsupported name or a failed call gives the apology rather than an error; any other reply is the selected provider's answer |
| RootPrompt.Classify | gemini_client.py:24-35 | greeting exactly when the lower-cased query contains a greeting or personal phrase; otherwise legal exactly when it contains a legal keyword; otherwise general |
| RootPrompt.GreetingBeforeLegal | gemini_client.py:30-33 | a query containing both "chào" and "luật" is a greeting |
| RootPrompt.ClassifyIgnoresCase | gemini_client.py:25 | lower-casing a query does not change its category |
| RootPrompt.GreetingPersists | gemini_client.py:30-31 | adding text around a greeting query keeps it a greeting |
| RootPrompt.ResponsibilityIsGreeting | gemini_client.py:26-31 | a query that mentions "trách nhiệm" is classed as a greeting, because "hi" occurs inside "nhiệm" |
| RootPrompt.ClassifyWords | gemini_client.py:24-35 | the classification with greeting and personal phrases matched as whole words: greeting exactly when one occurs as a word, otherwise legal or general as before |
| RootPrompt.ClassifyWordsRefines | gemini_client.py:24-35 | the corrected classification differs from the substring one only by turning substring-only greetings into legal or general |
| RootPrompt.ResponsibilityIsLegal | gemini_client.py:28 | under the corrected classification, "trách nhiệm" is legal |
| RootPrompt.HelloIsGreeting | gemini_client.py:26 | "xin chào" is still a greeting under the corrected classification |
| RootPrompt.PromptFor | gemini_client.py:40-84 | greeting, legal-with-results, legal-without-results and general each give their own template around the quoted query; only legal-with-results embeds the context block |
| RootPrompt.PromptFacts | gemini_client.py:40-84 | every template contains the quoted query; the legal one contains every result's content |
| RootPrompt.BuildPrompt | gemini_client.py:37-84 | the prompt is the template of the substring classification: it quotes the query, a legal query's prompt contains every result, and other categories ignore the results |
| RootPrompt.BuildPromptWords | gemini_client.py:37-84 | the same prompt built from the whole-word classification |
| RootPrompt.BuildPromptWordsRefines | gemini_client.py:37-84 | the two prompts agree on every query the substring test does not call a greeting |
| RootPrompt.ResponsibilityPrompts | gemini_client.py:26-51 | as written, a question about "trách nhiệm" gets the greeting prompt whatever was found; with whole-word matching it gets the legal prompt with the results |
| RootPrompt.StrictPrompt | gemini_client.py:86-103 | the strict prompt is the header, the quoted query, the title line and the content, then the closing; a missing title or content gives "" in its place |
| RootPrompt.StrictPromptCarries | gemini_client.py:86-103 | the strict prompt contains the quoted query, the title and the content |

## Left out

- Reading `.docx` files and saving JSON or markdown files are left out; the parsers start from the paragraph list. The read filter (strip, drop empty) is kept as `DocParser.ReadParagraphs`.
- The newer parser's date is the current date from `datetime.now()`. It is a parameter, `today`, of `DocParser.AppRecord`.
- The embedding model is a parameter `embed`. A failed query encoding in the newer engine is `None`; the older engine has no such catch, and its failure is the `None` of `VectorSearch.SearchStrict`.
- The numpy products are left out. The newer engine's raw product is the parameter `sim`; a dimension mismatch raises inside its loop, is caught, and skips the chunk. The older engine's product of L2-normalised vectors is the parameter `cos`. NaN from a zero-norm vector is not modelled.
- KeywordSearch.Search: scores are the exact keyword shares. The source stores them rounded to two decimals, which keeps them in [0.2, 1] but can merge nearby scores.
- Hybrid.Search: blended scores are not rounded to four decimals, so ties that rounding would create are not modelled.
- KeywordSearch.KeywordScore: the contract gives bounds and the two extreme values; the exact value is the share computed by `Share`.
- `str.lower()` is modelled for ASCII, Latin-1 and the Vietnamese letters only. The regex `\w` covers ASCII, Latin-1 (letters, the superscript digits ² ³ ¹ and the fractions ¼ ½ ¾), Latin Extended-A and -B and Latin Extended Additional, and no other script or numeric character, `\d` covers ASCII digits only, and `\s` and `strip()` use Python's whitespace set. Unicode normalisation forms are not modelled.
- The database is a parameter `fetch` from document id to its chunk rows, in order. SQL, psycopg2 and PostgreSQL semantics are left out.
- `refresh` rebinds `all_chunks` to a new empty list and extends it article by article (app/core/search.py:172-178). A search already holding the old list keeps it, and a search starting meanwhile sees the new list partly filled. The model gives only the finished state, so this interleaving with concurrent searches is not modelled.
- The language-model calls and API-key checks are left out, and the older client's `chat`, which only forwards to the model, is not modelled. The newer client's calls are the parameters `gemini` and `openai`.
- `build_strict_prompt` is given a map of string fields. Non-string field values are not modelled.
- The crawler's top-level scraping script, the logger, the HTTP APIs and both user interfaces are left out: they are I/O and presentation around the core.

## Findings

| source | as written | input that shows it | evidently intended | confidence | as-written member | corrected member |
|---|---|---|---|---|---|---|
| gemini_client.py:26-31 | greeting phrases are matched as substrings of the lower-cased query, so "hi" fires inside other words | the query "trách nhiệm" (a legal keyword) is classed as a greeting, because "nhiệm" contains "hi" | greeting phrases match whole words only, so "trách nhiệm" is legal | not executed | RootPrompt.ResponsibilityIsGreeting | RootPrompt.ResponsibilityIsLegal |

`RootPrompt.Classify` models the code as written, and `RootPrompt.BuildPrompt` uses it, as `build_prompt` does. `RootPrompt.ClassifyWords` is the corrected classification; `RootPrompt.BuildPromptWords` builds the prompt from it, and `RootPrompt.ResponsibilityPrompts` shows the two prompts for "trách nhiệm".

=== FILE: app_chunker.dfy ===
/** The newer chunker: it splits the structured markdown into lines and
    starts a chunk at every markdown article heading (`#` or `##`, then
    "Điều" and a number); an encoding failure leaves the chunk's vector empty. */
module AppChunker {
  import opened Basics
  import opened Strings
  import opened Headings
  import opened DocParser
  import opened Records
  import opened ArticleScan
  import opened ChunkBuild

  /** `parser._convert_to_markdown_structured().split('\n')`. */
  function Lines(ps: seq<string>): seq<string> {
    Split(ConvertToMarkdown(ps), "\n")
  }

  /** `DocChunker(parser, doc_id).chunks`. */
  function ChunkDocument(ps: seq<string>, docId: int, embed: string -> Option<seq<real>>): (r: seq<Chunk>)
    ensures |r| == |HeadingLines(IsAppHeading, Lines(ps))|
    ensures forall k :: 0 <= k < |r| ==> r[k].title == HeadingLines(IsAppHeading, Lines(ps))[k]
    ensures forall k :: 0 <= k < |r| ==> r[k].docId == docId && r[k].chunkId == k + 1
    ensures forall k :: 0 <= k < |r| ==>
      r[k].content == r[k].title + "\n" + Join(SplitByArticle(AppRule, Lines(ps))[k].body, "\n")
    ensures forall k :: 0 <= k < |r| ==> r[k].vector.Values?
    ensures forall k :: 0 <= k < |r| ==> (embed(r[k].content).None? ==> r[k].vector.values == [])
    ensures forall k :: 0 <= k < |r| ==>
      (embed(r[k].content).Some? ==> r[k].vector.values == embed(r[k].content).value)
    ensures ChunkKeysDistinct(r)
  {
    var secs := SplitByArticle(AppRule, Lines(ps));
    assert Boundary(AppRule) == IsAppHeading;
    BuildChunks(docId, secs, embed)
  }

  /** The chunker's lines come from splitting at newlines, so none holds
      one. */
  lemma LinesHaveNoNewline(ps: seq<string>)
    ensures NoNewline(Lines(ps))
  {
    var ls := Lines(ps);
    forall x | x in ls
      ensures '\n' !in x
    {
      var i :| 0 <= i < |ls| && ls[i] == x;
      CharNotIn(x, '\n');
    }
  }

  /** Chunk `k`'s text is its heading line followed by the lines up to the
      next heading, one per line. */
  lemma ChunkContentLines(ps: seq<string>, docId: int, embed: string -> Option<seq<real>>, k: int)
    requires 0 <= k < |ChunkDocument(ps, docId, embed)|
    ensures var sec := SplitByArticle(AppRule, Lines(ps))[k];
      Split(ChunkDocument(ps, docId, embed)[k].content, "\n")
        == [sec.title] + (if sec.body == [] then [""] else sec.body)
  {
    var secs := SplitByArticle(AppRule, Lines(ps));
    LinesHaveNoNewline(ps);
    forall x | x == secs[k].title || x in secs[k].body
      ensures '\n' !in x
    {
      SectionLinesFromInput(AppRule, Lines(ps), k, x);
    }
    BuiltChunkLines(docId, secs, embed, k);
  }

  /** The lines before the first article heading are not dropped: they
      stay in the accumulator and become the first body lines of chunk 1. */
  lemma PreambleOpensFirstChunk(ps: seq<string>, docId: int, embed: string -> Option<seq<real>>)
    requires ChunkDocument(ps, docId, embed) != []
    ensures HeadingLines(IsAppHeading, Lines(ps)) != []
    ensures var lines := Split(ChunkDocument(ps, docId, embed)[0].content, "\n");
      Lines(ps)[..FirstHeading(IsAppHeading, Lines(ps))] <= lines[1..]
  {
    var secs := SplitByArticle(AppRule, Lines(ps));
    assert Boundary(AppRule) == IsAppHeading;
    LinesHaveNoNewline(ps);
    forall x | x == secs[0].title || x in secs[0].body
      ensures '\n' !in x
    {
      SectionLinesFromInput(AppRule, Lines(ps), 0, x);
    }
    FirstChunkBody(docId, secs, embed, Lines(ps)[..FirstHeading(IsAppHeading, Lines(ps))]);
  }

  /** The structured lines with an empty line between neighbours: what
      splitting the blank-line-joined markdown at single newlines yields. */
  function Interleave(ls: seq<string>): (r: seq<string>)
    requires |ls| >= 1
    decreases |ls|
    ensures |r| == 2 * |ls| - 1
    ensures forall x :: x in r ==> x in ls || x == ""
  {
    if |ls| == 1 then ls
    else
      var rest := Interleave(ls[1..]);
      assert forall x :: x in rest ==> x in ls || x == "";
      [ls[0], ""] + rest
  }

  lemma {:induction false} JoinInterleave(ls: seq<string>)
    requires |ls| >= 1
    ensures Join(ls, "\n\n") == Join(Interleave(ls), "\n")
    decreases |ls|
  {
    if |ls| > 1 {
      JoinInterleave(ls[1..]);
      var rest := Interleave(ls[1..]);
      assert Interleave(ls) == [ls[0]] + ([""] + rest);
      assert ([""] + rest)[1..] == rest;
      assert (Interleave(ls))[1..] == [""] + rest;
    }
  }

  /** The chunker's input lines are the structured paragraphs with an empty
      line between each two. */
  lemma LinesInterleave(ps: seq<string>)
    requires |ps| >= 1
    requires forall p :: p in ps ==> '\n' !in p
    ensures Lines(ps) == Interleave(StructureLines(ps))
  {
    var ls := StructureLines(ps);
    JoinInterleave(ls);
    var il := Interleave(ls);
    forall k | 0 <= k < |il|
      ensures "\n"[0] !in il[k]
    {
      if il[k] != "" {
        assert il[k] in ls;
        var i :| 0 <= i < |ls| && ls[i] == il[k];
        assert ps[i] in ps;
      }
    }
    SplitJoin(il, "\n");
  }

  lemma {:induction false} InterleaveHeadings(hd: string -> bool, ls: seq<string>)
    requires |ls| >= 1 && !hd("")
    ensures HeadingLines(hd, Interleave(ls)) == HeadingLines(hd, ls)
    decreases |ls|
  {
    if |ls| > 1 {
      var x, tail := ls[0], ls[1..];
      var rest := Interleave(tail);
      assert Interleave(ls) == [x] + ([""] + rest);
      assert ls == [x] + tail;
      InterleaveHeadings(hd, tail);
      BlankSkipped(hd, x, rest, tail);
    }
  }

  /** A line, a blank line and `rest` hold the line's heading (if any) and
      then `rest`'s, which are `tail`'s. */
  lemma BlankSkipped(hd: string -> bool, x: string, rest: seq<string>, tail: seq<string>)
    requires !hd("") && HeadingLines(hd, rest) == HeadingLines(hd, tail)
    ensures HeadingLines(hd, [x] + ([""] + rest)) == HeadingLines(hd, [x] + tail)
  {
    HeadingLinesCons(hd, x, [""] + rest);
    HeadingLinesCons(hd, "", rest);
    HeadingLinesCons(hd, x, tail);
  }

  /** One chunk per structured line that is a markdown article heading, in
      document order. */
  lemma ChunkPerArticleHeading(ps: seq<string>, docId: int, embed: string -> Option<seq<real>>)
    requires |ps| >= 1
    requires forall p :: p in ps ==> '\n' !in p
    ensures |ChunkDocument(ps, docId, embed)| == |HeadingLines(IsAppHeading, StructureLines(ps))|
    ensures forall k :: 0 <= k < |ChunkDocument(ps, docId, embed)| ==>
      ChunkDocument(ps, docId, embed)[k].title == HeadingLines(IsAppHeading, StructureLines(ps))[k]
  {
    LinesInterleave(ps);
    assert !IsAppHeading("");
    InterleaveHeadings(IsAppHeading, StructureLines(ps));
  }

  /** A paragraph "Điều <n>…" (no image link) opens a chunk: the structurer
      makes it "## Điều <n>…", which the boundary test accepts. */
  lemma ArticleParagraphOpensChunk(p: string)
    requires !IsImageRef(p)
    requires StartsWith(p, "Điều ") && SpacesThenDigit(p[|ARTICLE|..])
    ensures IsAppHeading(StructureLine(p))
  {
    ArticleParagraphBecomesHeading(p);
    LevelTwoArticle(p);
  }

  lemma LevelTwoArticle(p: string)
    requires StartsWith(p, "Điều ") && SpacesThenDigit(p[|ARTICLE|..])
    ensures IsAppHeading("## " + p)
  {
    var line := "## " + p;
    assert line[2..] == " " + p;
    SpanExact(line, IsHash, 2);
    SpanExact(line[2..], Unicode.IsSpace, 1);
    assert line[2..][1..] == p;
  }

  /** A paragraph "ĐIỀU <n>…" becomes "## ĐIỀU <n>…", which the boundary test
      rejects: its text joins the preceding chunk. */
  lemma CapitalArticleParagraphJoinsPrevious(p: string)
    requires !IsImageRef(p)
    requires StartsWith(p, "ĐIỀU ")
    ensures !IsAppHeading(StructureLine(p))
  {
    ArticleParagraphBecomesHeading(p);
    LevelTwoCapitalArticle(p);
  }

  lemma LevelTwoCapitalArticle(p: string)
    requires StartsWith(p, "ĐIỀU ")
    ensures !IsAppHeading("## " + p)
  {
    var line := "## " + p;
    assert line[2..] == " " + p;
    SpanExact(line, IsHash, 2);
    SpanExact(line[2..], Unicode.IsSpace, 1);
    assert line[2..][1..] == p;
    assert p[1] == 'I' != ARTICLE[1];
  }
}

=== FILE: app_prompt.dfy ===
/** The newer service's LLM client: the prompt built from the query, the
    retrieved chunks and optional custom instructions, and the routing of a
    prompt to a model by its name. The model calls are parameters:
    `gemini(model, prompt)` and `openai(model, prompt)` give the reply text,
    or `None` where the call raises (or, for OpenAI, where the message has no
    content). */
module AppPrompt {
  import opened Basics
  import opened Unicode
  import opened Strings
  import opened Records
  import opened PromptText

  /** The instructions used when the caller gives none (already stripped). */
  const DEFAULT_INSTRUCTIONS: string :=
    YOU_ARE + "trợ lý pháp lý thân thiện, lịch sự và trung thực của Việt Nam.\n"
    + "\n"
    + "Nhiệm vụ của bạn:\n"
    + "1. Nếu người dùng CHÀO HỎI → hãy trả lời chào hỏi tự nhiên, thân thiện.\n"
    + "2. Nếu người dùng hỏi VỀ PHÁP LUẬT → bạn chỉ được phép trả lời dựa trên TÀI LIỆU dưới đây (nếu có) và giải thích rõ ràng nếu người dùng cần,không hiểu.\n"
    + "3. Nếu câu hỏi KHÔNG LIÊN QUAN đến pháp luật → hãy lịch sự từ chối và nói rằng bạn chỉ hỗ trợ câu hỏi pháp luật.\n"
    + "4. Nếu không tìm thấy nội dung liên quan trong tài liệu → hãy trả lời: \n"
    + "\"" + SORRY + "tôi không có đủ thông tin trong tài liệu hiện tại để trả lời câu hỏi này.\""

  /** A horizontal rule on its own line. */
  const RULE: string := "---\n"

  /** A blank line, then a rule: what separates the prompt's sections. */
  const SEPARATOR: string := "\n\n" + RULE

  const ASK_TITLE: string := "Câu hỏi của người dùng:\n"

  /** The separator and heading before the quoted query. */
  const ASK: string := SEPARATOR + ASK_TITLE

  /** The separator and heading before the context block. */
  const DOCS: string := SEPARATOR + "Tài liệu (nếu có):\n"

  /** The separator and the closing line. */
  const CLOSING: string := SEPARATOR + "Hãy đưa ra câu trả lời phù hợp nhất theo đúng quy tắc trên."

  /** The blank line and indentation that end the template literal. */
  const TAIL: string := "\n        "

  /** "I am sorry,": how both of the service's apologies open. */
  const SORRY: string := "Tôi xin lỗi, "

  /** The reply when the model name is not supported or the call fails. */
  const APOLOGY: string := SORRY + "đã xảy ra lỗi khi xử lý câu hỏi của bạn. Vui lòng thử lại sau."

  /** The model `chat` uses when the caller names none. */
  const DEFAULT_MODEL: string := "gemini-2.0-flash"

  lemma DefaultInstructionsTrimmed()
    ensures DEFAULT_INSTRUCTIONS != "" && Trimmed(DEFAULT_INSTRUCTIONS)
  {
    assert DEFAULT_INSTRUCTIONS[0] == 'B';
    assert DEFAULT_INSTRUCTIONS[|DEFAULT_INSTRUCTIONS| - 1] == '"';
  }

  /** The context block: the results' contents in order, separated by blank
      lines; `None` and an empty list both give the empty block. */
  function Context(results: Option<seq<SearchResult>>): (r: string)
    ensures results.None? || results == Some([]) ==> r == ""
    ensures results.Some? ==> forall i :: 0 <= i < |results.value| ==> Contains(r, results.value[i].content)
    ensures results.Some? ==> forall i :: 0 <= i < |results.value| ==>
      OccursAt(r, results.value[i].content, ContentAt(results.value, i))
    ensures results.Some? ==> forall i :: 0 <= i < |results.value| - 1 ==>
      OccursAt(r, "\n\n", ContentAt(results.value, i) + |results.value[i].content|)
  {
    match results
    case None => ""
    case Some(rs) => JoinContents(rs)
  }

  /** Custom instructions, when given and non-empty, are used stripped;
      otherwise the defaults. Either way the result has no surrounding
      whitespace. */
  function Instructions(custom: Option<string>): (r: string)
    ensures Trimmed(r)
    ensures custom.None? || custom == Some("") ==> r == DEFAULT_INSTRUCTIONS
    ensures custom.Some? && custom.value != "" ==> exists i :: FramedBySpace(custom.value, r, i)
  {
    if custom.Some? && custom.value != "" then Strip(custom.value)
    else DefaultInstructionsTrimmed(); DEFAULT_INSTRUCTIONS
  }

  /** Trimmed custom instructions are used verbatim. */
  lemma InstructionsVerbatim(s: string)
    requires s != "" && Trimmed(s)
    ensures Instructions(Some(s)) == s
  {
    StripTrimmed(s);
  }

  /** Custom instructions made only of whitespace are truthy in Python, so
      they do not fall back to the defaults: they strip to nothing. */
  lemma BlankInstructionsVanish(s: string)
    requires s != "" && AllSpace(s)
    ensures Instructions(Some(s)) == ""
  {
    StripExact(s, "", "");
    assert s + "" + "" == s;
  }

  /** The f-string before its final `.strip()`. */
  function Template(instructions: string, query: string, context: string): string {
    "\n" + instructions + ASK + Quoted(query) + DOCS + context + CLOSING + TAIL
  }

  /** `build_prompt`: the instructions, the quoted query, the context block
      and the closing line, in that order, separated by `---` lines. With
      non-empty instructions the stripped prompt starts with them; with
      empty ones it starts at the first rule. */
  function BuildPrompt(query: string, results: Option<seq<SearchResult>>, custom: Option<string>): (r: string)
    ensures Instructions(custom) != "" ==>
      r == Instructions(custom) + ASK + Quoted(query) + DOCS + Context(results) + CLOSING
    ensures Instructions(custom) == "" ==>
      r == RULE + ASK_TITLE + Quoted(query) + DOCS + Context(results) + CLOSING
  {
    var ins, ctx := Instructions(custom), Context(results);
    TemplateFacts();
    if ins != "" then
      FrameStrip(ins, ASK, Quoted(query), DOCS, ctx, CLOSING, TAIL);
      Strip(Template(ins, query, ctx))
    else
      BareFrameStrip(ASK_TITLE, Quoted(query), DOCS, ctx, CLOSING, TAIL);
      Strip(Template(ins, query, ctx))
  }

  lemma TemplateFacts()
    ensures ASK == "\n\n" + RULE + ASK_TITLE && RULE[0] == '-'
    ensures !IsSpace(CLOSING[|CLOSING| - 1]) && AllSpace(TAIL)
  {
    assert CLOSING[|CLOSING| - 1] == '.';
    assert forall i :: 0 <= i < |TAIL| ==> TAIL[i] == '\n' || TAIL[i] == ' ';
  }

  /** Stripping the template with non-empty trimmed instructions removes
      exactly the leading line break and the trailing indentation. */
  lemma FrameStrip(ins: string, ask: string, q: string, docs: string, ctx: string, closing: string, tail: string)
    requires ins != "" && Trimmed(ins)
    requires closing != "" && !IsSpace(closing[|closing| - 1]) && AllSpace(tail)
    ensures Strip("\n" + ins + ask + q + docs + ctx + closing + tail) == ins + ask + q + docs + ctx + closing
  {
    var m := ins + ask + q + docs + ctx + closing;
    assert m[0] == ins[0];
    assert m[|m| - 1] == closing[|closing| - 1];
    assert "\n" + ins + ask + q + docs + ctx + closing + tail == "\n" + m + tail;
    StripExact("\n", m, tail);
  }

  /** With empty instructions the template opens with three line breaks,
      which stripping removes together with the trailing indentation. */
  lemma BareFrameStrip(title: string, q: string, docs: string, ctx: string, closing: string, tail: string)
    requires closing != "" && !IsSpace(closing[|closing| - 1]) && AllSpace(tail)
    ensures Strip("\n" + "" + ("\n\n" + RULE + title) + q + docs + ctx + closing + tail)
      == RULE + title + q + docs + ctx + closing
  {
    var m := RULE + title + q + docs + ctx + closing;
    assert m[0] == '-';
    assert m[|m| - 1] == closing[|closing| - 1];
    assert "\n" + "" + ("\n\n" + RULE + title) + q + docs + ctx + closing + tail == "\n\n\n" + m + tail;
    StripExact("\n\n\n", m, tail);
  }

  /** The query appears verbatim between double quotes, and every retrieved
      content appears in the prompt. */
  lemma PromptQuotesQuery(query: string, results: Option<seq<SearchResult>>, custom: Option<string>)
    ensures Contains(BuildPrompt(query, results, custom), Quoted(query))
    ensures results.Some? ==> forall i :: 0 <= i < |results.value| ==>
      Contains(BuildPrompt(query, results, custom), results.value[i].content)
  {
    var r := BuildPrompt(query, results, custom);
    var ins, ctx := Instructions(custom), Context(results);
    var head := if ins != "" then ins + ASK else RULE + ASK_TITLE;
    SectionsOccur(head, Quoted(query), DOCS, ctx, CLOSING);
    if results.Some? {
      forall i | 0 <= i < |results.value|
        ensures Contains(r, results.value[i].content)
      {
        ContainsTrans(r, ctx, results.value[i].content);
      }
    }
  }

  lemma SectionsOccur(head: string, q: string, docs: string, ctx: string, closing: string)
    ensures Contains(head + q + docs + ctx + closing, q)
    ensures Contains(head + q + docs + ctx + closing, ctx)
  {
    assert head + q + docs + ctx + closing == head + q + (docs + ctx + closing);
    ContainsMiddle(head, q, docs + ctx + closing);
    ContainsMiddle(head + q + docs, ctx, closing);
  }

  /** Which API a model name selects. */
  datatype Provider = Gemini | OpenAI | Unsupported

  /** `chat`'s dispatch on the model name's prefix. The two prefixes exclude
      each other, so the order of the tests does not matter. */
  function Route(model: string): (p: Provider)
    ensures p == Gemini <==> StartsWith(model, "gemini")
    ensures p == OpenAI <==> StartsWith(model, "gpt")
    ensures p == Unsupported <==> !StartsWith(model, "gemini") && !StartsWith(model, "gpt")
  {
    if StartsWith(model, "gemini") then
      assert model[1] == 'e';
      Gemini
    else if StartsWith(model, "gpt") then OpenAI
    else Unsupported
  }

  /** The default model is served by Gemini. */
  lemma DefaultModelIsGemini()
    ensures Route(DEFAULT_MODEL) == Gemini
  {
    assert DEFAULT_MODEL[..6] == "gemini";
  }

  /** `chat`: every failure, including an unsupported model name, ends in the
      apology rather than an exception. A successful call's answer is the
      reply, OpenAI's stripped; a reply other than the apology is the
      selected provider's answer. */
  function Chat(prompt: string, model: string,
                gemini: (string, string) -> Option<string>,
                openai: (string, string) -> Option<string>): (r: string)
    ensures Route(model) == Unsupported ==> r == APOLOGY
    ensures Route(model) == Gemini && gemini(model, prompt).None? ==> r == APOLOGY
    ensures Route(model) == OpenAI && openai(model, prompt).None? ==> r == APOLOGY
    ensures Route(model) == Gemini && gemini(model, prompt).Some? ==> r == gemini(model, prompt).value
    ensures Route(model) == OpenAI && openai(model, prompt).Some? ==> r == Strip(openai(model, prompt).value)
    ensures r != APOLOGY ==>
      || (StartsWith(model, "gemini") && gemini(model, prompt) == Some(r))
      || (StartsWith(model, "gpt") && openai(model, prompt).Some?
          && exists i :: FramedBySpace(openai(model, prompt).value, r, i))
    ensures StartsWith(model, "gpt") ==> Trimmed(r)
  {
    match Route(model)
    case Gemini => gemini(model, prompt).GetOr(APOLOGY)
    case OpenAI =>
      (match openai(model, prompt)
       case None => ApologyTrimmed(); APOLOGY
       case Some(text) => Strip(text))
    case Unsupported => APOLOGY
  }

  lemma ApologyTrimmed()
    ensures Trimmed(APOLOGY)
  {
    assert APOLOGY[0] == 'T';
    assert APOLOGY[|APOLOGY| - 1] == '.';
  }
}

=== FILE: article_scan.dfy ===
/** The article-splitting loop shared by all three chunkers: walk the lines,
    start a new section at each boundary line, and keep the rest as the
    current section's body. The three chunkers differ only in the boundary
    test (`Rule`) and in what lines they feed in. */
module ArticleScan {
  import opened Headings

  datatype Rule = AppRule | RootRule | WebRule

  /** The boundary test of each chunker. */
  function Boundary(rule: Rule): string -> bool {
    match rule
    case AppRule => IsAppHeading
    case RootRule => IsRootHeading
    case WebRule => IsWebHeading
  }

  /** A boundary test that never accepts the empty line. */
  ghost predicate NonEmptyBoundary(hd: string -> bool) {
    forall x :: hd(x) ==> x != ""
  }

  lemma BoundariesNonEmpty(rule: Rule)
    ensures NonEmptyBoundary(Boundary(rule))
  {
    forall x | Boundary(rule)(x)
      ensures x != ""
    {
      HeadingsNotEmpty(x);
    }
  }

  /** A section: the boundary line that opened it and the lines after it. */
  datatype Section = Section(title: string, body: seq<string>)

  /** The loop state: the open section's title (`""` before the first
      boundary) and body, and the sections already closed. */
  datatype Acc = Acc(title: string, body: seq<string>, done: seq<Section>)

  const START := Acc("", [], [])

  /** One iteration of the loop. Lines seen before the first boundary stay in
      the body that the first boundary then takes over. */
  function Step(hd: string -> bool, acc: Acc, line: string): Acc {
    if hd(line) then
      if acc.title != "" then Acc(line, [], acc.done + [Section(acc.title, acc.body)])
      else Acc(line, acc.body, acc.done)
    else
      Acc(acc.title, acc.body + [line], acc.done)
  }

  /** The loop state after the lines `lines`. */
  function Scan(hd: string -> bool, lines: seq<string>): Acc
    decreases |lines|
  {
    if lines == [] then START
    else Step(hd, Scan(hd, lines[..|lines| - 1]), lines[|lines| - 1])
  }

  /** After the loop: the open section is kept only if it has a title. */
  function Close(acc: Acc): seq<Section> {
    if acc.title != "" then acc.done + [Section(acc.title, acc.body)] else acc.done
  }

  /** The boundary lines of `lines`, in order. */
  function HeadingLines(hd: string -> bool, lines: seq<string>): (r: seq<string>)
    decreases |lines|
    ensures |r| <= |lines|
    ensures forall x :: x in r ==> hd(x) && x in lines
    ensures r == [] <==> forall j :: 0 <= j < |lines| ==> !hd(lines[j])
  {
    if lines == [] then []
    else
      var init, last := lines[..|lines| - 1], lines[|lines| - 1];
      assert forall j :: 0 <= j < |init| ==> init[j] == lines[j];
      HeadingLines(hd, init) + (if hd(last) then [last] else [])
  }

  lemma {:induction false} HeadingLinesCons(hd: string -> bool, x: string, rest: seq<string>)
    ensures HeadingLines(hd, [x] + rest) == (if hd(x) then [x] else []) + HeadingLines(hd, rest)
    decreases |rest|
  {
    if rest != [] {
      var init, last := rest[..|rest| - 1], rest[|rest| - 1];
      assert [x] + rest == ([x] + init) + [last];
      assert rest == init + [last];
      HeadingLinesCons(hd, x, init);
      HeadingLinesSnoc(hd, [x] + init, last);
      HeadingLinesSnoc(hd, init, last);
    } else {
      assert [x] + rest == [] + [x];
      HeadingLinesSnoc(hd, [], x);
    }
  }

  /** The position of the first boundary line. */
  function FirstHeading(hd: string -> bool, lines: seq<string>): (h: nat)
    requires HeadingLines(hd, lines) != []
    decreases |lines|
    ensures h < |lines| && hd(lines[h])
    ensures forall j :: 0 <= j < h ==> !hd(lines[j])
  {
    var init := lines[..|lines| - 1];
    assert forall j :: 0 <= j < |init| ==> init[j] == lines[j];
    if HeadingLines(hd, init) != [] then FirstHeading(hd, init) else |lines| - 1
  }

  /** The input with its first boundary line moved to the front: the order in
      which the sections hand the lines back. */
  function Reordered(hd: string -> bool, lines: seq<string>): seq<string>
    requires HeadingLines(hd, lines) != []
  {
    MoveToFront(lines, FirstHeading(hd, lines))
  }

  predicate HeadingFree(hd: string -> bool, body: seq<string>) {
    forall x :: x in body ==> !hd(x)
  }

  /** Each section's title followed by its body, in section order. */
  function Flatten(secs: seq<Section>): seq<string>
    decreases |secs|
  {
    if secs == [] then []
    else
      var last := secs[|secs| - 1];
      Flatten(secs[..|secs| - 1]) + [last.title] + last.body
  }

  function FirstBody(acc: Acc): seq<string> {
    if acc.done == [] then acc.body else acc.done[0].body
  }

  /** What the loop state says once a boundary has been seen: `hs` are the
      boundary lines so far, `reord` the lines so far in section order, and
      `pre` the lines before the first boundary. */
  predicate Inv(hd: string -> bool, hs: seq<string>, reord: seq<string>, pre: seq<string>, acc: Acc) {
    && hs != []
    && acc.title == hs[|hs| - 1]
    && |acc.done| + 1 == |hs|
    && (forall k :: 0 <= k < |acc.done| ==> acc.done[k].title == hs[k])
    && HeadingFree(hd, acc.body)
    && (forall k :: 0 <= k < |acc.done| ==> HeadingFree(hd, acc.done[k].body))
    && Flatten(acc.done) + [acc.title] + acc.body == reord
    && pre <= FirstBody(acc)
  }

  /** What the loop state says about the lines seen so far. */
  predicate ScanInv(hd: string -> bool, lines: seq<string>, acc: Acc) {
    var hs := HeadingLines(hd, lines);
    if hs == [] then acc == Acc("", lines, [])
    else Inv(hd, hs, Reordered(hd, lines), lines[..FirstHeading(hd, lines)], acc)
  }

  lemma FlattenSnoc(secs: seq<Section>, s: Section)
    ensures Flatten(secs + [s]) == Flatten(secs) + [s.title] + s.body
  {
    assert (secs + [s])[..|secs|] == secs;
  }

  lemma HeadingLinesSnoc(hd: string -> bool, init: seq<string>, x: string)
    ensures HeadingLines(hd, init + [x]) == HeadingLines(hd, init) + (if hd(x) then [x] else [])
  {
    assert (init + [x])[..|init|] == init;
  }

  lemma FirstHeadingSnoc(hd: string -> bool, init: seq<string>, x: string)
    requires HeadingLines(hd, init + [x]) != []
    ensures HeadingLines(hd, init) != [] ==> FirstHeading(hd, init + [x]) == FirstHeading(hd, init)
    ensures HeadingLines(hd, init) == [] ==> FirstHeading(hd, init + [x]) == |init|
  {
    assert (init + [x])[..|init|] == init;
  }

  /** A boundary seen before any other: it takes over the lines so far. */
  lemma StepFirstHeading(hd: string -> bool, init: seq<string>, x: string, acc: Acc)
    requires HeadingLines(hd, init) == [] && acc == Acc("", init, [])
    requires hd(x)
    ensures ScanInv(hd, init + [x], Step(hd, acc, x))
  {
    var lines := init + [x];
    HeadingLinesSnoc(hd, init, x);
    FirstHeadingSnoc(hd, init, x);
    MoveToFrontLast(init, x);
    assert lines[..|init|] == init;
    assert Step(hd, acc, x) == Acc(x, init, []);
    InvFirstHeading(hd, init, x);
  }

  lemma InvFirstHeading(hd: string -> bool, init: seq<string>, x: string)
    requires forall j :: 0 <= j < |init| ==> !hd(init[j])
    ensures Inv(hd, [x], [x] + init, init, Acc(x, init, []))
  {
    assert Flatten([]) + [x] + init == [x] + init;
  }

  /** A further boundary: closes the open section. */
  lemma StepNextHeading(hd: string -> bool, init: seq<string>, x: string, acc: Acc)
    requires NonEmptyBoundary(hd)
    requires HeadingLines(hd, init) != [] && ScanInv(hd, init, acc)
    requires hd(x)
    ensures ScanInv(hd, init + [x], Step(hd, acc, x))
  {
    var hs := HeadingLines(hd, init);
    HeadingLinesSnoc(hd, init, x);
    ReorderedSnoc(hd, init, x);
    var pre := init[..FirstHeading(hd, init)];
    assert acc.title in hs;
    InvNextHeading(hd, hs, Reordered(hd, init), pre, acc, x);
  }

  lemma InvNextHeading(hd: string -> bool, hs: seq<string>, reord: seq<string>, pre: seq<string>, acc: Acc, x: string)
    requires Inv(hd, hs, reord, pre, acc) && hd(x) && acc.title != ""
    ensures Step(hd, acc, x) == Acc(x, [], acc.done + [Section(acc.title, acc.body)])
    ensures Inv(hd, hs + [x], reord + [x], pre, Step(hd, acc, x))
  {
    var closed := Section(acc.title, acc.body);
    var acc' := Acc(x, [], acc.done + [closed]);
    FlattenSnoc(acc.done, closed);
    assert Flatten(acc'.done) + [acc'.title] + acc'.body == reord + [x];
    SnocSection(hd, acc.done, closed, hs);
    assert (hs + [x])[..|hs|] == hs;
    assert FirstBody(acc') == FirstBody(acc);
  }

  /** Closing a section keeps the closed sections titled by the boundary
      lines in order and free of boundary lines. */
  lemma SnocSection(hd: string -> bool, done: seq<Section>, closed: Section, hs: seq<string>)
    requires |done| + 1 == |hs|
    requires forall k :: 0 <= k < |done| ==> done[k].title == hs[k]
    requires forall k :: 0 <= k < |done| ==> HeadingFree(hd, done[k].body)
    requires closed.title == hs[|hs| - 1] && HeadingFree(hd, closed.body)
    ensures forall k :: 0 <= k < |done| + 1 ==> (done + [closed])[k].title == hs[k]
    ensures forall k :: 0 <= k < |done| + 1 ==> HeadingFree(hd, (done + [closed])[k].body)
  {
    forall k | 0 <= k < |done| + 1
      ensures (done + [closed])[k].title == hs[k]
      ensures HeadingFree(hd, (done + [closed])[k].body)
    {
      if k < |done| {
        assert (done + [closed])[k] == done[k];
      } else {
        assert (done + [closed])[k] == closed;
      }
    }
  }

  /** A plain line after a boundary: joins the open section's body. */
  lemma StepBodyLine(hd: string -> bool, init: seq<string>, x: string, acc: Acc)
    requires HeadingLines(hd, init) != [] && ScanInv(hd, init, acc)
    requires !hd(x)
    ensures ScanInv(hd, init + [x], Step(hd, acc, x))
  {
    var lines := init + [x];
    var hs := HeadingLines(hd, init);
    HeadingLinesSnoc(hd, init, x);
    assert HeadingLines(hd, lines) == hs;
    ReorderedSnoc(hd, init, x);
    var pre := init[..FirstHeading(hd, init)];
    assert Inv(hd, hs, Reordered(hd, init), pre, acc);
    InvBodyLine(hd, hs, Reordered(hd, init), pre, acc, x);
    assert Inv(hd, HeadingLines(hd, lines), Reordered(hd, lines), lines[..FirstHeading(hd, lines)], Step(hd, acc, x));
  }

  lemma InvBodyLine(hd: string -> bool, hs: seq<string>, reord: seq<string>, pre: seq<string>, acc: Acc, x: string)
    requires Inv(hd, hs, reord, pre, acc) && !hd(x)
    ensures Step(hd, acc, x) == Acc(acc.title, acc.body + [x], acc.done)
    ensures Inv(hd, hs, reord + [x], pre, Step(hd, acc, x))
  {
    var acc' := Acc(acc.title, acc.body + [x], acc.done);
    assert Flatten(acc'.done) + [acc'.title] + acc'.body
        == (Flatten(acc.done) + [acc.title] + acc.body) + [x];
    assert FirstBody(acc) <= FirstBody(acc');
  }

  lemma ReorderedSnoc(hd: string -> bool, init: seq<string>, x: string)
    requires HeadingLines(hd, init) != []
    ensures HeadingLines(hd, init + [x]) != []
    ensures FirstHeading(hd, init + [x]) == FirstHeading(hd, init)
    ensures Reordered(hd, init + [x]) == Reordered(hd, init) + [x]
    ensures (init + [x])[..FirstHeading(hd, init)] == init[..FirstHeading(hd, init)]
  {
    HeadingLinesSnoc(hd, init, x);
    FirstHeadingSnoc(hd, init, x);
    MoveToFrontSnoc(init, x, FirstHeading(hd, init));
  }

  /** `s[h]` moved to the front of `s`. */
  function MoveToFront<T>(s: seq<T>, h: nat): seq<T>
    requires h < |s|
  {
    [s[h]] + s[..h] + s[h + 1..]
  }

  lemma MoveToFrontSnoc<T>(s: seq<T>, x: T, h: nat)
    requires h < |s|
    ensures MoveToFront(s + [x], h) == MoveToFront(s, h) + [x]
    ensures (s + [x])[..h] == s[..h]
  {
    var t := s + [x];
    assert t[..h] == s[..h];
    assert t[h + 1..] == s[h + 1..] + [x];
  }

  lemma MoveToFrontLast<T>(s: seq<T>, x: T)
    ensures MoveToFront(s + [x], |s|) == [x] + s
  {
    var t := s + [x];
    assert t[..|s|] == s;
    assert t[|s| + 1..] == [];
  }

  lemma MoveToFrontHead<T>(s: seq<T>)
    requires s != []
    ensures MoveToFront(s, 0) == s
  {
    assert s[..0] == [];
    assert [s[0]] + s[1..] == s;
  }

  lemma MoveToFrontPermutes<T>(s: seq<T>, h: nat)
    requires h < |s|
    ensures multiset(MoveToFront(s, h)) == multiset(s)
  {
    assert s == s[..h] + [s[h]] + s[h + 1..];
  }

  lemma {:induction false} ScanInvariant(hd: string -> bool, lines: seq<string>)
    requires NonEmptyBoundary(hd)
    ensures ScanInv(hd, lines, Scan(hd, lines))
    decreases |lines|
  {
    if lines != [] {
      var init, x := lines[..|lines| - 1], lines[|lines| - 1];
      assert lines == init + [x];
      ScanInvariant(hd, init);
      var acc := Scan(hd, init);
      if HeadingLines(hd, init) == [] {
        if hd(x) {
          StepFirstHeading(hd, init, x, acc);
        } else {
          HeadingLinesSnoc(hd, init, x);
        }
      } else if hd(x) {
        StepNextHeading(hd, init, x, acc);
      } else {
        StepBodyLine(hd, init, x, acc);
      }
    }
  }

  /** Every line of `lines` appears exactly once across the sections. */
  lemma ReorderedPermutes(hd: string -> bool, lines: seq<string>)
    requires HeadingLines(hd, lines) != []
    ensures multiset(Reordered(hd, lines)) == multiset(lines)
  {
    MoveToFrontPermutes(lines, FirstHeading(hd, lines));
  }

  /** The loop followed by the final close. */
  function Sections(hd: string -> bool, lines: seq<string>): seq<Section> {
    Close(Scan(hd, lines))
  }

  lemma SectionsSpec(hd: string -> bool, lines: seq<string>)
    requires NonEmptyBoundary(hd)
    ensures var r := Sections(hd, lines);
      && |r| == |HeadingLines(hd, lines)|
      && (forall k :: 0 <= k < |r| ==> r[k].title == HeadingLines(hd, lines)[k])
      && (forall k :: 0 <= k < |r| ==> HeadingFree(hd, r[k].body))
      && (r != [] ==> Flatten(r) == Reordered(hd, lines))
      && (r != [] ==> lines[..FirstHeading(hd, lines)] <= r[0].body)
      && (r != [] ==> multiset(Flatten(r)) == multiset(lines))
  {
    ScanInvariant(hd, lines);
    var acc := Scan(hd, lines);
    var hs := HeadingLines(hd, lines);
    if hs != [] {
      var last := Section(acc.title, acc.body);
      var r := acc.done + [last];
      FlattenSnoc(acc.done, last);
      ReorderedPermutes(hd, lines);
      assert Close(acc) == r;
      forall k | 0 <= k < |r|
        ensures r[k].title == hs[k] && HeadingFree(hd, r[k].body)
      {
        if k < |acc.done| {
          assert r[k] == acc.done[k];
        } else {
          assert r[k] == last && k == |hs| - 1;
        }
      }
    }
  }

  /** The chunkers' `_chunk_by_article` loop, up to the list of sections:
      one section per boundary line, titled by it, whose body runs to the
      next boundary; lines before the first boundary join the first body. */
  function SplitByArticle(rule: Rule, lines: seq<string>): (r: seq<Section>)
    ensures |r| == |HeadingLines(Boundary(rule), lines)|
    ensures forall k :: 0 <= k < |r| ==> r[k].title == HeadingLines(Boundary(rule), lines)[k]
    ensures forall k :: 0 <= k < |r| ==> HeadingFree(Boundary(rule), r[k].body)
    ensures r != [] ==> Flatten(r) == Reordered(Boundary(rule), lines)
    ensures r != [] ==> lines[..FirstHeading(Boundary(rule), lines)] <= r[0].body
    ensures r != [] ==> multiset(Flatten(r)) == multiset(lines)
  {
    BoundariesNonEmpty(rule);
    SectionsSpec(Boundary(rule), lines);
    Sections(Boundary(rule), lines)
  }

  /** A document that opens with a boundary line is handed back unchanged, in
      order, by its sections. */
  lemma SplitKeepsOrder(rule: Rule, lines: seq<string>)
    requires lines != [] && Boundary(rule)(lines[0])
    ensures Flatten(SplitByArticle(rule, lines)) == lines
  {
    ReorderedAtHead(Boundary(rule), lines);
  }

  lemma ReorderedAtHead(hd: string -> bool, lines: seq<string>)
    requires lines != [] && hd(lines[0])
    ensures HeadingLines(hd, lines) != [] && Reordered(hd, lines) == lines
  {
    assert HeadingLines(hd, lines) != [];
    var h := FirstHeading(hd, lines);
    assert h == 0;
    MoveToFrontHead(lines);
  }

  /** Without a boundary line the loop produces no section at all: the
      document's text is dropped. */
  lemma NoHeadingNoSection(rule: Rule, lines: seq<string>)
    requires forall j :: 0 <= j < |lines| ==> !Boundary(rule)(lines[j])
    ensures SplitByArticle(rule, lines) == []
  {
  }

  /** Every line a section holds is a line of the input. */
  lemma {:induction false} FlattenContains(secs: seq<Section>, k: int, x: string)
    requires 0 <= k < |secs| && (x == secs[k].title || x in secs[k].body)
    ensures x in Flatten(secs)
    decreases |secs|
  {
    if k < |secs| - 1 {
      FlattenContains(secs[..|secs| - 1], k, x);
    }
  }

  lemma SectionLinesFromInput(rule: Rule, lines: seq<string>, k: int, x: string)
    requires 0 <= k < |SplitByArticle(rule, lines)|
    requires x == SplitByArticle(rule, lines)[k].title || x in SplitByArticle(rule, lines)[k].body
    ensures x in lines
  {
    var r := SplitByArticle(rule, lines);
    FlattenContains(r, k, x);
    assert x in multiset(Flatten(r));
  }
}

=== FILE: basics.dfy ===
/** Small shared definitions: an optional value (Python's `None` or an
    exception that a caller turns into a fallback), Python's `s[:k]`, and the
    filtering comprehension `[x for x in s if keep(x)]`. */
module Basics {

  datatype Option<T> = None | Some(value: T) {
    predicate IsFailure() {
      None?
    }

    function PropagateFailure<U>(): Option<U>
      requires None?
    {
      None
    }

    function Extract(): T
      requires Some?
    {
      value
    }

    function GetOr(default: T): T {
      if Some? then value else default
    }
  }

  /** Python's `s[:k]` for any integer `k`; a negative `k` counts from the end. */
  function SliceTo<T>(s: seq<T>, k: int): (r: seq<T>)
    ensures k >= 0 ==> |r| == (if k < |s| then k else |s|)
    ensures k < 0 ==> |r| == (if |s| + k > 0 then |s| + k else 0)
    ensures r <= s
  {
    if k >= 0 then
      (if k < |s| then s[..k] else s)
    else
      (if |s| + k > 0 then s[..|s| + k] else [])
  }

  /** `[f(x) for x in s]`. */
  function Map<T, U>(s: seq<T>, f: T -> U): (r: seq<U>)
    ensures |r| == |s|
    ensures forall k :: 0 <= k < |s| ==> r[k] == f(s[k])
  {
    seq(|s|, k requires 0 <= k < |s| => f(s[k]))
  }

  lemma MapAppend<T, U>(a: seq<T>, b: seq<T>, f: T -> U)
    ensures Map(a + b, f) == Map(a, f) + Map(b, f)
  {
    var l, r := Map(a + b, f), Map(a, f) + Map(b, f);
    forall k | 0 <= k < |l|
      ensures l[k] == r[k]
    {
      if k < |a| {
        assert (a + b)[k] == a[k];
      } else {
        assert (a + b)[k] == b[k - |a|];
      }
    }
  }

  lemma MapCons<T, U>(s: seq<T>, f: T -> U)
    requires |s| > 0
    ensures Map(s, f) == [f(s[0])] + Map(s[1..], f)
  {
    assert Map(s, f)[1..] == Map(s[1..], f);
  }

  lemma MapPrepend<T, U>(x: T, s: seq<T>, f: T -> U)
    ensures Map([x] + s, f) == [f(x)] + Map(s, f)
  {
    assert ([x] + s)[1..] == s;
    MapCons([x] + s, f);
  }

  /** `[x for x in s if keep(x)]`. */
  function Filter<T>(s: seq<T>, keep: T -> bool): seq<T>
    decreases |s|
  {
    if s == [] then [] else (if keep(s[0]) then [s[0]] else []) + Filter(s[1..], keep)
  }

  /** The comprehension keeps exactly the elements `keep` accepts, each as
      often as it occurs. */
  lemma {:induction false} FilterCounts<T>(s: seq<T>, keep: T -> bool)
    ensures |Filter(s, keep)| <= |s|
    ensures forall x :: multiset(Filter(s, keep))[x] == if keep(x) then multiset(s)[x] else 0
    decreases |s|
  {
    if s != [] {
      FilterCounts(s[1..], keep);
      assert s == [s[0]] + s[1..];
    }
  }

  lemma FilterMembers<T>(s: seq<T>, keep: T -> bool)
    ensures forall x :: x in Filter(s, keep) <==> x in s && keep(x)
    ensures Filter(s, keep) == [] <==> forall x :: x in s ==> !keep(x)
  {
    FilterCounts(s, keep);
    forall x
      ensures x in Filter(s, keep) <==> x in s && keep(x)
    {
      assert x in Filter(s, keep) <==> x in multiset(Filter(s, keep));
      assert x in s <==> x in multiset(s);
    }
  }

  /** The comprehension works element by element, so it keeps the order of
      the kept elements. */
  lemma {:induction false} FilterAppend<T>(a: seq<T>, b: seq<T>, keep: T -> bool)
    ensures Filter(a + b, keep) == Filter(a, keep) + Filter(b, keep)
    decreases |a|
  {
    if a != [] {
      var h := if keep(a[0]) then [a[0]] else [];
      assert (a + b)[0] == a[0] && (a + b)[1..] == a[1..] + b;
      assert Filter(a + b, keep) == h + Filter(a[1..] + b, keep);
      FilterAppend(a[1..], b, keep);
      assert h + (Filter(a[1..], keep) + Filter(b, keep)) == (h + Filter(a[1..], keep)) + Filter(b, keep);
    } else {
      assert a + b == b;
    }
  }

  lemma FilterSingle<T>(x: T, keep: T -> bool)
    ensures Filter([x], keep) == if keep(x) then [x] else []
  {
    assert [x][1..] == [];
  }

  /** Nothing is dropped when `keep` accepts everything. */
  lemma {:induction false} FilterAll<T>(s: seq<T>, keep: T -> bool)
    requires forall i :: 0 <= i < |s| ==> keep(s[i])
    ensures Filter(s, keep) == s
    decreases |s|
  {
    if s != [] {
      FilterAll(s[1..], keep);
      assert [s[0]] + s[1..] == s;
    }
  }
}

=== FILE: chunk_build.dfy ===
/** Turning sections into stored chunks: the chunk text, its number, and its
    embedding. The embedding model is a parameter; `None` stands for an
    encoding call that raised. */
module ChunkBuild {
  import opened Basics
  import opened Strings
  import opened Records
  import opened ArticleScan

  /** `title + "\n" + "\n".join(body)`. */
  function ChunkText(s: Section): string {
    s.title + "\n" + Join(s.body, "\n")
  }

  predicate NoNewline(lines: seq<string>) {
    forall x :: x in lines ==> '\n' !in x
  }

  /** The chunk text splits back into the title and the body lines; an empty
      body leaves one empty line after the title. */
  lemma ChunkTextLines(s: Section)
    requires '\n' !in s.title && NoNewline(s.body)
    ensures Split(ChunkText(s), "\n") == [s.title] + (if s.body == [] then [""] else s.body)
  {
    var lines := [s.title] + (if s.body == [] then [""] else s.body);
    if s.body == [] {
      assert ChunkText(s) == Join(lines, "\n");
    } else {
      assert lines[1..] == s.body;
      assert ChunkText(s) == Join(lines, "\n");
    }
    forall k | 0 <= k < |lines|
      ensures "\n"[0] !in lines[k]
    {
      if k > 0 && s.body != [] {
        assert lines[k] in s.body;
      }
    }
    SplitJoin(lines, "\n");
  }

  /** Chunk number `k + 1` of document `docId`; an encoding failure is caught
      and stored as the empty vector. */
  function TolerantChunk(docId: int, k: nat, s: Section, embed: string -> Option<seq<real>>): Chunk {
    var text := ChunkText(s);
    Chunk(docId, k + 1, s.title, text, Values(embed(text).GetOr([])))
  }

  /** The chunkers' result loop (`enumerate(chunks, start=1)`) with the
      encoding failure caught, as the newer chunker and the crawler do. */
  function BuildChunks(docId: int, secs: seq<Section>, embed: string -> Option<seq<real>>): (r: seq<Chunk>)
    ensures |r| == |secs|
    ensures forall k :: 0 <= k < |r| ==> r[k].docId == docId && r[k].chunkId == k + 1
    ensures forall k :: 0 <= k < |r| ==> r[k].title == secs[k].title
    ensures forall k :: 0 <= k < |r| ==> StartsWith(r[k].content, secs[k].title + "\n")
    ensures forall k :: 0 <= k < |r| ==> r[k].content == secs[k].title + "\n" + Join(secs[k].body, "\n")
    ensures forall k :: 0 <= k < |r| ==> r[k].vector.Values?
    ensures forall k :: 0 <= k < |r| ==>
      (embed(r[k].content).None? ==> r[k].vector.values == [])
    ensures forall k :: 0 <= k < |r| ==>
      (embed(r[k].content).Some? ==> r[k].vector.values == embed(r[k].content).value)
    ensures ChunkKeysDistinct(r)
  {
    seq(|secs|, k requires 0 <= k < |secs| => TolerantChunk(docId, k, secs[k], embed))
  }

  /** Some section's text fails to encode. */
  ghost predicate AnyEncodingFails(secs: seq<Section>, embed: string -> Option<seq<real>>) {
    exists k :: 0 <= k < |secs| && embed(ChunkText(secs[k])).None?
  }

  /** The older chunker's result loop: an encoding failure is not caught, so
      the whole chunking call fails (`None`). */
  function BuildChunksStrict(docId: int, secs: seq<Section>, embed: string -> Option<seq<real>>): (r: Option<seq<Chunk>>)
    decreases |secs|
    ensures r.None? <==> AnyEncodingFails(secs, embed)
    ensures r.Some? ==> |r.value| == |secs|
    ensures r.Some? ==> forall k :: 0 <= k < |secs| ==> r.value[k] == TolerantChunk(docId, k, secs[k], embed)
  {
    if secs == [] then Some([])
    else
      var init, last := secs[..|secs| - 1], secs[|secs| - 1];
      assert forall k :: 0 <= k < |init| ==> init[k] == secs[k];
      var prefix :- BuildChunksStrict(docId, init, embed);
      var text := ChunkText(last);
      var v :- embed(text);
      Some(prefix + [Chunk(docId, |secs|, last.title, text, Values(v))])
  }

  /** When every section encodes, the strict and the tolerant loops agree. */
  lemma StrictAgreesWhenEncodingSucceeds(docId: int, secs: seq<Section>, embed: string -> Option<seq<real>>)
    requires !AnyEncodingFails(secs, embed)
    ensures BuildChunksStrict(docId, secs, embed) == Some(BuildChunks(docId, secs, embed))
  {
    var strict := BuildChunksStrict(docId, secs, embed).value;
    var tolerant := BuildChunks(docId, secs, embed);
    assert forall k :: 0 <= k < |secs| ==> strict[k] == tolerant[k];
    assert strict == tolerant;
  }

  /** The first built chunk's lines are its title and then its section's
      body lines, so anything the body starts with follows the title. */
  lemma FirstChunkBody(docId: int, secs: seq<Section>, embed: string -> Option<seq<real>>, pre: seq<string>)
    requires secs != [] && pre <= secs[0].body
    requires '\n' !in secs[0].title && NoNewline(secs[0].body)
    ensures var lines := Split(BuildChunks(docId, secs, embed)[0].content, "\n");
      lines[0] == secs[0].title && pre <= lines[1..]
  {
    BuiltChunkLines(docId, secs, embed, 0);
    var lines := Split(BuildChunks(docId, secs, embed)[0].content, "\n");
    assert lines[1..] == if secs[0].body == [] then [""] else secs[0].body;
  }

  /** Each built chunk's text splits back into its section's lines. */
  lemma BuiltChunkLines(docId: int, secs: seq<Section>, embed: string -> Option<seq<real>>, k: int)
    requires 0 <= k < |secs|
    requires '\n' !in secs[k].title && NoNewline(secs[k].body)
    ensures Split(BuildChunks(docId, secs, embed)[k].content, "\n")
      == [secs[k].title] + (if secs[k].body == [] then [""] else secs[k].body)
  {
    ChunkTextLines(secs[k]);
  }
}

=== FILE: doc_parser.dfy ===
/** The text structurer: turns the paragraphs read from a legal document into
    one markup line each (image embed, chapter heading, article heading, list
    item or plain text), joined by blank lines; plus the title and date scans
    and the document record. Both copies of the parser share this logic. */
module DocParser {
  import opened Unicode
  import opened Strings
  import opened Basics

  const TITLE_FALLBACK := "Không rõ tiêu đề"

  /** The exact spellings that open a list item. */
  const LIST_MARKERS: seq<string> := ["Khoản", "khoản", "Điểm", "điểm", "Mục", "mục"]

  datatype LineKind = ImageLine | ChapterHeading | ArticleHeading | ListItem | PlainLine

  /** A paragraph mentioning "http" and ".jpg" or ".png". */
  predicate IsImageRef(p: string) {
    Contains(p, "http") && (Contains(p, ".jpg") || Contains(p, ".png"))
  }

  predicate IsChapter(p: string) {
    StartsWith(Lower(p), "chương ")
  }

  predicate IsArticle(p: string) {
    StartsWith(Lower(p), "điều ")
  }

  /** `\s+\d+[.:)]` at the start of `s`, matched by maximal runs. */
  predicate NumberedTail(s: string) {
    var n := Span(s, IsSpace);
    var d := Span(s[n..], IsDigit);
    n >= 1 && d >= 1 && n + d < |s| && s[n + d] in ".:)"
  }

  /** One way the pattern `\s+\d+[.:)]` can match: spaces up to `i`, digits up
      to `j`, then the punctuation mark at `j`. */
  predicate NumberedAt(s: string, i: int, j: int) {
    1 <= i < j < |s| && AllSpace(s[..i]) && AllDigits(s[i..j]) && s[j] in ".:)"
  }

  /** The regular expression's meaning: some split of the prefix matches. */
  ghost predicate NumberedTailRegex(s: string) {
    exists i, j :: NumberedAt(s, i, j)
  }

  /** The greedy scan accepts exactly what the pattern accepts. */
  lemma NumberedTailMatchesRegex(s: string)
    ensures NumberedTail(s) <==> NumberedTailRegex(s)
  {
    if NumberedTail(s) {
      NumberedTailHasShape(s);
    }
    if NumberedTailRegex(s) {
      var i, j :| NumberedAt(s, i, j);
      NumberedShapeIsTail(s, i, j);
    }
  }

  lemma NumberedTailHasShape(s: string)
    requires NumberedTail(s)
    ensures NumberedTailRegex(s)
  {
    var n := Span(s, IsSpace);
    var d := Span(s[n..], IsDigit);
    assert s[n..n + d] == s[n..][..d];
    assert NumberedAt(s, n, n + d);
  }

  lemma NumberedShapeIsTail(s: string, i: int, j: int)
    requires NumberedAt(s, i, j)
    ensures NumberedTail(s)
  {
    assert s[i] == s[i..j][0];
    SpanExact(s, IsSpace, i);
    assert forall k :: 0 <= k < j - i ==> s[i..][k] == s[i..j][k];
    SpanExact(s[i..], IsDigit, j - i);
  }

  /** `^(Khoản|khoản|Điểm|điểm|Mục|mục)\s+\d+[.:)]`. */
  predicate IsListItem(p: string) {
    exists k :: 0 <= k < |LIST_MARKERS| && StartsWith(p, LIST_MARKERS[k])
      && NumberedTail(p[|LIST_MARKERS[k]|..])
  }

  /** Rule priority: image, chapter, article, list item, plain. */
  function Classify(p: string): LineKind {
    if IsImageRef(p) then ImageLine
    else if IsChapter(p) then ChapterHeading
    else if IsArticle(p) then ArticleHeading
    else if IsListItem(p) then ListItem
    else PlainLine
  }

  /** Markup written before and after a paragraph of the given kind. */
  function Opening(k: LineKind): string {
    match k
    case ImageLine => "![image]("
    case ChapterHeading => "# "
    case ArticleHeading => "## "
    case ListItem => "- "
    case PlainLine => ""
  }

  function Closing(k: LineKind): string {
    if k == ImageLine then ")" else ""
  }

  /** Recovers the paragraph from a markup line of a known kind. */
  function Unwrap(k: LineKind, line: string): string
    requires |Opening(k)| + |Closing(k)| <= |line|
  {
    line[|Opening(k)|..|line| - |Closing(k)|]
  }

  /** The markup line for a paragraph of a given kind. */
  function Render(k: LineKind, p: string): string {
    match k
    case ImageLine => "![image](" + p + ")"
    case ChapterHeading => "# " + p
    case ArticleHeading => "## " + p
    case ListItem => "- " + p
    case PlainLine => p
  }

  /** One markup line per paragraph. Every rule only prepends or wraps, so the
      paragraph is recoverable from its line and is a substring of it; a
      paragraph no rule matches is left unchanged. */
  function StructureLine(p: string): (r: string)
    ensures r == Opening(Classify(p)) + p + Closing(Classify(p))
    ensures |r| == |Opening(Classify(p))| + |p| + |Closing(Classify(p))|
    ensures Unwrap(Classify(p), r) == p
    ensures Contains(r, p)
    ensures Classify(p) == PlainLine ==> r == p
    ensures '\n' !in p ==> '\n' !in r
  {
    var k := Classify(p);
    RenderWraps(k, p);
    Render(k, p)
  }

  /** Rendering wraps the paragraph in its kind's opening and closing, and
      adds no line break. */
  lemma RenderWraps(k: LineKind, p: string)
    ensures Render(k, p) == Opening(k) + p + Closing(k)
    ensures Unwrap(k, Render(k, p)) == p
    ensures Contains(Render(k, p), p)
    ensures '\n' !in p ==> '\n' !in Render(k, p)
  {
    var r := Opening(k) + p + Closing(k);
    assert Render(k, p) == r;
    assert r[|Opening(k)|..|r| - |Closing(k)|] == p;
    ContainsMiddle(Opening(k), p, Closing(k));
    assert '\n' !in Opening(k) && '\n' !in Closing(k);
  }

  function StructureLines(ps: seq<string>): (lines: seq<string>)
    ensures |lines| == |ps|
    ensures forall i :: 0 <= i < |ps| ==> lines[i] == StructureLine(ps[i])
  {
    seq(|ps|, i requires 0 <= i < |ps| => StructureLine(ps[i]))
  }

  /** `_convert_to_markdown_structured`: the lines joined by a blank line. */
  function ConvertToMarkdown(ps: seq<string>): string {
    Join(StructureLines(ps), "\n\n")
  }

  /** The markdown splits back into exactly one line per paragraph, in order,
      each unwrapping to its paragraph, for paragraphs without line
      breaks. */
  lemma ConvertToMarkdownRoundTrip(ps: seq<string>)
    requires |ps| >= 1
    requires forall p :: p in ps ==> '\n' !in p
    ensures |Split(ConvertToMarkdown(ps), "\n\n")| == |ps|
    ensures forall i :: 0 <= i < |ps| ==>
      Split(ConvertToMarkdown(ps), "\n\n")[i] == StructureLine(ps[i])
      && Unwrap(Classify(ps[i]), Split(ConvertToMarkdown(ps), "\n\n")[i]) == ps[i]
  {
    var lines := StructureLines(ps);
    forall k | 0 <= k < |lines|
      ensures "\n\n"[0] !in lines[k]
    {
      assert ps[k] in ps;
    }
    SplitJoin(lines, "\n\n");
  }

  /** The image rule is checked first: an image paragraph is embedded even
      when it also reads as an article heading. */
  lemma ImageRuleWins(p: string)
    requires IsImageRef(p)
    ensures StructureLine(p) == "![image](" + p + ")"
    ensures IsArticle(p) ==> Classify(p) == ImageLine
  {
  }

  /** Chapter and article headings never compete: no paragraph is both. */
  lemma ChapterAndArticleExclusive(p: string)
    ensures !(IsChapter(p) && IsArticle(p))
  {
    if |p| > 0 {
      var c := Lower(p)[0];
      assert IsChapter(p) ==> c == "chương "[0];
      assert IsArticle(p) ==> c == "điều "[0];
    }
  }

  /** A paragraph opening with "Điều " and no image link becomes a level-2
      heading; the upper-case spelling "ĐIỀU " does too, because the test is
      on the lower-cased paragraph. */
  lemma ArticleParagraphBecomesHeading(p: string)
    requires !IsImageRef(p)
    requires StartsWith(p, "Điều ") || StartsWith(p, "ĐIỀU ")
    ensures StructureLine(p) == "## " + p
  {
    LowerSlice(p, 0, 5);
    assert Lower(p[..5]) == "điều ";
    assert Lower(p)[..5] == "điều ";
    ChapterAndArticleExclusive(p);
  }

  /** `_extract_title`: the first paragraph longer than ten characters, else a
      fixed fallback. Either way the title is longer than ten characters. */
  function ExtractTitle(ps: seq<string>): (r: string)
    ensures |r| > 10
    ensures (forall k :: 0 <= k < |ps| ==> |ps[k]| <= 10) ==> r == TITLE_FALLBACK
    ensures (exists k :: 0 <= k < |ps| && |ps[k]| > 10) ==>
      exists k :: 0 <= k < |ps| && r == ps[k] && |ps[k]| > 10
        && forall j :: 0 <= j < k ==> |ps[j]| <= 10
    decreases |ps|
  {
    if |ps| == 0 then TITLE_FALLBACK
    else if |ps[0]| > 10 then ps[0]
    else
      var r := ExtractTitle(ps[1..]);
      assert forall k :: 1 <= k < |ps| ==> ps[k] == ps[1..][k - 1];
      assert (exists k :: 0 <= k < |ps| && |ps[k]| > 10) ==>
        exists k :: 0 <= k < |ps[1..]| && |ps[1..][k]| > 10;
      assert (exists k :: 0 <= k < |ps[1..]| && r == ps[1..][k] && |ps[1..][k]| > 10
               && forall j :: 0 <= j < k ==> |ps[1..][j]| <= 10) ==>
        exists k :: 0 <= k < |ps| && r == ps[k] && |ps[k]| > 10
          && forall j :: 0 <= j < k ==> |ps[j]| <= 10;
      r
  }

  /** Case-insensitive literal `w` (given in lower case) at index `i`. */
  function LiteralCI(p: string, i: nat, w: string): (r: Option<nat>)
    ensures r.Some? ==> r.value == i + |w| <= |p|
  {
    if i + |w| <= |p| && Lower(p[i..i + |w|]) == w then Some(i + |w|) else None
  }

  /** `\s+` at index `i`. */
  function Spaces(p: string, i: nat): (r: Option<nat>)
    ensures r.Some? ==> i < r.value <= |p|
  {
    if i > |p| then None
    else
      var n := Span(p[i..], IsSpace);
      if n >= 1 then Some(i + n) else None
  }

  /** `\d{1,2}` at index `i`, where the pattern continues with `\s`: the digit
      run must be one or two long. */
  function ShortNumber(p: string, i: nat): (r: Option<nat>)
    ensures r.Some? ==> i < r.value <= |p|
  {
    if i > |p| then None
    else
      var n := Span(p[i..], IsDigit);
      if 1 <= n <= 2 then Some(i + n) else None
  }

  /** `\d{4}` at index `i`. */
  function Year(p: string, i: nat): (r: Option<nat>)
    ensures r.Some? ==> r.value == i + 4 <= |p|
  {
    if i + 4 <= |p| && AllDigits(p[i..i + 4]) then Some(i + 4) else None
  }

  /** End of a match of `ngày\s+\d{1,2}\s+tháng\s+\d{1,2}\s+năm\s+\d{4}`
      (ignoring case) that starts at `i`. */
  function DateEnd(p: string, i: nat): (r: Option<nat>)
    ensures r.Some? ==> i < r.value <= |p|
  {
    var a :- LiteralCI(p, i, "ngày");
    var b :- Spaces(p, a);
    var c :- ShortNumber(p, b);
    var d :- Spaces(p, c);
    var e :- LiteralCI(p, d, "tháng");
    var f :- Spaces(p, e);
    var g :- ShortNumber(p, f);
    var h :- Spaces(p, g);
    var k :- LiteralCI(p, h, "năm");
    var l :- Spaces(p, k);
    Year(p, l)
  }

  predicate DateAt(p: string, i: nat) {
    i <= |p| && DateEnd(p, i).Some?
  }

  /** `re.search` with the date pattern: the start of the leftmost match. */
  function SearchDate(p: string): (r: Option<nat>)
    ensures r.None? <==> forall j :: 0 <= j <= |p| ==> !DateAt(p, j)
    ensures r.Some? ==> r.value <= |p| && DateAt(p, r.value)
    ensures r.Some? ==> forall j :: 0 <= j < r.value ==> !DateAt(p, j)
  {
    FirstMatchFrom(p, 0, DateAt)
  }

  predicate HasDate(p: string) {
    SearchDate(p).Some?
  }

  /** The matched date phrase of a paragraph that has one. */
  function FirstDate(p: string): (r: string)
    requires HasDate(p)
    ensures r != ""
  {
    var j := SearchDate(p).value;
    p[j..DateEnd(p, j).value]
  }

  /** `_extract_date` of the older parser: the first date phrase of the first
      paragraph that has one, else the empty string. */
  function ExtractDate(ps: seq<string>): (r: string)
    ensures r == "" <==> forall k :: 0 <= k < |ps| ==> !HasDate(ps[k])
    ensures r != "" ==> exists k :: (0 <= k < |ps| && HasDate(ps[k])
      && (forall k' :: 0 <= k' < k ==> !HasDate(ps[k']))
      && r == FirstDate(ps[k]))
    decreases |ps|
  {
    if |ps| == 0 then ""
    else if HasDate(ps[0]) then FirstDate(ps[0])
    else
      var r := ExtractDate(ps[1..]);
      ExtractDateStep(ps, r);
      r
  }

  /** A first paragraph without a date leaves the scan of the rest in
      charge. */
  lemma ExtractDateStep(ps: seq<string>, r: string)
    requires |ps| > 0 && !HasDate(ps[0])
    requires r == "" <==> forall k :: 0 <= k < |ps| - 1 ==> !HasDate(ps[1..][k])
    requires r != "" ==> exists k :: (0 <= k < |ps| - 1 && HasDate(ps[1..][k])
      && (forall k' :: 0 <= k' < k ==> !HasDate(ps[1..][k']))
      && r == FirstDate(ps[1..][k]))
    ensures r == "" <==> forall k :: 0 <= k < |ps| ==> !HasDate(ps[k])
    ensures r != "" ==> exists k :: (0 <= k < |ps| && HasDate(ps[k])
      && (forall k' :: 0 <= k' < k ==> !HasDate(ps[k']))
      && r == FirstDate(ps[k]))
  {
    var t := ps[1..];
    assert forall k :: 1 <= k < |ps| ==> ps[k] == t[k - 1];
    if r != "" {
      var k :| 0 <= k < |t| && HasDate(t[k])
        && (forall k' :: 0 <= k' < k ==> !HasDate(t[k']))
        && r == FirstDate(t[k]);
      assert ps[k + 1] == t[k];
      assert forall k' :: 1 <= k' < k + 1 ==> !HasDate(ps[k']) by {
        forall k' | 1 <= k' < k + 1 ensures !HasDate(ps[k']) {
          assert ps[k'] == t[k' - 1];
        }
      }
    }
  }

  /** The `to_dict` record of a parsed document. */
  datatype DocumentRecord = DocumentRecord(
    url: string, title: string, date: string,
    text: string, markdown: string, images: seq<string>)

  /** `_read_docx_text`'s filtering: stripped, non-empty paragraph texts. */
  function ReadParagraphs(raw: seq<string>): (ps: seq<string>)
    ensures forall p :: p in ps ==> p != "" && Strip(p) == p
    ensures forall x :: x in ps <==> x != "" && exists k :: 0 <= k < |raw| && x == Strip(raw[k])
    ensures ps == Filter(Map(raw, Strip), NonEmpty)
  {
    var ps := StripAndDropEmpty(raw);
    StripAndDropEmptyIsFilter(raw);
    forall p | p in ps ensures Strip(p) == p {
      StripTrimmed(p);
    }
    forall x ensures x in ps <==> x != "" && exists k :: 0 <= k < |raw| && x == Strip(raw[k]) {
      StripAndDropEmptyMembers(raw, x);
    }
    ps
  }

  /** The record built by the newer parser; `today` is the formatted date. */
  function AppRecord(path: string, ps: seq<string>, today: string): DocumentRecord {
    DocumentRecord(path, ExtractTitle(ps), today, Join(ps, "\n"), ConvertToMarkdown(ps), [])
  }

  /** The record built by the older parser, with the scanned date. */
  function RootRecord(path: string, ps: seq<string>): DocumentRecord {
    DocumentRecord(path, ExtractTitle(ps), ExtractDate(ps), Join(ps, "\n"), ConvertToMarkdown(ps), [])
  }

  /** Joining single-line paragraphs with newlines can be undone. */
  lemma TextRoundTrip(ps: seq<string>)
    requires |ps| >= 1
    requires forall p :: p in ps ==> '\n' !in p
    ensures Split(Join(ps, "\n"), "\n") == ps
  {
    forall k | 0 <= k < |ps| ensures "\n"[0] !in ps[k] {
      assert ps[k] in ps;
    }
    SplitJoin(ps, "\n");
  }

  /** The record's text and markdown both give the paragraphs back, in both
      copies of the parser. */
  lemma RecordRoundTrip(path: string, ps: seq<string>, today: string)
    requires |ps| >= 1
    requires forall p :: p in ps ==> '\n' !in p
    ensures Split(AppRecord(path, ps, today).text, "\n") == ps
    ensures Split(RootRecord(path, ps).text, "\n") == ps
    ensures Split(AppRecord(path, ps, today).markdown, "\n\n") == StructureLines(ps)
    ensures Split(RootRecord(path, ps).markdown, "\n\n") == StructureLines(ps)
  {
    var app := AppRecord(path, ps, today);
    assert app.text == Join(ps, "\n") && app.markdown == ConvertToMarkdown(ps);
    assert RootRecord(path, ps).text == Join(ps, "\n");
    TextRoundTrip(ps);
    ConvertToMarkdownRoundTrip(ps);
  }
}

=== FILE: headings.dfy ===
/** The three article-boundary tests used by the chunkers. Each is written
    as a greedy scan; each is proved equivalent to the regular expression's
    own meaning ("some way of splitting the line matches the pattern"). */
module Headings {
  import opened Unicode
  import opened Strings

  const ARTICLE := "Điều"
  const ARTICLE_CAPS := "ĐIỀU"

  predicate IsHash(c: char) {
    c == '#'
  }

  /** `\s+\d` at the start of `s`. */
  predicate SpacesThenDigit(s: string) {
    var n := Span(s, IsSpace);
    1 <= n < |s| && IsDigit(s[n])
  }

  /** `w\s+\d` at the start of `s`. */
  predicate WordThenNumber(s: string, w: string) {
    StartsWith(s, w) && SpacesThenDigit(s[|w|..])
  }

  /** `\s*Điều\s+\d` at the start of `s`. */
  predicate SpacedArticle(s: string) {
    WordThenNumber(s[Span(s, IsSpace)..], ARTICLE)
  }

  /** Newer chunker (markdown lines): `(?=##?\s*Điều\s+\d+)` at the start. */
  predicate IsAppHeading(line: string) {
    var h := Span(line, IsHash);
    (h == 1 || h == 2) && SpacedArticle(line[h..])
  }

  /** Older chunker (raw paragraphs): `^(Điều|ĐIỀU)\s+\d+`. */
  predicate IsRootHeading(para: string) {
    WordThenNumber(para, ARTICLE) || WordThenNumber(para, ARTICLE_CAPS)
  }

  /** Crawler chunker: `(#+\s*)?Điều\s+\d+` at the start. */
  predicate IsWebHeading(para: string) {
    var h := Span(para, IsHash);
    if h == 0 then WordThenNumber(para, ARTICLE) else SpacedArticle(para[h..])
  }

  /** One way to read `line` as: `h` hashes, spaces up to `i`, the word `w`,
      spaces up to `j`, and a digit at `j`. */
  predicate ShapeAt(line: string, h: int, i: int, w: string, j: int) {
    && 0 <= h <= i && i + |w| < j < |line|
    && (forall k :: 0 <= k < h ==> IsHash(line[k]))
    && AllSpace(line[h..i]) && line[i..i + |w|] == w
    && AllSpace(line[i + |w|..j]) && IsDigit(line[j])
  }

  ghost predicate AppHeadingRegex(line: string) {
    exists h, i, j :: (h == 1 || h == 2) && ShapeAt(line, h, i, ARTICLE, j)
  }

  ghost predicate RootHeadingRegex(para: string) {
    exists j :: ShapeAt(para, 0, 0, ARTICLE, j) || ShapeAt(para, 0, 0, ARTICLE_CAPS, j)
  }

  ghost predicate HashedArticleRegex(para: string) {
    exists h, i, j :: h >= 1 && ShapeAt(para, h, i, ARTICLE, j)
  }

  ghost predicate WebHeadingRegex(para: string) {
    HashedArticleRegex(para) || exists j :: ShapeAt(para, 0, 0, ARTICLE, j)
  }

  /** A word that starts with neither whitespace nor '#'. */
  predicate Anchored(w: string) {
    w != "" && !IsSpace(w[0]) && !IsHash(w[0])
  }

  lemma WordThenNumberWitness(s: string, w: string) returns (j: int)
    requires WordThenNumber(s, w)
    ensures ShapeAt(s, 0, 0, w, j)
  {
    var n := Span(s[|w|..], IsSpace);
    assert s[|w|..|w| + n] == s[|w|..][..n];
    assert s[0..|w|] == s[..|w|];
    j := |w| + n;
  }

  lemma WordThenNumberFromShape(s: string, w: string, j: int)
    requires ShapeAt(s, 0, 0, w, j)
    ensures WordThenNumber(s, w)
  {
    var t := s[|w|..];
    assert s[0..|w|] == s[..|w|];
    assert forall k :: 0 <= k < j - |w| ==> t[k] == s[|w|..j][k];
    SpanExact(t, IsSpace, j - |w|);
  }

  lemma WordThenNumberShape(s: string, w: string)
    ensures WordThenNumber(s, w) <==> exists j :: ShapeAt(s, 0, 0, w, j)
  {
    if WordThenNumber(s, w) {
      var j := WordThenNumberWitness(s, w);
    }
    if exists j :: ShapeAt(s, 0, 0, w, j) {
      var j :| ShapeAt(s, 0, 0, w, j);
      WordThenNumberFromShape(s, w, j);
    }
  }

  lemma SpacedArticleWitness(s: string) returns (i: int, j: int)
    requires SpacedArticle(s)
    ensures ShapeAt(s, 0, i, ARTICLE, j)
  {
    var n := Span(s, IsSpace);
    var t := s[n..];
    var j' := WordThenNumberWitness(t, ARTICLE);
    assert s[n..n + |ARTICLE|] == t[0..|ARTICLE|];
    assert s[n + |ARTICLE|..n + j'] == t[|ARTICLE|..j'];
    assert AllSpace(s[0..n]) by {
      forall k | 0 <= k < n
        ensures IsSpace(s[0..n][k])
      {
        assert s[0..n][k] == s[k];
      }
    }
    assert IsDigit(s[n + j']) by {
      assert s[n + j'] == t[j'];
    }
    i, j := n, n + j';
  }

  lemma SpacedArticleFromShape(s: string, i: int, j: int)
    requires ShapeAt(s, 0, i, ARTICLE, j)
    ensures SpacedArticle(s)
  {
    var t := s[i..];
    assert s[i] == s[i..i + |ARTICLE|][0] == ARTICLE[0];
    assert forall k :: 0 <= k < i ==> s[k] == s[0..i][k];
    SpanExact(s, IsSpace, i);
    assert t[0..|ARTICLE|] == s[i..i + |ARTICLE|];
    assert t[|ARTICLE|..j - i] == s[i + |ARTICLE|..j];
    WordThenNumberFromShape(t, ARTICLE, j - i);
  }

  lemma SpacedArticleShape(s: string)
    ensures SpacedArticle(s) <==> exists i, j :: ShapeAt(s, 0, i, ARTICLE, j)
  {
    if SpacedArticle(s) {
      var i, j := SpacedArticleWitness(s);
    }
    if exists i, j :: ShapeAt(s, 0, i, ARTICLE, j) {
      var i, j :| ShapeAt(s, 0, i, ARTICLE, j);
      SpacedArticleFromShape(s, i, j);
    }
  }

  /** Moving past `h` leading hashes shifts a shape's indices by `h`. */
  lemma ShapeShift(line: string, h: int, i: int, w: string, j: int)
    requires 0 <= h <= |line|
    requires forall k :: 0 <= k < h ==> IsHash(line[k])
    ensures ShapeAt(line, h, i, w, j) <==> ShapeAt(line[h..], 0, i - h, w, j - h)
  {
    var t := line[h..];
    if ShapeAt(line, h, i, w, j) {
      assert t[0..i - h] == line[h..i];
      assert t[i - h..i - h + |w|] == line[i..i + |w|];
      assert t[i - h + |w|..j - h] == line[i + |w|..j];
    }
    if ShapeAt(t, 0, i - h, w, j - h) {
      assert t[0..i - h] == line[h..i];
      assert t[i - h..i - h + |w|] == line[i..i + |w|];
      assert t[i - h + |w|..j - h] == line[i + |w|..j];
    }
  }

  /** In any shape whose word is anchored, the hash count is the maximal run. */
  lemma ShapeHashes(line: string, h: int, i: int, w: string, j: int)
    requires ShapeAt(line, h, i, w, j) && Anchored(w)
    ensures Span(line, IsHash) == h
  {
    if i > h {
      assert line[h] == line[h..i][0];
    } else {
      assert line[h] == line[i..i + |w|][0];
    }
    SpanExact(line, IsHash, h);
  }

  lemma ArticleAnchored()
    ensures Anchored(ARTICLE) && Anchored(ARTICLE_CAPS)
  {
  }

  /** The newer chunker's test is the regular expression `##?\s*Điều\s+\d`. */
  lemma AppHeadingMatchesRegex(line: string)
    ensures IsAppHeading(line) <==> AppHeadingRegex(line)
  {
    if IsAppHeading(line) {
      AppHeadingHasShape(line);
    }
    if AppHeadingRegex(line) {
      var h', i, j :| (h' == 1 || h' == 2) && ShapeAt(line, h', i, ARTICLE, j);
      AppShapeIsHeading(line, h', i, j);
    }
  }

  lemma AppHeadingHasShape(line: string)
    requires IsAppHeading(line)
    ensures AppHeadingRegex(line)
  {
    var h := Span(line, IsHash);
    var i, j := HashedShapeWitness(line, h);
  }

  lemma AppShapeIsHeading(line: string, h': int, i: int, j: int)
    requires (h' == 1 || h' == 2) && ShapeAt(line, h', i, ARTICLE, j)
    ensures IsAppHeading(line)
  {
    ArticleAnchored();
    ShapeHashes(line, h', i, ARTICLE, j);
    ShapeShift(line, h', i, ARTICLE, j);
    SpacedArticleFromShape(line[h'..], i - h', j - h');
  }

  /** The older chunker's test is `^(Điều|ĐIỀU)\s+\d`. */
  lemma RootHeadingMatchesRegex(para: string)
    ensures IsRootHeading(para) <==> RootHeadingRegex(para)
  {
    WordThenNumberShape(para, ARTICLE);
    WordThenNumberShape(para, ARTICLE_CAPS);
  }

  lemma WebHeadingHasShape(para: string)
    requires IsWebHeading(para)
    ensures WebHeadingRegex(para)
  {
    var h := Span(para, IsHash);
    if h == 0 {
      assert WordThenNumber(para, ARTICLE);
      var j := WordThenNumberWitness(para, ARTICLE);
      assert ShapeAt(para, 0, 0, ARTICLE, j);
    } else {
      assert SpacedArticle(para[h..]);
      HashedWebHeadingHasShape(para, h);
    }
  }

  lemma HashedWebHeadingHasShape(para: string, h: nat)
    requires 1 <= h <= |para| && (forall k :: 0 <= k < h ==> IsHash(para[k]))
    requires SpacedArticle(para[h..])
    ensures HashedArticleRegex(para)
  {
    var i, j := HashedShapeWitness(para, h);
  }

  lemma HashedShapeWitness(para: string, h: nat) returns (i': int, j': int)
    requires h <= |para| && (forall k :: 0 <= k < h ==> IsHash(para[k]))
    requires SpacedArticle(para[h..])
    ensures ShapeAt(para, h, i', ARTICLE, j')
  {
    var t := para[h..];
    var i, j := SpacedArticleWitness(t);
    assert ShapeAt(t, 0, i, ARTICLE, j);
    i', j' := i + h, j + h;
    assert i' - h == i && j' - h == j;
    ShapeShift(para, h, i', ARTICLE, j');
    assert ShapeAt(para, h, i', ARTICLE, j');
  }

  lemma HashedShapeIsWebHeading(para: string, h: int, i: int, j: int)
    requires h >= 1 && ShapeAt(para, h, i, ARTICLE, j)
    ensures IsWebHeading(para)
  {
    ArticleAnchored();
    ShapeHashes(para, h, i, ARTICLE, j);
    ShapeShift(para, h, i, ARTICLE, j);
    SpacedArticleFromShape(para[h..], i - h, j - h);
  }

  lemma BareShapeIsWebHeading(para: string, j: int)
    requires ShapeAt(para, 0, 0, ARTICLE, j)
    ensures IsWebHeading(para)
  {
    ArticleAnchored();
    ShapeHashes(para, 0, 0, ARTICLE, j);
    WordThenNumberFromShape(para, ARTICLE, j);
  }

  /** The crawler's test is `(#+\s*)?Điều\s+\d`. */
  lemma WebHeadingMatchesRegex(para: string)
    ensures IsWebHeading(para) <==> WebHeadingRegex(para)
  {
    if IsWebHeading(para) {
      WebHeadingHasShape(para);
    }
    if HashedArticleRegex(para) {
      var h, i, j :| h >= 1 && ShapeAt(para, h, i, ARTICLE, j);
      HashedShapeIsWebHeading(para, h, i, j);
    }
    if exists j :: ShapeAt(para, 0, 0, ARTICLE, j) {
      var j :| ShapeAt(para, 0, 0, ARTICLE, j);
      BareShapeIsWebHeading(para, j);
    }
  }

  /** Every newer-chunker boundary is also a crawler boundary. */
  lemma AppHeadingIsWebHeading(line: string)
    requires IsAppHeading(line)
    ensures IsWebHeading(line)
  {
  }

  /** A line opening with "Điều" carries no '#', so the newer chunker does not
      cut there, while the older chunker and the crawler do. */
  lemma BareArticleBoundaries(line: string)
    requires WordThenNumber(line, ARTICLE)
    ensures !IsAppHeading(line)
    ensures IsRootHeading(line) && IsWebHeading(line)
  {
    assert line[0] == ARTICLE[0];
  }

  /** The all-capitals spelling "ĐIỀU" is a boundary only for the older chunker. */
  lemma CapitalArticleBoundaries(line: string)
    requires WordThenNumber(line, ARTICLE_CAPS)
    ensures IsRootHeading(line)
    ensures !IsWebHeading(line) && !IsAppHeading(line)
  {
    assert line[0] == ARTICLE_CAPS[0];
    assert line[1] == ARTICLE_CAPS[1] != ARTICLE[1];
  }

  /** No boundary line is empty. */
  lemma HeadingsNotEmpty(line: string)
    requires IsAppHeading(line) || IsRootHeading(line) || IsWebHeading(line)
    ensures line != ""
  {
  }
}

=== FILE: hybrid.dfy ===
/** Hybrid search: blend the vector and keyword result pools, pairing results
    by chunk key. A chunk in the vector pool scores
    `alpha * v + (1 - alpha) * k`, with `k` its keyword score or 0.0; a chunk
    only in the keyword pool scores `(1 - alpha) * k`. The blend is sorted by
    descending score and cut to `top_k`. */
module Hybrid {
  import opened Basics
  import opened Records
  import opened Ranking
  import KeywordSearch
  import VectorSearch

  /** Both pools are searched with `top_k=100`. */
  const POOL: int := 100

  /** `kw_dict[key]`: the last keyword result with that key. */
  function LastWithKey(rs: seq<SearchResult>, k: Key): (r: Option<SearchResult>)
    decreases |rs|
    ensures r.None? <==> k !in Keys(rs)
    ensures r.Some? ==> r.value in rs && ResultKey(r.value) == k
    ensures r.Some? ==> exists i :: 0 <= i < |rs| && rs[i] == r.value && NoKeyAfter(rs, k, i)
  {
    if rs == [] then None
    else
      var init, last := rs[..|rs| - 1], rs[|rs| - 1];
      assert rs == init + [last];
      if ResultKey(last) == k then
        assert NoKeyAfter(rs, k, |rs| - 1);
        Some(last)
      else
        var r := LastWithKey(init, k);
        LastInInit(rs, init, k, r);
        r
  }

  /** No result after position `i` has key `k`: `rs[i]` is the one a dict
      built from `rs` keeps for `k`. */
  predicate NoKeyAfter(rs: seq<SearchResult>, k: Key, i: nat) {
    forall j :: i < j < |rs| ==> ResultKey(rs[j]) != k
  }

  lemma LastInInit(rs: seq<SearchResult>, init: seq<SearchResult>, k: Key, r: Option<SearchResult>)
    requires rs != [] && init == rs[..|rs| - 1] && ResultKey(rs[|rs| - 1]) != k
    requires r.Some? ==> exists i :: 0 <= i < |init| && init[i] == r.value && NoKeyAfter(init, k, i)
    ensures r.Some? ==> exists i :: 0 <= i < |rs| && rs[i] == r.value && NoKeyAfter(rs, k, i)
  {
    if r.Some? {
      var i :| 0 <= i < |rs| - 1 && init[i] == r.value && NoKeyAfter(init, k, i);
      forall j | i < j < |rs|
        ensures ResultKey(rs[j]) != k
      {
        if j < |rs| - 1 {
          assert rs[j] == init[j];
        }
      }
      assert rs[i] == init[i];
    }
  }

  /** `d[key] = x` on a dict whose entries are `es`: an existing key keeps
      its place and takes the new value; a new key goes last. */
  function Upsert(es: seq<SearchResult>, x: SearchResult): (r: seq<SearchResult>)
    requires KeysDistinct(es)
    decreases |es|
    ensures KeysDistinct(r)
    ensures Keys(r) == Keys(es) + {ResultKey(x)}
    ensures x in r
    ensures forall y :: y in r ==> y == x || (y in es && ResultKey(y) != ResultKey(x))
  {
    if es == [] then [x]
    else if ResultKey(es[0]) == ResultKey(x) then
      UpsertHead(es, x);
      [x] + es[1..]
    else
      var t := es[1..];
      assert KeysDistinct(t) by {
        forall i, j | 0 <= i < j < |t|
          ensures ResultKey(t[i]) != ResultKey(t[j])
        {
          assert t[i] == es[i + 1] && t[j] == es[j + 1];
        }
      }
      var u := Upsert(t, x);
      UpsertCons(es, x, u);
      [es[0]] + u
  }

  lemma UpsertHead(es: seq<SearchResult>, x: SearchResult)
    requires KeysDistinct(es) && es != [] && ResultKey(es[0]) == ResultKey(x)
    ensures KeysDistinct([x] + es[1..])
    ensures Keys([x] + es[1..]) == Keys(es) + {ResultKey(x)}
    ensures forall y :: y in [x] + es[1..] ==> y == x || (y in es && ResultKey(y) != ResultKey(x))
  {
    var t := es[1..];
    assert es == [es[0]] + t;
    KeysConcat([x], t);
    KeysConcat([es[0]], t);
    forall y | y in t
      ensures ResultKey(y) != ResultKey(x)
    {
      var j :| 0 <= j < |t| && t[j] == y;
      assert es[j + 1] == y;
    }
    forall i, j | 0 <= i < j < |[x] + t|
      ensures ResultKey(([x] + t)[i]) != ResultKey(([x] + t)[j])
    {
      if i == 0 {
        assert ([x] + t)[j] == t[j - 1] && t[j - 1] in t;
      } else {
        assert ([x] + t)[i] == es[i] && ([x] + t)[j] == es[j];
      }
    }
  }

  lemma UpsertCons(es: seq<SearchResult>, x: SearchResult, u: seq<SearchResult>)
    requires KeysDistinct(es) && es != [] && ResultKey(es[0]) != ResultKey(x)
    requires KeysDistinct(u)
    requires Keys(u) == Keys(es[1..]) + {ResultKey(x)}
    requires forall y :: y in u ==> y == x || (y in es[1..] && ResultKey(y) != ResultKey(x))
    ensures KeysDistinct([es[0]] + u)
    ensures Keys([es[0]] + u) == Keys(es) + {ResultKey(x)}
    ensures forall y :: y in [es[0]] + u ==> y == x || (y in es && ResultKey(y) != ResultKey(x))
  {
    var t := es[1..];
    assert es == [es[0]] + t;
    assert ResultKey(es[0]) !in Keys(t) by {
      forall y | y in t
        ensures ResultKey(y) != ResultKey(es[0])
      {
        var j :| 0 <= j < |t| && t[j] == y;
        assert es[j + 1] == y;
      }
    }
    ConsDistinct([es[0]], u);
    KeysConcat([es[0]], u);
    KeysConcat([es[0]], t);
  }

  /** The dict built from `rs`: one entry per key, in the order keys first
      appear, each holding the last result with that key. */
  function Entries(rs: seq<SearchResult>): (r: seq<SearchResult>)
    decreases |rs|
    ensures KeysDistinct(r)
    ensures Keys(r) == Keys(rs)
    ensures forall x :: x in r ==> LastWithKey(rs, ResultKey(x)) == Some(x)
    ensures Map(r, ResultKey) == FirstKeys(rs)
  {
    if rs == [] then []
    else
      var init, last := rs[..|rs| - 1], rs[|rs| - 1];
      assert rs == init + [last];
      UpsertOrder(Entries(init), last);
      Upsert(Entries(init), last)
  }

  /** The keys of `rs` in the order they first appear, which is the order of
      a dict filled from `rs`. */
  function FirstKeys(rs: seq<SearchResult>): seq<Key>
    decreases |rs|
  {
    if rs == [] then []
    else
      var init, last := rs[..|rs| - 1], rs[|rs| - 1];
      FirstKeys(init) + NewKey(init, last)
  }

  /** The keys of `ks` that are not in `seen`, in order. */
  function Unseen(ks: seq<Key>, seen: set<Key>): seq<Key>
    decreases |ks|
  {
    if ks == [] then [] else (if ks[0] in seen then [] else [ks[0]]) + Unseen(ks[1..], seen)
  }

  lemma DistinctTail(es: seq<SearchResult>)
    requires KeysDistinct(es) && es != []
    ensures KeysDistinct(es[1..])
  {
    var t := es[1..];
    forall i, j | 0 <= i < j < |t|
      ensures ResultKey(t[i]) != ResultKey(t[j])
    {
      assert t[i] == es[i + 1] && t[j] == es[j + 1];
    }
  }

  /** A dict assignment keeps the key order and puts a new key last. */
  lemma {:induction false} UpsertOrder(es: seq<SearchResult>, x: SearchResult)
    requires KeysDistinct(es)
    ensures Map(Upsert(es, x), ResultKey) == Map(es, ResultKey) + NewKey(es, x)
    decreases |es|
  {
    if es != [] {
      if ResultKey(es[0]) == ResultKey(x) {
        UpsertOrderHead(es, x);
      } else {
        DistinctTail(es);
        UpsertOrder(es[1..], x);
        UpsertOrderCons(es, x, Upsert(es[1..], x));
      }
    }
  }

  /** The key `d[key] = x` adds at the end: none when it is already present. */
  function NewKey(es: seq<SearchResult>, x: SearchResult): seq<Key> {
    if ResultKey(x) in Keys(es) then [] else [ResultKey(x)]
  }

  lemma UpsertOrderHead(es: seq<SearchResult>, x: SearchResult)
    requires es != [] && ResultKey(es[0]) == ResultKey(x)
    ensures Map([x] + es[1..], ResultKey) == Map(es, ResultKey) + NewKey(es, x)
  {
    assert es[0] in es;
    MapCons(es, ResultKey);
    MapCons([x] + es[1..], ResultKey);
    assert ([x] + es[1..])[1..] == es[1..];
  }

  lemma UpsertOrderCons(es: seq<SearchResult>, x: SearchResult, u: seq<SearchResult>)
    requires es != [] && ResultKey(es[0]) != ResultKey(x)
    requires Map(u, ResultKey) == Map(es[1..], ResultKey) + NewKey(es[1..], x)
    ensures Map([es[0]] + u, ResultKey) == Map(es, ResultKey) + NewKey(es, x)
  {
    NewKeyTail(es, x);
    var t := es[1..];
    var k, n := [ResultKey(es[0])], NewKey(es, x);
    assert es == [es[0]] + t;
    MapPrepend(es[0], t, ResultKey);
    MapPrepend(es[0], u, ResultKey);
    assert k + (Map(t, ResultKey) + n) == (k + Map(t, ResultKey)) + n;
  }

  lemma NewKeyTail(es: seq<SearchResult>, x: SearchResult)
    requires es != [] && ResultKey(es[0]) != ResultKey(x)
    ensures NewKey(es, x) == NewKey(es[1..], x)
  {
    assert es == [es[0]] + es[1..];
    KeysConcat([es[0]], es[1..]);
    KeysSingleton(es[0]);
  }

  /** A pooled result re-scored as a hybrid result. */
  function Blended(x: SearchResult, score: real): SearchResult {
    SearchResult(x.docId, x.chunkId, x.title, x.content, score, HybridHit)
  }

  /** `kw_dict[key]["score"] if key in kw_dict else 0.0`. */
  function KeywordScoreOf(kw: seq<SearchResult>, k: Key): real {
    match LastWithKey(kw, k)
    case None => 0.0
    case Some(x) => x.score
  }

  /** `alpha * v + (1 - alpha) * kw_score` for vector result `v`. */
  function VectorBlendScore(v: SearchResult, kw: seq<SearchResult>, alpha: real): real {
    alpha * v.score + (1.0 - alpha) * KeywordScoreOf(kw, ResultKey(v))
  }

  /** The first loop: every vector result, blended with its keyword score. */
  function VectorPart(vec: seq<SearchResult>, kw: seq<SearchResult>, alpha: real): (r: seq<SearchResult>)
    ensures |r| == |vec|
    ensures forall i :: 0 <= i < |vec| ==> r[i] == Blended(vec[i], VectorBlendScore(vec[i], kw, alpha))
  {
    seq(|vec|, i requires 0 <= i < |vec| => Blended(vec[i], VectorBlendScore(vec[i], kw, alpha)))
  }

  /** The first loop keeps the vector pool's keys, one result per key when
      the pool has one result per key. */
  lemma VectorPartKeys(vec: seq<SearchResult>, kw: seq<SearchResult>, alpha: real)
    ensures AllOfKind(VectorPart(vec, kw, alpha), HybridHit)
    ensures Keys(VectorPart(vec, kw, alpha)) == Keys(vec)
    ensures KeysDistinct(vec) ==> KeysDistinct(VectorPart(vec, kw, alpha))
  {
    var r := VectorPart(vec, kw, alpha);
    forall i | 0 <= i < |vec|
      ensures ResultKey(r[i]) == ResultKey(vec[i]) && r[i].kind == HybridHit
    {
    }
    forall k | k in Keys(vec)
      ensures k in Keys(r)
    {
      var y :| y in vec && ResultKey(y) == k;
      var i :| 0 <= i < |vec| && vec[i] == y;
      assert r[i] in r;
    }
    forall k | k in Keys(r)
      ensures k in Keys(vec)
    {
      var y :| y in r && ResultKey(y) == k;
      var i :| 0 <= i < |r| && r[i] == y;
      assert vec[i] in vec;
    }
  }

  /** `(1 - alpha) * kw_score` for keyword result `e`. */
  function KeywordOnlyScore(e: SearchResult, alpha: real): real {
    (1.0 - alpha) * e.score
  }

  /** One dict entry in the second loop: kept, re-scored, unless the vector
      pool has its key. */
  function KeywordEntry(e: SearchResult, seen: set<Key>, alpha: real): seq<SearchResult> {
    if ResultKey(e) in seen then [] else [Blended(e, KeywordOnlyScore(e, alpha))]
  }

  /** The second loop: the dict entries whose key the vector pool lacks,
      scored `(1 - alpha) * k`, in dict order. */
  function KeywordPart(es: seq<SearchResult>, seen: set<Key>, alpha: real): (r: seq<SearchResult>)
    decreases |es|
    ensures Keys(r) == Keys(es) - seen
    ensures AllOfKind(r, HybridHit)
    ensures forall x :: x in r ==>
      (exists e :: e in es && ResultKey(e) !in seen && x == Blended(e, KeywordOnlyScore(e, alpha)))
    ensures KeysDistinct(es) ==> KeysDistinct(r)
  {
    if es == [] then []
    else
      var rest := KeywordPart(es[1..], seen, alpha);
      KeywordPartStep(es, seen, alpha, rest);
      KeywordEntry(es[0], seen, alpha) + rest
  }

  lemma KeywordPartStep(es: seq<SearchResult>, seen: set<Key>, alpha: real, rest: seq<SearchResult>)
    requires es != []
    requires Keys(rest) == Keys(es[1..]) - seen
    requires forall x :: x in rest ==>
      (exists e :: e in es[1..] && ResultKey(e) !in seen && x == Blended(e, KeywordOnlyScore(e, alpha)))
    requires KeysDistinct(es[1..]) ==> KeysDistinct(rest)
    ensures Keys(KeywordEntry(es[0], seen, alpha) + rest) == Keys(es) - seen
    ensures forall x :: x in KeywordEntry(es[0], seen, alpha) + rest ==>
      (exists e :: e in es && ResultKey(e) !in seen && x == Blended(e, KeywordOnlyScore(e, alpha)))
    ensures KeysDistinct(es) ==> KeysDistinct(KeywordEntry(es[0], seen, alpha) + rest)
  {
    var t := es[1..];
    var head := KeywordEntry(es[0], seen, alpha);
    assert es == [es[0]] + t;
    KeysConcat(head, rest);
    KeysConcat([es[0]], t);
    assert Keys(head) == Keys([es[0]]) - seen by {
      if ResultKey(es[0]) !in seen {
        assert head == [Blended(es[0], KeywordOnlyScore(es[0], alpha))];
        KeysSingleton(head[0]);
        KeysSingleton(es[0]);
      }
    }
    forall x | x in head + rest
      ensures exists e :: e in es && ResultKey(e) !in seen && x == Blended(e, KeywordOnlyScore(e, alpha))
    {
      if x !in head {
        var e :| e in t && ResultKey(e) !in seen && x == Blended(e, KeywordOnlyScore(e, alpha));
        assert e in es;
      }
    }
    if KeysDistinct(es) {
      DistinctTail(es);
      KeywordHeadDistinct(es, seen, alpha, rest);
    }
  }

  lemma KeywordHeadDistinct(es: seq<SearchResult>, seen: set<Key>, alpha: real, rest: seq<SearchResult>)
    requires es != [] && KeysDistinct(es)
    requires Keys(rest) == Keys(es[1..]) - seen && KeysDistinct(rest)
    ensures KeysDistinct(KeywordEntry(es[0], seen, alpha) + rest)
  {
    var t := es[1..];
    var head := KeywordEntry(es[0], seen, alpha);
    forall x, y | x in head && y in rest
      ensures ResultKey(x) != ResultKey(y)
    {
      assert ResultKey(y) in Keys(rest) && ResultKey(y) in Keys(t);
      var z :| z in t && ResultKey(z) == ResultKey(y);
      var j :| 0 <= j < |t| && t[j] == z;
      assert es[j + 1] == z;
    }
    ConsDistinct(head, rest);
  }

  lemma ConcatDistinct(a: seq<SearchResult>, b: seq<SearchResult>)
    requires KeysDistinct(a) && KeysDistinct(b) && Keys(a) !! Keys(b)
    ensures KeysDistinct(a + b)
  {
    forall i, j | 0 <= i < j < |a + b|
      ensures ResultKey((a + b)[i]) != ResultKey((a + b)[j])
    {
      if i < |a| && j >= |a| {
        assert (a + b)[i] == a[i] && a[i] in a && ResultKey(a[i]) in Keys(a);
        assert (a + b)[j] == b[j - |a|] && b[j - |a|] in b && ResultKey(b[j - |a|]) in Keys(b);
      } else if j < |a| {
        assert (a + b)[i] == a[i] && (a + b)[j] == a[j];
      } else {
        assert (a + b)[i] == b[i - |a|] && (a + b)[j] == b[j - |a|];
      }
    }
  }

  /** The blend before ranking: every key of either pool, once per key when
      the vector pool's keys are distinct. */
  function Merge(vec: seq<SearchResult>, kw: seq<SearchResult>, alpha: real): (r: seq<SearchResult>)
    ensures AllOfKind(r, HybridHit)
    ensures Keys(r) == Keys(vec) + Keys(kw)
    ensures KeysDistinct(vec) ==> KeysDistinct(r)
    ensures Map(r, ResultKey) == Map(vec, ResultKey) + Unseen(FirstKeys(kw), Keys(vec))
  {
    MergeKeys(vec, kw, alpha);
    MergeOrder(vec, kw, alpha);
    VectorPart(vec, kw, alpha) + KeywordPart(Entries(kw), Keys(vec), alpha)
  }

  /** The vector pool's keys in pool order, then the keyword-only keys in
      dict order. */
  lemma MergeOrder(vec: seq<SearchResult>, kw: seq<SearchResult>, alpha: real)
    ensures var m := VectorPart(vec, kw, alpha) + KeywordPart(Entries(kw), Keys(vec), alpha);
      Map(m, ResultKey) == Map(vec, ResultKey) + Unseen(FirstKeys(kw), Keys(vec))
  {
    var v := VectorPart(vec, kw, alpha);
    MapAppend(v, KeywordPart(Entries(kw), Keys(vec), alpha), ResultKey);
    KeywordPartOrder(Entries(kw), Keys(vec), alpha);
    assert Map(v, ResultKey) == Map(vec, ResultKey);
  }

  /** The second loop keeps the dict order of the keys it adds. */
  lemma {:induction false} KeywordPartOrder(es: seq<SearchResult>, seen: set<Key>, alpha: real)
    ensures Map(KeywordPart(es, seen, alpha), ResultKey) == Unseen(Map(es, ResultKey), seen)
    decreases |es|
  {
    if es != [] {
      var head := KeywordEntry(es[0], seen, alpha);
      KeywordPartOrder(es[1..], seen, alpha);
      MapCons(es, ResultKey);
      MapAppend(head, KeywordPart(es[1..], seen, alpha), ResultKey);
      assert Map(es, ResultKey)[1..] == Map(es[1..], ResultKey);
    }
  }

  lemma MergeKeys(vec: seq<SearchResult>, kw: seq<SearchResult>, alpha: real)
    ensures var m := VectorPart(vec, kw, alpha) + KeywordPart(Entries(kw), Keys(vec), alpha);
      && AllOfKind(m, HybridHit)
      && Keys(m) == Keys(vec) + Keys(kw)
      && (KeysDistinct(vec) ==> KeysDistinct(m))
  {
    var v := VectorPart(vec, kw, alpha);
    var k := KeywordPart(Entries(kw), Keys(vec), alpha);
    VectorPartKeys(vec, kw, alpha);
    KeysConcat(v, k);
    if KeysDistinct(vec) {
      ConcatDistinct(v, k);
    }
  }

  /** A blended result whose key is in the vector pool comes from a vector
      result `v` and scores `alpha * v + (1 - alpha) * (k or 0.0)`. */
  lemma MergeVectorScore(vec: seq<SearchResult>, kw: seq<SearchResult>, alpha: real, x: SearchResult) returns (v: SearchResult)
    requires x in Merge(vec, kw, alpha) && ResultKey(x) in Keys(vec)
    ensures v in vec && ResultKey(v) == ResultKey(x) && x.title == v.title && x.content == v.content
    ensures x.score == VectorBlendScore(v, kw, alpha)
  {
    var vp := VectorPart(vec, kw, alpha);
    var kp := KeywordPart(Entries(kw), Keys(vec), alpha);
    assert Merge(vec, kw, alpha) == vp + kp;
    assert x in vp;
    var i :| 0 <= i < |vp| && vp[i] == x;
    v := vec[i];
  }

  /** A blended result whose key is not in the vector pool comes from the
      last keyword result `k` with that key and scores `(1 - alpha) * k`. */
  lemma MergeKeywordScore(vec: seq<SearchResult>, kw: seq<SearchResult>, alpha: real, x: SearchResult) returns (k: SearchResult)
    requires x in Merge(vec, kw, alpha) && ResultKey(x) !in Keys(vec)
    ensures LastWithKey(kw, ResultKey(x)) == Some(k) && x.title == k.title && x.content == k.content
    ensures x.score == KeywordOnlyScore(k, alpha)
  {
    var vp := VectorPart(vec, kw, alpha);
    var kp := KeywordPart(Entries(kw), Keys(vec), alpha);
    assert Merge(vec, kw, alpha) == vp + kp;
    VectorPartKeys(vec, kw, alpha);
    assert x in kp;
    var e :| e in Entries(kw) && ResultKey(e) !in Keys(vec) && x == Blended(e, KeywordOnlyScore(e, alpha));
    assert LastWithKey(kw, ResultKey(e)) == Some(e);
    k := e;
  }

  /** The ranked blend: `sorted(hybrid, ..., reverse=True)[:top_k]`. */
  function Blend(vec: seq<SearchResult>, kw: seq<SearchResult>, alpha: real, topK: int): (r: seq<SearchResult>)
    ensures IsTop(r, Merge(vec, kw, alpha), topK)
    ensures topK >= |Merge(vec, kw, alpha)| ==> Keys(r) == Keys(vec) + Keys(kw)
    ensures AllOfKind(r, HybridHit)
    ensures KeysDistinct(vec) ==> KeysDistinct(r)
    ensures forall x :: x in r ==> x in Merge(vec, kw, alpha)
  {
    var m := Merge(vec, kw, alpha);
    var r := RankTop(m, topK);
    BlendFacts(m, topK, r);
    r
  }

  lemma BlendFacts(m: seq<SearchResult>, topK: int, r: seq<SearchResult>)
    requires r == RankTop(m, topK)
    ensures forall x :: x in r ==> x in m
    ensures topK >= |m| ==> Keys(r) == Keys(m)
    ensures AllOfKind(m, HybridHit) ==> AllOfKind(r, HybridHit)
    ensures KeysDistinct(m) ==> KeysDistinct(r)
  {
    forall x | x in r
      ensures x in m
    {
      RankTopFrom(m, topK, x);
    }
    if topK >= |m| {
      assert |r| == |m|;
      VectorSearch.SubMultisetOfSameSize(multiset(r), multiset(m));
      assert forall x :: x in r <==> x in multiset(m);
    }
    if KeysDistinct(m) {
      RankTopKeysDistinct(m, topK);
    }
  }

  /** With `alpha = 1` the vector pool keeps its own scores and keyword-only
      chunks score 0; with `alpha = 0` only keyword scores count. */
  lemma AlphaExtremes(vec: seq<SearchResult>, kw: seq<SearchResult>, x: SearchResult)
    ensures x in Merge(vec, kw, 1.0) && ResultKey(x) !in Keys(vec) ==> x.score == 0.0
    ensures x in Merge(vec, kw, 1.0) && ResultKey(x) in Keys(vec) ==>
      exists v :: v in vec && ResultKey(v) == ResultKey(x) && x.score == v.score
    ensures x in Merge(vec, kw, 0.0) ==> x.score == KeywordScoreOf(kw, ResultKey(x))
  {
    if x in Merge(vec, kw, 1.0) {
      if ResultKey(x) in Keys(vec) {
        var v := MergeVectorScore(vec, kw, 1.0, x);
      } else {
        var k := MergeKeywordScore(vec, kw, 1.0, x);
      }
    }
    if x in Merge(vec, kw, 0.0) {
      if ResultKey(x) in Keys(vec) {
        var v := MergeVectorScore(vec, kw, 0.0, x);
      } else {
        var k := MergeKeywordScore(vec, kw, 0.0, x);
      }
    }
  }

  /** With `0 <= alpha <= 1` and every pooled score in [0, 1], every blended
      score is in [0, 1]. */
  lemma BlendInUnitRange(vec: seq<SearchResult>, kw: seq<SearchResult>, alpha: real, x: SearchResult)
    requires 0.0 <= alpha <= 1.0
    requires forall y :: y in vec ==> 0.0 <= y.score <= 1.0
    requires forall y :: y in kw ==> 0.0 <= y.score <= 1.0
    requires x in Merge(vec, kw, alpha)
    ensures 0.0 <= x.score <= 1.0
  {
    if ResultKey(x) in Keys(vec) {
      var v := MergeVectorScore(vec, kw, alpha, x);
      var k := KeywordScoreOf(kw, ResultKey(x));
      assert 0.0 <= k <= 1.0;
      VectorBlendInRange(v, kw, alpha);
    } else {
      var e := MergeKeywordScore(vec, kw, alpha, x);
      KeywordOnlyInRange(e, alpha);
    }
  }

  lemma VectorBlendInRange(v: SearchResult, kw: seq<SearchResult>, alpha: real)
    requires 0.0 <= alpha <= 1.0 && 0.0 <= v.score <= 1.0
    requires 0.0 <= KeywordScoreOf(kw, ResultKey(v)) <= 1.0
    ensures 0.0 <= VectorBlendScore(v, kw, alpha) <= 1.0
  {
    Convex(alpha, v.score, KeywordScoreOf(kw, ResultKey(v)));
  }

  lemma KeywordOnlyInRange(e: SearchResult, alpha: real)
    requires 0.0 <= alpha <= 1.0 && 0.0 <= e.score <= 1.0
    ensures 0.0 <= KeywordOnlyScore(e, alpha) <= 1.0
  {
    var p := MulBounds(1.0 - alpha, e.score);
  }

  lemma Convex(alpha: real, a: real, b: real)
    requires 0.0 <= alpha <= 1.0 && 0.0 <= a <= 1.0 && 0.0 <= b <= 1.0
    ensures 0.0 <= alpha * a + (1.0 - alpha) * b <= 1.0
  {
    var p := MulBounds(alpha, a);
    var q := MulBounds(1.0 - alpha, b);
    SumBounds(p, q, alpha);
  }

  /** Two parts bounded by `alpha` and `1 - alpha` sum to at most 1. */
  lemma SumBounds(p: real, q: real, alpha: real)
    requires 0.0 <= p <= alpha && 0.0 <= q <= 1.0 - alpha
    ensures 0.0 <= p + q <= 1.0
  {
  }

  /** Scaling by a factor in [0, 1] keeps a non-negative value between 0 and
      itself. */
  lemma MulBounds(x: real, y: real) returns (p: real)
    requires 0.0 <= x && 0.0 <= y <= 1.0
    ensures p == x * y && 0.0 <= p <= x
  {
    p := x * y;
    assert x * (1.0 - y) >= 0.0;
    assert x * (1.0 - y) == x - x * y;
  }

  /** The newer `hybrid_search`: pools of 100 from the newer vector search
      and the keyword search. */
  function Search(chunks: seq<Chunk>, query: string, topK: int, alpha: real,
                  embed: string -> Option<seq<real>>, sim: (seq<real>, seq<real>) -> real): (r: seq<SearchResult>)
    ensures IsTop(r, Merge(VectorSearch.Search(chunks, query, POOL, embed, sim), KeywordSearch.Search(chunks, query, POOL), alpha), topK)
    ensures AllOfKind(r, HybridHit)
    ensures ChunkKeysDistinct(chunks) ==> KeysDistinct(r)
    ensures FromChunks(r, chunks)
  {
    var vec := VectorSearch.Search(chunks, query, POOL, embed, sim);
    var kw := KeywordSearch.Search(chunks, query, POOL);
    var r := Blend(vec, kw, alpha, topK);
    BlendFromChunks(vec, kw, alpha, topK, chunks);
    r
  }

  /** The blended results describe the chunks the pools describe. */
  lemma BlendFromChunks(vec: seq<SearchResult>, kw: seq<SearchResult>, alpha: real, topK: int, chunks: seq<Chunk>)
    requires FromChunks(vec, chunks) && FromChunks(kw, chunks)
    ensures FromChunks(Blend(vec, kw, alpha, topK), chunks)
  {
    forall x | x in Blend(vec, kw, alpha, topK)
      ensures exists c :: c in chunks && ResultKey(x) == ChunkKey(c) && x.title == c.title && x.content == c.content
    {
      var y;
      if ResultKey(x) in Keys(vec) {
        y := MergeVectorScore(vec, kw, alpha, x);
      } else {
        y := MergeKeywordScore(vec, kw, alpha, x);
      }
      assert y in vec || y in kw;
    }
  }

  /** The older `hybrid_search`: an error raised by its vector search
      propagates (`None`). */
  function SearchStrict(chunks: seq<Chunk>, query: string, topK: int, alpha: real,
                        embed: string -> Option<seq<real>>, cos: (seq<real>, seq<real>) -> real): (r: Option<seq<SearchResult>>)
    ensures r.None? <==> VectorSearch.SearchStrict(chunks, query, POOL, embed, cos).None?
    ensures r.Some? ==> AllOfKind(r.value, HybridHit) && FromChunks(r.value, chunks)
    ensures r.Some? ==> IsTop(r.value, Merge(VectorSearch.SearchStrict(chunks, query, POOL, embed, cos).value,
                                             KeywordSearch.Search(chunks, query, POOL), alpha), topK)
    ensures r.Some? && ChunkKeysDistinct(chunks) ==> KeysDistinct(r.value)
  {
    var vec :- VectorSearch.SearchStrict(chunks, query, POOL, embed, cos);
    var kw := KeywordSearch.Search(chunks, query, POOL);
    BlendFromChunks(vec, kw, alpha, topK, chunks);
    Some(Blend(vec, kw, alpha, topK))
  }
}

=== FILE: index.dfy ===
/** The search engine's in-memory index: every chunk of every stored article,
    loaded article by article at start-up and again on `refresh`. The store
    is a parameter: `fetch(id)` stands for the chunk rows of document `id`,
    in the store's order. */
module Index {
  import opened Records

  /** `for article in articles: all_chunks.extend(fetch_chunks_by_doc_id(article["id"]))`. */
  function LoadChunks(articleIds: seq<int>, fetch: int -> seq<Chunk>): (r: seq<Chunk>)
    decreases |articleIds|
    ensures forall c :: c in r <==> exists i :: 0 <= i < |articleIds| && c in fetch(articleIds[i])
  {
    if articleIds == [] then []
    else
      var init, last := articleIds[..|articleIds| - 1], articleIds[|articleIds| - 1];
      var r := LoadChunks(init, fetch) + fetch(last);
      assert forall i :: 0 <= i < |init| ==> init[i] == articleIds[i];
      forall c | c in r
        ensures exists i :: 0 <= i < |articleIds| && c in fetch(articleIds[i])
      {
        if c !in fetch(last) {
          var i :| 0 <= i < |init| && c in fetch(init[i]);
          assert c in fetch(articleIds[i]);
        }
      }
      forall c | (exists i :: 0 <= i < |articleIds| && c in fetch(articleIds[i]))
        ensures c in r
      {
        var i :| 0 <= i < |articleIds| && c in fetch(articleIds[i]);
        if i < |init| {
          assert c in fetch(init[i]);
        }
      }
      r
  }

  /** Loading two runs of articles is loading each and concatenating. */
  lemma {:induction false} LoadChunksAppend(a: seq<int>, b: seq<int>, fetch: int -> seq<Chunk>)
    ensures LoadChunks(a + b, fetch) == LoadChunks(a, fetch) + LoadChunks(b, fetch)
    decreases |b|
  {
    if b == [] {
      assert a + b == a;
    } else {
      var binit, blast := b[..|b| - 1], b[|b| - 1];
      assert a + b == (a + binit) + [blast];
      assert (a + b)[..|a + b| - 1] == a + binit;
      LoadChunksAppend(a, binit, fetch);
    }
  }

  /** Each article's chunks form one contiguous run, in article order. */
  lemma LoadChunksSingle(id: int, fetch: int -> seq<Chunk>)
    ensures LoadChunks([id], fetch) == fetch(id)
  {
    assert [id][..0] == [];
  }

  /** The number of chunks of the articles `ids`. */
  function TotalChunks(ids: seq<int>, fetch: int -> seq<Chunk>): nat
    decreases |ids|
  {
    if ids == [] then 0 else |fetch(ids[0])| + TotalChunks(ids[1..], fetch)
  }

  lemma {:induction false} LoadChunksLength(ids: seq<int>, fetch: int -> seq<Chunk>)
    ensures |LoadChunks(ids, fetch)| == TotalChunks(ids, fetch)
    decreases |ids|
  {
    if ids != [] {
      assert ids == [ids[0]] + ids[1..];
      LoadChunksAppend([ids[0]], ids[1..], fetch);
      LoadChunksSingle(ids[0], fetch);
      LoadChunksLength(ids[1..], fetch);
    }
  }

  /** The store hands out, for document `id`, chunks of that document with
      distinct chunk numbers. */
  ghost predicate WellKeyedStore(fetch: int -> seq<Chunk>) {
    forall id :: ChunkKeysDistinct(fetch(id)) && forall c :: c in fetch(id) ==> c.docId == id
  }

  predicate IdsDistinct(ids: seq<int>) {
    forall i, j :: 0 <= i < j < |ids| ==> ids[i] != ids[j]
  }

  /** Distinct article ids over a well-keyed store give an index whose chunk
      keys are distinct, as the search engine's de-duplication relies on. */
  lemma {:induction false} LoadChunksKeysDistinct(ids: seq<int>, fetch: int -> seq<Chunk>)
    requires IdsDistinct(ids) && WellKeyedStore(fetch)
    ensures ChunkKeysDistinct(LoadChunks(ids, fetch))
    decreases |ids|
  {
    if ids != [] {
      var init, last := ids[..|ids| - 1], ids[|ids| - 1];
      assert IdsDistinct(init) by {
        forall i, j | 0 <= i < j < |init|
          ensures init[i] != init[j]
        {
          assert init[i] == ids[i] && init[j] == ids[j];
        }
      }
      LoadChunksKeysDistinct(init, fetch);
      var a, b := LoadChunks(init, fetch), fetch(last);
      forall x, y | x in a && y in b
        ensures ChunkKey(x) != ChunkKey(y)
      {
        var i :| 0 <= i < |init| && x in fetch(init[i]);
        assert x.docId == init[i] == ids[i];
        assert y.docId == last;
      }
      ChunkConcatDistinct(a, b);
    }
  }

  lemma ChunkConcatDistinct(a: seq<Chunk>, b: seq<Chunk>)
    requires ChunkKeysDistinct(a) && ChunkKeysDistinct(b)
    requires forall x, y :: x in a && y in b ==> ChunkKey(x) != ChunkKey(y)
    ensures ChunkKeysDistinct(a + b)
  {
    forall i, j | 0 <= i < j < |a + b|
      ensures ChunkKey((a + b)[i]) != ChunkKey((a + b)[j])
    {
      if i < |a| && j >= |a| {
        assert (a + b)[i] == a[i] && a[i] in a;
        assert (a + b)[j] == b[j - |a|] && b[j - |a|] in b;
      } else if j < |a| {
        assert (a + b)[i] == a[i] && (a + b)[j] == a[j];
      } else {
        assert (a + b)[i] == b[i - |a|] && (a + b)[j] == b[j - |a|];
      }
    }
  }

  /** The engine's state: the loaded chunks. */
  datatype Engine = Engine(chunks: seq<Chunk>)

  /** `SearchEngine.__init__`'s loading. */
  function Open(articleIds: seq<int>, fetch: int -> seq<Chunk>): (e: Engine)
    ensures forall c :: c in e.chunks <==> exists i :: 0 <= i < |articleIds| && c in fetch(articleIds[i])
  {
    Engine(LoadChunks(articleIds, fetch))
  }

  /** `refresh`: bind a new empty chunk list and load it again; nothing of
      the old state survives, so a refresh over the same store equals a fresh
      start. */
  function Refresh(e: Engine, articleIds: seq<int>, fetch: int -> seq<Chunk>): (r: Engine)
    ensures forall c :: c in r.chunks <==> exists i :: 0 <= i < |articleIds| && c in fetch(articleIds[i])
  {
    Engine(LoadChunks(articleIds, fetch))
  }

  lemma RefreshIsOpen(e: Engine, articleIds: seq<int>, fetch: int -> seq<Chunk>)
    ensures Refresh(e, articleIds, fetch) == Open(articleIds, fetch)
  {
  }
}

=== FILE: keyword_search.dfy ===
/** Keyword search over the loaded chunks, in three tiers: chunks citing the
    article number the query names, chunks containing the whole normalised
    query, and chunks sharing enough non-stop-words with it. The later tiers
    run only while fewer than `top_k` results have been found, and never add
    a chunk already found. Both copies of the search engine share this logic;
    they differ only in the name of the text field, which `Chunk.content`
    stands for. */
module KeywordSearch {
  import opened Unicode
  import opened Basics
  import opened Strings
  import opened Records
  import opened Ranking

  /** Every character is a word character or whitespace. */
  predicate WordOrSpace(s: string) {
    forall i :: 0 <= i < |s| ==> IsWordChar(s[i]) || IsSpace(s[i])
  }

  /** A character that `re.sub(r"[^\w\s]", "", s)` keeps. */
  predicate KeptChar(c: char) {
    IsWordChar(c) || IsSpace(c)
  }

  /** `re.sub(r"[^\w\s]", "", s)`: drop every character that is neither a
      word character nor whitespace, keeping the others as often as they
      occur. */
  function KeepWordOrSpace(s: string): (r: string)
    ensures |r| <= |s|
    ensures WordOrSpace(r)
    ensures IsLower(s) ==> IsLower(r)
    ensures WordOrSpace(s) ==> r == s
    ensures forall c :: multiset(r)[c] == if IsWordChar(c) || IsSpace(c) then multiset(s)[c] else 0
  {
    KeptCharsFacts(s);
    Filter(s, KeptChar)
  }

  lemma KeptCharsFacts(s: string)
    ensures var r := Filter(s, KeptChar);
      && |r| <= |s|
      && WordOrSpace(r)
      && (IsLower(s) ==> IsLower(r))
      && (WordOrSpace(s) ==> r == s)
      && forall c :: multiset(r)[c] == if KeptChar(c) then multiset(s)[c] else 0
  {
    var r := Filter(s, KeptChar);
    FilterCounts(s, KeptChar);
    FilterMembers(s, KeptChar);
    forall i | 0 <= i < |r|
      ensures KeptChar(r[i]) && r[i] in s
    {
      assert r[i] in r;
    }
    if WordOrSpace(s) {
      FilterAll(s, KeptChar);
    }
  }

  /** The filter works character by character: on a concatenation it is the
      concatenation of the filtered parts, so the kept characters stay in
      order, and one character is kept exactly when it is a word character
      or whitespace. */
  lemma KeepWordOrSpaceAppend(a: string, b: string)
    ensures KeepWordOrSpace(a + b) == KeepWordOrSpace(a) + KeepWordOrSpace(b)
    ensures forall c :: KeepWordOrSpace([c]) == if IsWordChar(c) || IsSpace(c) then [c] else []
  {
    FilterAppend(a, b, KeptChar);
    forall c
      ensures KeepWordOrSpace([c]) == if IsWordChar(c) || IsSpace(c) then [c] else []
    {
      FilterSingle(c, KeptChar);
    }
  }

  /** A normalised text: lower case, word characters and whitespace only, no
      whitespace at either end. */
  predicate IsNormal(s: string) {
    Trimmed(s) && IsLower(s) && WordOrSpace(s)
  }

  /** `_normalize`: lower-case, drop punctuation, strip. The result keeps
      every word character of the lower-cased text, as often as it occurs
      there. */
  function Normalize(s: string): (r: string)
    ensures IsNormal(r)
    ensures forall c :: IsWordChar(c) ==> multiset(r)[c] == multiset(Lower(s))[c]
  {
    LowerIsLower(s);
    var t := KeepWordOrSpace(Lower(s));
    StripKeepsNormal(t);
    StripKeepsWordChars(t);
    Strip(t)
  }

  /** Stripping removes whitespace only, so no word character. */
  lemma StripKeepsWordChars(t: string)
    ensures forall c :: IsWordChar(c) ==> multiset(Strip(t))[c] == multiset(t)[c]
  {
    var i :| FramedBySpace(t, Strip(t), i);
    FramedKeepsWordChars(t, Strip(t), i);
  }

  lemma FramedKeepsWordChars(t: string, r: string, i: int)
    requires FramedBySpace(t, r, i)
    ensures forall c :: IsWordChar(c) ==> multiset(r)[c] == multiset(t)[c]
  {
    var pre, post := t[..i], t[i + |r|..];
    assert t == pre + r + post;
    assert multiset(t) == multiset(pre) + multiset(r) + multiset(post);
    forall c | IsWordChar(c)
      ensures multiset(r)[c] == multiset(t)[c]
    {
      SpaceHasNoWordChar(pre, c);
      SpaceHasNoWordChar(post, c);
    }
  }

  lemma SpaceHasNoWordChar(x: string, c: char)
    requires AllSpace(x) && IsWordChar(c)
    ensures multiset(x)[c] == 0
  {
    if c in x {
      var k :| 0 <= k < |x| && x[k] == c;
      SpaceIsNotWordChar(x[k]);
    }
  }

  lemma SpaceIsNotWordChar(c: char)
    requires IsSpace(c)
    ensures !IsWordChar(c)
  {
  }

  lemma StripKeepsNormal(t: string)
    requires IsLower(t) && WordOrSpace(t)
    ensures IsNormal(Strip(t))
  {
    var r := Strip(t);
    var i :| FramedBySpace(t, r, i);
    FramedKeeps(t, r, i, c => !IsUpper(c));
    FramedKeeps(t, r, i, KeptChar);
  }

  /** A property of every character of `t` holds of every character of a
      slice of it. */
  lemma FramedKeeps(t: string, r: string, i: int, p: char -> bool)
    requires FramedBySpace(t, r, i)
    requires forall j :: 0 <= j < |t| ==> p(t[j])
    ensures forall j :: 0 <= j < |r| ==> p(r[j])
  {
    forall j | 0 <= j < |r|
      ensures p(r[j])
    {
      assert r[j] == t[i..i + |r|][j] == t[i + j];
    }
  }

  /** Normalising a normalised text changes nothing. */
  lemma NormalizeFixesNormal(s: string)
    requires IsNormal(s)
    ensures Normalize(s) == s
  {
    LowerOfLowerIsIdentity(s);
    StripTrimmed(s);
  }

  lemma NormalizeIdempotent(s: string)
    ensures Normalize(Normalize(s)) == Normalize(s)
  {
    NormalizeFixesNormal(Normalize(s));
  }

  /** The article reference `điều\s+\d+` as the normalised text spells it. */
  const ARTICLE_WORD := "điều"

  /** Where the greedy match of `điều\s+\d+` that starts at `i` ends. */
  function RefEnd(s: string, i: nat): (r: Option<nat>)
    ensures r.Some? ==> i + |ARTICLE_WORD| < r.value <= |s|
  {
    if !OccursAt(s, ARTICLE_WORD, i) then None
    else
      var j := i + |ARTICLE_WORD|;
      var n := Span(s[j..], IsSpace);
      var d := Span(s[j + n..], IsDigit);
      if n == 0 || d == 0 then None else Some(j + n + d)
  }

  predicate RefAt(s: string, i: nat) {
    RefEnd(s, i).Some?
  }

  /** One way `điều\s+\d+` matches at `i`: the word, spaces up to `j`, digits
      up to `e`. */
  predicate RefShape(s: string, i: int, j: int, e: int) {
    && 0 <= i && i + |ARTICLE_WORD| < j < e <= |s|
    && OccursAt(s, ARTICLE_WORD, i)
    && AllSpace(s[i + |ARTICLE_WORD|..j]) && AllDigits(s[j..e])
  }

  /** The greedy scan matches at `i` exactly when the pattern does. */
  lemma RefAtMatchesRegex(s: string, i: nat)
    ensures RefAt(s, i) <==> exists j, e :: RefShape(s, i, j, e)
  {
    var w := i + |ARTICLE_WORD|;
    if RefAt(s, i) {
      var n := Span(s[w..], IsSpace);
      var d := Span(s[w + n..], IsDigit);
      assert s[w..w + n] == s[w..][..n];
      assert s[w + n..w + n + d] == s[w + n..][..d];
      assert RefShape(s, i, w + n, w + n + d);
    }
    if exists j, e :: RefShape(s, i, j, e) {
      var j, e :| RefShape(s, i, j, e);
      assert s[w..][0] == s[w..j][0];
      assert s[j..][0] == s[j..e][0];
    }
  }

  /** `re.search(r"điều\s+(\d+)", query_norm).group(0)`: the leftmost match,
      extended greedily. */
  function ArticleRef(qn: string): (r: Option<string>)
    ensures r.None? <==> forall i :: 0 <= i <= |qn| ==> !RefAt(qn, i)
    ensures r.Some? ==> StartsWith(r.value, ARTICLE_WORD) && Contains(qn, r.value)
  {
    match FirstMatchFrom(qn, 0, RefAt)
    case None => None
    case Some(i) =>
      var e := RefEnd(qn, i).value;
      RefInQuery(qn, i, e);
      Some(qn[i..e])
  }

  lemma RefInQuery(qn: string, i: nat, e: nat)
    requires RefEnd(qn, i) == Some(e)
    ensures StartsWith(qn[i..e], ARTICLE_WORD) && Contains(qn, qn[i..e])
  {
    assert qn[i..e][..|ARTICLE_WORD|] == qn[i..i + |ARTICLE_WORD|];
    assert OccursAt(qn, qn[i..e], i);
  }

  /** The reference is the match at the leftmost position where the pattern
      matches. */
  lemma ArticleRefLeftmost(qn: string, i: nat)
    requires RefAt(qn, i)
    requires forall j :: 0 <= j < i ==> !RefAt(qn, j)
    ensures ArticleRef(qn) == Some(qn[i..RefEnd(qn, i).value])
  {
    var m := FirstMatchFrom(qn, 0, RefAt);
    assert i <= |qn| by {
      assert RefEnd(qn, i).Some?;
    }
    assert m.Some?;
    assert !(m.value < i) && !(i < m.value);
  }

  /** The chunk's normalised text contains `pat`. */
  predicate Mentions(c: Chunk, pat: string) {
    Contains(Normalize(c.content), pat)
  }

  /** The loop of tiers 2 and 3: a chunk is appended, with the score `score`
      gives it, unless `score` rejects it (`None`) or its key is already
      among the results, those appended earlier in the same loop included. */
  function AddNew(results: seq<SearchResult>, chunks: seq<Chunk>, score: Chunk -> Option<real>): (r: seq<SearchResult>)
    decreases |chunks|
    ensures results <= r
    ensures forall x :: x in r[|results|..] ==> ResultKey(x) !in Keys(results)
    ensures forall x :: x in r[|results|..] ==>
      (exists c :: c in chunks && score(c) == Some(x.score) && x == Hit(c, x.score, KeywordHit))
    ensures forall c :: c in chunks && score(c).Some? ==> ChunkKey(c) in Keys(r)
    ensures KeysDistinct(results) ==> KeysDistinct(r)
  {
    if chunks == [] then results
    else
      var c := chunks[0];
      var isNew := ChunkKey(c) !in Keys(results) && score(c).Some?;
      var next := if isNew then results + [Hit(c, score(c).value, KeywordHit)] else results;
      var r := AddNew(next, chunks[1..], score);
      AddNewStep(results, next, r, c, chunks, score, isNew);
      r
  }

  lemma AddNewStep(results: seq<SearchResult>, next: seq<SearchResult>, r: seq<SearchResult>,
                   c: Chunk, chunks: seq<Chunk>, score: Chunk -> Option<real>, isNew: bool)
    requires chunks != [] && c == chunks[0]
    requires isNew == (ChunkKey(c) !in Keys(results) && score(c).Some?)
    requires next == if isNew then results + [Hit(c, score(c).value, KeywordHit)] else results
    requires next <= r
    requires forall x :: x in r[|next|..] ==> ResultKey(x) !in Keys(next)
    requires forall x :: x in r[|next|..] ==>
      (exists c' :: c' in chunks[1..] && score(c') == Some(x.score) && x == Hit(c', x.score, KeywordHit))
    requires forall c' :: c' in chunks[1..] && score(c').Some? ==> ChunkKey(c') in Keys(r)
    requires KeysDistinct(next) ==> KeysDistinct(r)
    ensures results <= r
    ensures forall x :: x in r[|results|..] ==> ResultKey(x) !in Keys(results)
    ensures forall x :: x in r[|results|..] ==>
      (exists c' :: c' in chunks && score(c') == Some(x.score) && x == Hit(c', x.score, KeywordHit))
    ensures forall c' :: c' in chunks && score(c').Some? ==> ChunkKey(c') in Keys(r)
    ensures KeysDistinct(results) ==> KeysDistinct(r)
  {
    var h := Hit(c, if score(c).Some? then score(c).value else 0.0, KeywordHit);
    assert Keys(results) <= Keys(next) by {
      forall y | y in results ensures y in next { }
    }
    assert isNew ==> r[|results|..] == [h] + r[|next|..];
    assert !isNew ==> r[|results|..] == r[|next|..];
    forall x | x in r[|results|..]
      ensures ResultKey(x) !in Keys(results)
      ensures exists c' :: c' in chunks && score(c') == Some(x.score) && x == Hit(c', x.score, KeywordHit)
    {
      if isNew && x == h {
      } else {
        assert x in r[|next|..];
        var c' :| c' in chunks[1..] && score(c') == Some(x.score) && x == Hit(c', x.score, KeywordHit);
        assert c' in chunks;
      }
    }
    assert score(c).Some? ==> ChunkKey(c) in Keys(r) by {
      assert Keys(next) <= Keys(r) by {
        forall y | y in next ensures y in r { }
      }
      if isNew {
        assert h in next && ResultKey(h) == ChunkKey(c);
      }
    }
    assert forall c' :: c' in chunks ==> c' == c || c' in chunks[1..];
    if KeysDistinct(results) && isNew {
      AppendFreshDistinct(results, Hit(c, score(c).value, KeywordHit));
    }
  }

  /** Appending a result under a key not yet present keeps keys distinct. */
  lemma AppendFreshDistinct(results: seq<SearchResult>, h: SearchResult)
    requires KeysDistinct(results) && ResultKey(h) !in Keys(results)
    ensures KeysDistinct(results + [h])
  {
    var next := results + [h];
    forall i, j | 0 <= i < j < |next|
      ensures ResultKey(next[i]) != ResultKey(next[j])
    {
      if j == |results| {
        assert next[i] in results;
      }
    }
  }

  /** The words of a normalised query that are not stop words. */
  const STOP_WORDS: set<string> := {
    "tôi", "là", "cho", "hay", "xin", "biết", "giúp", "với", "làm", "có", "bạn",
    "của", "ở", "và", "hoặc", "nhé", "thì", "đó", "này", "nào", "cái", "vậy", "ra",
    "đi", "được", "sao", "ai", "đâu", "đây", "gì", "hả", "không", "như", "nha", "nhưng"
  }

  predicate NotStopWord(w: string) {
    w !in STOP_WORDS
  }

  /** The words that are not stop words, each as often as it occurs. */
  function DropStopWords(ws: seq<string>): (r: seq<string>)
    ensures forall w :: w in r <==> w in ws && w !in STOP_WORDS
    ensures r == [] <==> forall w :: w in ws ==> w in STOP_WORDS
    ensures forall w :: multiset(r)[w] == if w in STOP_WORDS then 0 else multiset(ws)[w]
  {
    DropStopWordsFacts(ws);
    Filter(ws, NotStopWord)
  }

  lemma DropStopWordsFacts(ws: seq<string>)
    ensures var r := Filter(ws, NotStopWord);
      && (forall w :: w in r <==> w in ws && NotStopWord(w))
      && (r == [] <==> forall w :: w in ws ==> !NotStopWord(w))
      && forall w :: multiset(r)[w] == if NotStopWord(w) then multiset(ws)[w] else 0
  {
    FilterCounts(ws, NotStopWord);
    FilterMembers(ws, NotStopWord);
  }

  /** The filter works word by word: on a concatenation it is the
      concatenation of the filtered parts, so the kept words stay in order,
      and one word is kept exactly when it is not a stop word. */
  lemma DropStopWordsAppend(a: seq<string>, b: seq<string>)
    ensures DropStopWords(a + b) == DropStopWords(a) + DropStopWords(b)
    ensures forall w :: DropStopWords([w]) == if w in STOP_WORDS then [] else [w]
  {
    FilterAppend(a, b, NotStopWord);
    forall w
      ensures DropStopWords([w]) == if w in STOP_WORDS then [] else [w]
    {
      FilterSingle(w, NotStopWord);
    }
  }

  /** `[kw for kw in query_norm.split() if kw not in stop_words]`: every
      word of the query that is not a stop word, as often as it occurs. */
  function Keywords(qn: string): (r: seq<string>)
    ensures forall w :: w in r ==> IsWord(w) && w !in STOP_WORDS
    ensures r == [] <==> forall w :: w in Words(qn) ==> w in STOP_WORDS
    ensures forall w :: multiset(r)[w] == if w in STOP_WORDS then 0 else multiset(Words(qn))[w]
  {
    DropStopWords(Words(qn))
  }

  /** `sum(1 for kw in keywords if kw in text)`; repeated keywords count
      once per repetition. */
  function MatchCount(kws: seq<string>, text: string): (n: nat)
    decreases |kws|
    ensures n <= |kws|
    ensures n == |kws| <==> forall k :: 0 <= k < |kws| ==> Contains(text, kws[k])
    ensures n == 0 <==> forall k :: 0 <= k < |kws| ==> !Contains(text, kws[k])
  {
    if kws == [] then 0
    else
      assert forall k :: 1 <= k < |kws| ==> kws[k] == kws[1..][k - 1];
      (if Contains(text, kws[0]) then 1 else 0) + MatchCount(kws[1..], text)
  }

  /** `n / max(1, total)`, the share of `total` items that `n` is: nothing
      exactly when `n` is zero, everything exactly when `n` is all of a
      non-empty `total`. */
  function Share(n: nat, total: nat): (s: real)
    requires n <= total
    ensures 0.0 <= s <= 1.0
    ensures s == 0.0 <==> n == 0
    ensures s == 1.0 <==> n == total && total > 0
  {
    if total == 0 then 0.0
    else
      ShareBounds(n as real, total as real);
      n as real / total as real
  }

  lemma ShareBounds(n: real, d: real)
    requires 0.0 <= n <= d && 0.0 < d
    ensures 0.0 <= n / d <= 1.0
    ensures n / d == 0.0 <==> n == 0.0
    ensures n / d == 1.0 <==> n == d
  {
    assert n / d * d == n;
  }

  /** `match_score`: the share of the keywords the text contains, in
      [0, 1]. */
  function KeywordScore(kws: seq<string>, text: string): (s: real)
    ensures 0.0 <= s <= 1.0
  {
    Share(MatchCount(kws, text), |kws|)
  }

  /** The score is 1.0 exactly when there are keywords and the text contains
      them all, and 0.0 exactly when it contains none. */
  lemma KeywordScoreExtremes(kws: seq<string>, text: string)
    ensures KeywordScore(kws, text) == 1.0 <==>
      |kws| > 0 && forall k :: 0 <= k < |kws| ==> Contains(text, kws[k])
    ensures KeywordScore(kws, text) == 0.0 <==>
      forall k :: 0 <= k < |kws| ==> !Contains(text, kws[k])
  {
    var n := MatchCount(kws, text);
  }

  /** Score threshold of tier 3. */
  const MIN_SCORE: real := 0.2

  /** Tier 1 for normalised query `qn`: the chunks citing the article the
      query names; none when it names none. */
  function Tier1(chunks: seq<Chunk>, qn: string): seq<SearchResult> {
    match ArticleRef(qn)
    case None => []
    case Some(ref) => ScoreEach(chunks, MentionScore(ref), KeywordHit)
  }

  /** Tiers 1 and 2 accept, with score 1.0, a chunk whose normalised text
      contains `pat`. */
  function MentionScore(qn: string): Chunk -> Option<real> {
    (c: Chunk) => if Mentions(c, qn) then Some(1.0) else None
  }

  /** Tier 3 accepts a chunk whose keyword share reaches the threshold, with
      that share as its score. */
  function Tier3Score(kws: seq<string>): Chunk -> Option<real> {
    (c: Chunk) => Tier3Of(kws, Normalize(c.content))
  }

  /** Tier 3's verdict on a normalised text. */
  function Tier3Of(kws: seq<string>, text: string): (r: Option<real>)
    ensures r.Some? <==> KeywordScore(kws, text) >= MIN_SCORE
    ensures r.Some? ==> r.value == KeywordScore(kws, text) && MIN_SCORE <= r.value <= 1.0
  {
    var s := KeywordScore(kws, text);
    if s >= MIN_SCORE then Some(s) else None
  }

  /** The results before ranking, for the normalised query `qn`: tier 1
      first; tier 2 runs only while fewer than `topK` results have been
      found, and then appends every chunk containing the whole normalised
      query; tier 3 likewise appends every chunk whose keyword share reaches
      the threshold. Keys stay distinct when the chunks' keys are. */
  function Candidates(chunks: seq<Chunk>, qn: string, topK: int): (r: seq<SearchResult>)
    ensures Tier1(chunks, qn) <= r
    ensures |Tier1(chunks, qn)| >= topK ==> r == Tier1(chunks, qn)
    ensures |Tier1(chunks, qn)| < topK ==>
      forall c :: c in chunks && Mentions(c, qn) ==> ChunkKey(c) in Keys(r)
    ensures UpToTier2(chunks, qn, topK) <= r
    ensures |UpToTier2(chunks, qn, topK)| >= topK ==> r == UpToTier2(chunks, qn, topK)
    ensures forall x :: x in r[|Tier1(chunks, qn)|..] ==> exists c :: c in chunks && LaterTierHit(x, c, qn)
    ensures ChunkKeysDistinct(chunks) ==> KeysDistinct(r)
  {
    CandidatesGrow(chunks, qn, topK);
    LaterTiersSound(chunks, qn, topK);
    Layer(UpToTier2(chunks, qn, topK), chunks, Tier3Score(Keywords(qn)), topK)
  }

  lemma UpToTier2Facts(chunks: seq<Chunk>, qn: string, topK: int)
    ensures var r1, r2 := Tier1(chunks, qn), UpToTier2(chunks, qn, topK);
      && r1 <= r2
      && (|r1| >= topK ==> r2 == r1)
      && (|r1| < topK ==> forall c :: c in chunks && Mentions(c, qn) ==> ChunkKey(c) in Keys(r2))
      && (ChunkKeysDistinct(chunks) ==> KeysDistinct(r2))
  {
    Tier1Distinct(chunks, qn);
    Tier2Accepts(qn);
  }

  lemma CandidatesGrow(chunks: seq<Chunk>, qn: string, topK: int)
    ensures var r1, r2 := Tier1(chunks, qn), UpToTier2(chunks, qn, topK);
      var r3 := Layer(r2, chunks, Tier3Score(Keywords(qn)), topK);
      && r1 <= r2 <= r3
      && (|r1| >= topK ==> r3 == r1)
      && (|r2| >= topK ==> r3 == r2)
      && (|r1| < topK ==> forall c :: c in chunks && Mentions(c, qn) ==> ChunkKey(c) in Keys(r3))
      && (ChunkKeysDistinct(chunks) ==> KeysDistinct(r3))
  {
    var r1, r2 := Tier1(chunks, qn), UpToTier2(chunks, qn, topK);
    var r3 := Layer(r2, chunks, Tier3Score(Keywords(qn)), topK);
    UpToTier2Facts(chunks, qn, topK);
    KeysGrow(r2, r3);
  }

  /** Tiers 1 and 2 together. */
  function UpToTier2(chunks: seq<Chunk>, qn: string, topK: int): seq<SearchResult> {
    Layer(Tier1(chunks, qn), chunks, MentionScore(qn), topK)
  }

  /** `x` is what tier 2 or tier 3 makes of chunk `c` for the normalised
      query `qn`: score 1.0 for a chunk containing the whole query, or the
      keyword share of a chunk whose share reaches the threshold. */
  predicate LaterTierHit(x: SearchResult, c: Chunk, qn: string) {
    || (x == Hit(c, 1.0, KeywordHit) && Mentions(c, qn))
    || (Tier3Of(Keywords(qn), Normalize(c.content)) == Some(x.score) && x == Hit(c, x.score, KeywordHit))
  }

  /** `x` is what one of the three tiers makes of chunk `c`. */
  predicate TierHit(x: SearchResult, c: Chunk, qn: string) {
    || (ArticleRef(qn).Some? && x == Hit(c, 1.0, KeywordHit) && Mentions(c, ArticleRef(qn).value))
    || LaterTierHit(x, c, qn)
  }

  /** A later tier: it runs only while fewer than `topK` results have been
      found, and then appends, under keys not yet present, what `score`
      accepts. */
  function Layer(results: seq<SearchResult>, chunks: seq<Chunk>, score: Chunk -> Option<real>, topK: int): (r: seq<SearchResult>)
    ensures results <= r
    ensures |results| >= topK ==> r == results
    ensures |results| < topK ==> forall c :: c in chunks && score(c).Some? ==> ChunkKey(c) in Keys(r)
    ensures forall x :: x in r[|results|..] ==>
      && ResultKey(x) !in Keys(results)
      && exists c :: c in chunks && score(c) == Some(x.score) && x == Hit(c, x.score, KeywordHit)
    ensures KeysDistinct(results) ==> KeysDistinct(r)
  {
    if |results| < topK then AddNew(results, chunks, score) else results
  }

  /** Whatever tiers 2 and 3 append is a hit they are entitled to add. */
  lemma LaterTiersSound(chunks: seq<Chunk>, qn: string, topK: int)
    ensures var r3 := Layer(UpToTier2(chunks, qn, topK), chunks, Tier3Score(Keywords(qn)), topK);
      forall x :: x in r3[|Tier1(chunks, qn)|..] ==> exists c :: c in chunks && LaterTierHit(x, c, qn)
  {
    var r3 := Layer(UpToTier2(chunks, qn, topK), chunks, Tier3Score(Keywords(qn)), topK);
    forall x | x in r3[|Tier1(chunks, qn)|..]
      ensures exists c :: c in chunks && LaterTierHit(x, c, qn)
    {
      LaterTierSound(chunks, qn, topK, x);
    }
  }

  lemma LaterTierSound(chunks: seq<Chunk>, qn: string, topK: int, x: SearchResult)
    requires x in Layer(UpToTier2(chunks, qn, topK), chunks, Tier3Score(Keywords(qn)), topK)[|Tier1(chunks, qn)|..]
    ensures exists c :: c in chunks && LaterTierHit(x, c, qn)
  {
    var r1, r2 := Tier1(chunks, qn), UpToTier2(chunks, qn, topK);
    var r3 := Layer(r2, chunks, Tier3Score(Keywords(qn)), topK);
    var j :| 0 <= j < |r3[|r1|..]| && r3[|r1|..][j] == x;
    var i := |r1| + j;
    assert r3[i] == x;
    if i < |r2| {
      Tier2Sound(chunks, qn, topK, i);
      assert r2[i] == x;
    } else {
      Tier3Sound(chunks, qn, topK, i);
    }
  }

  /** What a tier appends is a chunk it accepts, with the score it gives. */
  lemma LayerSound(results: seq<SearchResult>, chunks: seq<Chunk>, score: Chunk -> Option<real>, topK: int, i: int)
    requires |results| <= i < |Layer(results, chunks, score, topK)|
    ensures var x := Layer(results, chunks, score, topK)[i];
      exists c :: c in chunks && score(c) == Some(x.score) && x == Hit(c, x.score, KeywordHit)
  {
    var r := Layer(results, chunks, score, topK);
    assert r[|results|..][i - |results|] == r[i];
  }

  /** Tier 2 appends only chunks containing the whole query, scored 1.0. */
  lemma Tier2Sound(chunks: seq<Chunk>, qn: string, topK: int, i: int)
    requires |Tier1(chunks, qn)| <= i < |UpToTier2(chunks, qn, topK)|
    ensures exists c :: c in chunks && LaterTierHit(UpToTier2(chunks, qn, topK)[i], c, qn)
  {
    var x := UpToTier2(chunks, qn, topK)[i];
    LayerSound(Tier1(chunks, qn), chunks, MentionScore(qn), topK, i);
    var c :| c in chunks && MentionScore(qn)(c) == Some(x.score) && x == Hit(c, x.score, KeywordHit);
    assert LaterTierHit(x, c, qn);
  }

  lemma Tier3Hit(x: SearchResult, c: Chunk, qn: string)
    requires Tier3Score(Keywords(qn))(c) == Some(x.score) && x == Hit(c, x.score, KeywordHit)
    ensures LaterTierHit(x, c, qn)
  {
  }

  /** Tier 3 appends only chunks whose keyword share reaches the threshold,
      scored with that share. */
  lemma Tier3Sound(chunks: seq<Chunk>, qn: string, topK: int, i: int)
    requires |UpToTier2(chunks, qn, topK)| <= i < |Layer(UpToTier2(chunks, qn, topK), chunks, Tier3Score(Keywords(qn)), topK)|
    ensures var r3 := Layer(UpToTier2(chunks, qn, topK), chunks, Tier3Score(Keywords(qn)), topK);
      exists c :: c in chunks && LaterTierHit(r3[i], c, qn)
  {
    var score := Tier3Score(Keywords(qn));
    var x := Layer(UpToTier2(chunks, qn, topK), chunks, score, topK)[i];
    LayerSound(UpToTier2(chunks, qn, topK), chunks, score, topK, i);
    var c :| c in chunks && score(c) == Some(x.score) && x == Hit(c, x.score, KeywordHit);
    Tier3Hit(x, c, qn);
  }

  lemma Tier2Accepts(qn: string)
    ensures forall c :: Mentions(c, qn) ==> MentionScore(qn)(c).Some?
  {
  }

  lemma KeysGrow(a: seq<SearchResult>, b: seq<SearchResult>)
    requires a <= b
    ensures Keys(a) <= Keys(b)
  {
    forall x | x in a ensures x in b {
      var i :| 0 <= i < |a| && a[i] == x;
      assert b[i] == x;
    }
  }

  lemma Tier1Distinct(chunks: seq<Chunk>, qn: string)
    ensures ChunkKeysDistinct(chunks) ==> KeysDistinct(Tier1(chunks, qn))
  {
    if ChunkKeysDistinct(chunks) {
      match ArticleRef(qn)
      case None =>
      case Some(ref) => ScoreEachDistinct(chunks, MentionScore(ref), KeywordHit);
    }
  }

  /** When tiers 1 and 2 leave room, every chunk tier 3 accepts is found. */
  lemma Tier3Complete(chunks: seq<Chunk>, qn: string, topK: int, c: Chunk)
    requires var r1 := Tier1(chunks, qn);
      |r1| < topK && |AddNew(r1, chunks, MentionScore(qn))| < topK
    requires c in chunks
    requires KeywordScore(Keywords(qn), Normalize(c.content)) >= MIN_SCORE
    ensures ChunkKey(c) in Keys(Candidates(chunks, qn, topK))
  {
    Tier3Accepts(Keywords(qn), c);
  }

  lemma Tier3Accepts(kws: seq<string>, c: Chunk)
    requires KeywordScore(kws, Normalize(c.content)) >= MIN_SCORE
    ensures Tier3Score(kws)(c).Some?
  {
  }

  /** A query that normalises to nothing names no article, and then tier 2
      finds every chunk (each text contains the empty string). */
  lemma EmptyQueryFindsEverything(chunks: seq<Chunk>, topK: int, c: Chunk)
    requires topK > 0
    requires c in chunks
    ensures ChunkKey(c) in Keys(Candidates(chunks, "", topK))
  {
    assert !RefAt("", 0);
    assert OccursAt(Normalize(c.content), "", 0);
  }

  /** A query made only of stop words has no keywords, so tier 3 adds
      nothing. */
  lemma StopWordsAddNothing(results: seq<SearchResult>, chunks: seq<Chunk>)
    ensures AddNew(results, chunks, Tier3Score([])) == results
  {
  }

  lemma RefEndAt(s: string, i: nat, n: nat, d: nat)
    requires OccursAt(s, ARTICLE_WORD, i) && 0 < n && 0 < d
    requires Span(s[i + |ARTICLE_WORD|..], IsSpace) == n
    requires i + |ARTICLE_WORD| + n <= |s|
    requires Span(s[i + |ARTICLE_WORD| + n..], IsDigit) == d
    ensures RefEnd(s, i) == Some(i + |ARTICLE_WORD| + n + d)
  {
  }

  /** The query "điều 15" names article 15. */
  lemma ArticleFifteen()
    ensures ArticleRef("điều 15") == Some("điều 15")
  {
    var qn := "điều 15";
    assert |ARTICLE_WORD| == 4;
    assert OccursAt(qn, ARTICLE_WORD, 0) by {
      assert qn[0..4] == ARTICLE_WORD;
    }
    assert qn[4..] == " 15";
    SpanExact(" 15", IsSpace, 1);
    assert qn[4 + 1..] == "15";
    SpanExact("15", IsDigit, 2);
    RefEndAt(qn, 0, 1, 2);
    ArticleRefLeftmost(qn, 0);
    assert qn[0..7] == qn;
  }

  /** The reference test is a plain substring test: the query "điều 15"
      also selects a chunk citing "điều 150". */
  lemma ArticlePrefixCollision(chunks: seq<Chunk>, c: Chunk)
    requires c in chunks
    requires Contains(Normalize(c.content), "điều 150")
    ensures Hit(c, 1.0, KeywordHit) in Tier1(chunks, "điều 15")
  {
    FifteenThenZero();
    ArticleFifteenSelects(chunks, c);
  }

  lemma FifteenThenZero()
    ensures "điều 15" + "0" == "điều 150"
  {
  }

  lemma ArticleFifteenSelects(chunks: seq<Chunk>, c: Chunk)
    requires c in chunks && Mentions(c, "điều 15" + "0")
    ensures Hit(c, 1.0, KeywordHit) in Tier1(chunks, "điều 15")
  {
    ArticleFifteen();
    ExtendedCitationSelects(chunks, "điều 15", "điều 15", "0", c);
  }

  /** Tier 1 also selects a chunk that cites the reference followed by more
      text. */
  lemma ExtendedCitationSelects(chunks: seq<Chunk>, qn: string, ref: string, more: string, c: Chunk)
    requires ArticleRef(qn) == Some(ref)
    requires c in chunks && Mentions(c, ref + more)
    ensures Hit(c, 1.0, KeywordHit) in Tier1(chunks, qn)
  {
    assert OccursAt(ref + more, ref, 0);
    ContainsTrans(Normalize(c.content), ref + more, ref);
    Tier1Selects(chunks, qn, ref, c);
  }

  /** Tier 1 selects every chunk that mentions the query's reference. */
  lemma Tier1Selects(chunks: seq<Chunk>, qn: string, ref: string, c: Chunk)
    requires ArticleRef(qn) == Some(ref)
    requires c in chunks && Mentions(c, ref)
    ensures Hit(c, 1.0, KeywordHit) in Tier1(chunks, qn)
  {
    assert MentionScore(ref)(c) == Some(1.0);
  }

  /** Results that are keyword hits of chunks of `chunks`, scored in
      [0.2, 1.0]. */
  predicate Good(rs: seq<SearchResult>, chunks: seq<Chunk>) {
    forall x :: x in rs ==>
      x.kind == KeywordHit && MIN_SCORE <= x.score <= 1.0
      && (exists c :: c in chunks && x == Hit(c, x.score, KeywordHit))
  }

  ghost predicate ScoresInRange(score: Chunk -> Option<real>) {
    forall c :: score(c).Some? ==> MIN_SCORE <= score(c).value <= 1.0
  }

  lemma Tier1Good(chunks: seq<Chunk>, qn: string)
    ensures Good(Tier1(chunks, qn), chunks)
  {
  }

  lemma Tier2InRange(qn: string)
    ensures ScoresInRange(MentionScore(qn))
  {
  }

  lemma Tier3InRange(kws: seq<string>)
    ensures ScoresInRange(Tier3Score(kws))
  {
    forall c | Tier3Score(kws)(c).Some?
      ensures MIN_SCORE <= Tier3Score(kws)(c).value <= 1.0
    {
      Tier3Bounds(kws, c);
    }
  }

  lemma Tier3Bounds(kws: seq<string>, c: Chunk)
    ensures Tier3Score(kws)(c).Some? ==> MIN_SCORE <= Tier3Score(kws)(c).value <= 1.0
  {
  }

  lemma GrowGood(a: seq<SearchResult>, b: seq<SearchResult>, chunks: seq<Chunk>, score: Chunk -> Option<real>)
    requires Good(a, chunks) && ScoresInRange(score)
    requires a <= b
    requires forall x :: x in b[|a|..] ==>
      (exists c :: c in chunks && score(c) == Some(x.score) && x == Hit(c, x.score, KeywordHit))
    ensures Good(b, chunks)
  {
    assert b == a + b[|a|..];
    forall x | x in b
      ensures x.kind == KeywordHit && MIN_SCORE <= x.score <= 1.0
      ensures exists c :: c in chunks && x == Hit(c, x.score, KeywordHit)
    {
      if x !in a {
        var c :| c in chunks && score(c) == Some(x.score) && x == Hit(c, x.score, KeywordHit);
      }
    }
  }

  /** Every candidate is a keyword hit of one of the chunks, scored in
      [0.2, 1.0]: the hit one of the three tiers makes of that chunk. */
  lemma CandidatesGood(chunks: seq<Chunk>, qn: string, topK: int)
    ensures Good(Candidates(chunks, qn, topK), chunks)
    ensures forall x :: x in Candidates(chunks, qn, topK) ==> exists c :: c in chunks && TierHit(x, c, qn)
  {
    CandidatesTierHits(chunks, qn, topK);
    var score2, score3 := MentionScore(qn), Tier3Score(Keywords(qn));
    var r1 := Tier1(chunks, qn);
    var r2 := UpToTier2(chunks, qn, topK);
    var r3 := Layer(r2, chunks, score3, topK);
    Tier1Good(chunks, qn);
    Tier2InRange(qn);
    Tier3InRange(Keywords(qn));
    if |r1| < topK {
      GrowGood(r1, r2, chunks, score2);
    }
    if |r2| < topK {
      GrowGood(r2, r3, chunks, score3);
    }
  }

  lemma Tier1Hit(chunks: seq<Chunk>, qn: string, x: SearchResult)
    requires x in Tier1(chunks, qn)
    ensures exists c :: c in chunks && TierHit(x, c, qn)
  {
    var ref := ArticleRef(qn).value;
    var c :| c in chunks && MentionScore(ref)(c) == Some(x.score) && x == Hit(c, x.score, KeywordHit);
    assert TierHit(x, c, qn);
  }

  lemma LaterHit(chunks: seq<Chunk>, qn: string, topK: int, x: SearchResult)
    requires x in Candidates(chunks, qn, topK)[|Tier1(chunks, qn)|..]
    ensures exists c :: c in chunks && TierHit(x, c, qn)
  {
    var c :| c in chunks && LaterTierHit(x, c, qn);
    assert TierHit(x, c, qn);
  }

  /** Every candidate is what one of the three tiers makes of a chunk. */
  lemma CandidatesTierHits(chunks: seq<Chunk>, qn: string, topK: int)
    ensures forall x :: x in Candidates(chunks, qn, topK) ==> exists c :: c in chunks && TierHit(x, c, qn)
  {
    forall x | x in Candidates(chunks, qn, topK)
      ensures exists c :: c in chunks && TierHit(x, c, qn)
    {
      CandidateHit(chunks, qn, topK, x);
    }
  }

  lemma CandidateHit(chunks: seq<Chunk>, qn: string, topK: int, x: SearchResult)
    requires x in Candidates(chunks, qn, topK)
    ensures exists c :: c in chunks && TierHit(x, c, qn)
  {
    var r := Candidates(chunks, qn, topK);
    var i :| 0 <= i < |r| && r[i] == x;
    if i < |Tier1(chunks, qn)| {
      FrontHit(chunks, qn, topK, i);
    } else {
      BackHit(chunks, qn, topK, i);
    }
  }

  lemma FrontHit(chunks: seq<Chunk>, qn: string, topK: int, i: nat)
    requires i < |Tier1(chunks, qn)|
    ensures i < |Candidates(chunks, qn, topK)|
    ensures exists c :: c in chunks && TierHit(Candidates(chunks, qn, topK)[i], c, qn)
  {
    var x := Tier1(chunks, qn)[i];
    assert x in Tier1(chunks, qn);
    Tier1Hit(chunks, qn, x);
  }

  lemma BackHit(chunks: seq<Chunk>, qn: string, topK: int, i: nat)
    requires |Tier1(chunks, qn)| <= i < |Candidates(chunks, qn, topK)|
    ensures exists c :: c in chunks && TierHit(Candidates(chunks, qn, topK)[i], c, qn)
  {
    var r := Candidates(chunks, qn, topK);
    var x := r[i];
    assert r[|Tier1(chunks, qn)|..][i - |Tier1(chunks, qn)|] == x;
    LaterHit(chunks, qn, topK, x);
  }

  lemma GoodFacts(rs: seq<SearchResult>, chunks: seq<Chunk>)
    requires Good(rs, chunks)
    ensures AllOfKind(rs, KeywordHit) && FromChunks(rs, chunks)
  {
    forall x | x in rs
      ensures exists c :: c in chunks && ResultKey(x) == ChunkKey(c) && x.title == c.title && x.content == c.content
    {
      var c :| c in chunks && x == Hit(c, x.score, KeywordHit);
    }
  }

  /** `keyword_search(query, top_k)`. */
  function Search(chunks: seq<Chunk>, query: string, topK: int): (r: seq<SearchResult>)
    ensures IsTop(r, Candidates(chunks, Normalize(query), topK), topK)
    ensures AllOfKind(r, KeywordHit)
    ensures FromChunks(r, chunks)
    ensures forall x :: x in r ==> MIN_SCORE <= x.score <= 1.0
    ensures forall x :: x in r ==> exists c :: c in chunks && TierHit(x, c, Normalize(query))
    ensures ChunkKeysDistinct(chunks) ==> KeysDistinct(r)
  {
    var cands := Candidates(chunks, Normalize(query), topK);
    CandidatesGood(chunks, Normalize(query), topK);
    CandidatesTierHits(chunks, Normalize(query), topK);
    RankedGood(cands, chunks, topK);
    RankedTierHits(cands, chunks, Normalize(query), topK);
    RankTop(cands, topK)
  }

  lemma RankedTierHits(cands: seq<SearchResult>, chunks: seq<Chunk>, qn: string, topK: int)
    requires forall x :: x in cands ==> exists c :: c in chunks && TierHit(x, c, qn)
    ensures forall x :: x in RankTop(cands, topK) ==> exists c :: c in chunks && TierHit(x, c, qn)
  {
    forall x | x in RankTop(cands, topK)
      ensures exists c :: c in chunks && TierHit(x, c, qn)
    {
      RankTopFrom(cands, topK, x);
    }
  }

  /** Ranking good candidates keeps them good, and keeps their keys
      distinct. */
  lemma RankedGood(cands: seq<SearchResult>, chunks: seq<Chunk>, topK: int)
    requires Good(cands, chunks)
    ensures AllOfKind(RankTop(cands, topK), KeywordHit) && FromChunks(RankTop(cands, topK), chunks)
    ensures forall x :: x in RankTop(cands, topK) ==> MIN_SCORE <= x.score <= 1.0
    ensures KeysDistinct(cands) ==> KeysDistinct(RankTop(cands, topK))
  {
    GoodFacts(cands, chunks);
    RankTopKind(cands, topK, KeywordHit);
    RankTopFromChunks(cands, topK, chunks);
    forall x | x in RankTop(cands, topK)
      ensures MIN_SCORE <= x.score <= 1.0
    {
      RankTopFrom(cands, topK, x);
    }
    if KeysDistinct(cands) {
      RankTopKeysDistinct(cands, topK);
    }
  }
}

=== FILE: prompt_text.dfy ===
/** Text pieces shared by both prompt builders: the quoted query and the
    context block made of the retrieved chunks' contents. */
module PromptText {
  import opened Strings
  import opened Records

  /** "You are a": every system prompt of both services opens by naming the
      assistant's role with this phrase. */
  const YOU_ARE: string := "Bạn là một "

  /** `"{query}"` inside an f-string: the query between double quotes. */
  function Quoted(query: string): string {
    "\"" + query + "\""
  }

  /** The `content` of each result, in order. */
  function Contents(rs: seq<SearchResult>): (r: seq<string>)
    ensures |r| == |rs|
    ensures forall i :: 0 <= i < |rs| ==> r[i] == rs[i].content
  {
    seq(|rs|, i requires 0 <= i < |rs| => rs[i].content)
  }

  /** Where result `i`'s content starts in the context block. */
  function ContentAt(rs: seq<SearchResult>, i: nat): nat
    requires i <= |rs|
  {
    Offset(Contents(rs), "\n\n", i)
  }

  /** `"\n\n".join(chunk["content"] for chunk in results)`: the contents in
      the results' order, each followed by a blank line except the last;
      no results give the empty block. */
  function JoinContents(rs: seq<SearchResult>): (r: string)
    ensures rs == [] ==> r == ""
    ensures forall i :: 0 <= i < |rs| ==> Contains(r, rs[i].content)
    ensures forall i :: 0 <= i < |rs| ==> OccursAt(r, rs[i].content, ContentAt(rs, i))
    ensures forall i :: 0 <= i < |rs| - 1 ==> OccursAt(r, "\n\n", ContentAt(rs, i) + |rs[i].content|)
    ensures forall i :: 0 <= i < |rs| ==> ContentAt(rs, i + 1) == ContentAt(rs, i) + |rs[i].content| + 2
    ensures rs != [] ==> |r| == ContentAt(rs, |rs| - 1) + |rs[|rs| - 1].content|
  {
    JoinContainsParts(Contents(rs), "\n\n");
    ContentsLayout(rs);
    Join(Contents(rs), "\n\n")
  }

  lemma ContentsLayout(rs: seq<SearchResult>)
    ensures var r := Join(Contents(rs), "\n\n");
      && (forall i :: 0 <= i < |rs| ==> OccursAt(r, rs[i].content, ContentAt(rs, i)))
      && (forall i :: 0 <= i < |rs| - 1 ==> OccursAt(r, "\n\n", ContentAt(rs, i) + |rs[i].content|))
      && (forall i :: 0 <= i < |rs| ==> ContentAt(rs, i + 1) == ContentAt(rs, i) + |rs[i].content| + 2)
      && (rs != [] ==> |r| == ContentAt(rs, |rs| - 1) + |rs[|rs| - 1].content|)
  {
    if rs != [] {
      JoinLayout(Contents(rs), "\n\n");
    }
  }

  /** Contents of earlier results start earlier in the block. */
  lemma {:induction false} ContentsInOrder(rs: seq<SearchResult>, i: nat, j: nat)
    requires i < j < |rs|
    ensures ContentAt(rs, i) + |rs[i].content| < ContentAt(rs, j)
    ensures OccursAt(JoinContents(rs), rs[i].content, ContentAt(rs, i))
    ensures OccursAt(JoinContents(rs), rs[j].content, ContentAt(rs, j))
    decreases j - i
  {
    var r := JoinContents(rs);
    assert ContentAt(rs, i + 1) == ContentAt(rs, i) + |rs[i].content| + 2;
    if j > i + 1 {
      ContentsInOrder(rs, i + 1, j);
    }
  }

  /** Every part of a join occurs in it. */
  lemma {:induction false} JoinContainsParts(parts: seq<string>, sep: string)
    ensures forall k :: 0 <= k < |parts| ==> Contains(Join(parts, sep), parts[k])
    decreases |parts|
  {
    if |parts| == 1 {
      ContainsAt(parts[0], parts[0], 0);
    } else if |parts| > 1 {
      var rest := Join(parts[1..], sep);
      JoinContainsParts(parts[1..], sep);
      assert Join(parts, sep) == parts[0] + sep + rest;
      ContainsPrefix(Join(parts, sep), parts[0], parts[0]) by {
        ContainsAt(parts[0], parts[0], 0);
      }
      forall k | 1 <= k < |parts|
        ensures Contains(Join(parts, sep), parts[k])
      {
        assert parts[1..][k - 1] == parts[k];
        ContainsMiddle(parts[0] + sep, rest, "");
        assert parts[0] + sep + rest + "" == Join(parts, sep);
        ContainsTrans(Join(parts, sep), rest, parts[k]);
      }
    }
  }

  /** The context block splits back into the contents, as long as no content
      holds a line break. */
  lemma JoinContentsSplits(rs: seq<SearchResult>)
    requires |rs| >= 1
    requires forall i :: 0 <= i < |rs| ==> '\n' !in rs[i].content
    ensures Split(JoinContents(rs), "\n\n") == Contents(rs)
  {
    SplitJoin(Contents(rs), "\n\n");
  }
}

=== FILE: ranking.dfy ===
/** `sorted(results, key=lambda x: x["score"], reverse=True)[:top_k]`:
    Python's sort is stable, also with `reverse=True`, so results of equal
    score keep the order in which they were found. */
module Ranking {
  import opened Basics
  import opened Records

  predicate SortedDesc(rs: seq<SearchResult>) {
    forall i, j :: 0 <= i < j < |rs| ==> rs[i].score >= rs[j].score
  }

  /** The results of score `v`, in order. */
  function WithScore(rs: seq<SearchResult>, v: real): (r: seq<SearchResult>)
    decreases |rs|
  {
    if rs == [] then []
    else (if rs[0].score == v then [rs[0]] else []) + WithScore(rs[1..], v)
  }

  /** Place `x` after every result scoring at least as much. */
  function Insert(x: SearchResult, s: seq<SearchResult>): (r: seq<SearchResult>)
    decreases |s|
  {
    if s == [] then [x]
    else if s[0].score >= x.score then [s[0]] + Insert(x, s[1..])
    else [x] + s
  }

  lemma {:induction false} InsertMembers(x: SearchResult, s: seq<SearchResult>)
    ensures multiset(Insert(x, s)) == multiset(s) + multiset{x}
    ensures forall y :: y in Insert(x, s) ==> y in s || y == x
    decreases |s|
  {
    if s != [] && s[0].score >= x.score {
      InsertMembers(x, s[1..]);
      assert s == [s[0]] + s[1..];
    }
  }

  lemma {:induction false} InsertSorted(x: SearchResult, s: seq<SearchResult>)
    requires SortedDesc(s)
    ensures SortedDesc(Insert(x, s))
    decreases |s|
  {
    if s != [] && s[0].score >= x.score {
      var t := Insert(x, s[1..]);
      InsertSorted(x, s[1..]);
      InsertMembers(x, s[1..]);
      forall j | 0 <= j < |t|
        ensures s[0].score >= t[j].score
      {
        assert t[j] in t;
        if t[j] != x {
          var i :| 0 <= i < |s[1..]| && s[1..][i] == t[j];
          assert s[i + 1] == t[j];
        }
      }
      assert Insert(x, s) == [s[0]] + t;
    }
  }

  /** The stable descending sort, one insertion per result, front to back. */
  function SortDesc(rs: seq<SearchResult>): (r: seq<SearchResult>)
    decreases |rs|
  {
    if rs == [] then [] else Insert(rs[|rs| - 1], SortDesc(rs[..|rs| - 1]))
  }

  lemma {:induction false} SortDescIsSorted(rs: seq<SearchResult>)
    ensures SortedDesc(SortDesc(rs))
    decreases |rs|
  {
    if rs != [] {
      var init, last := rs[..|rs| - 1], rs[|rs| - 1];
      SortDescIsSorted(init);
      InsertSorted(last, SortDesc(init));
    }
  }

  lemma {:induction false} SortDescPermutes(rs: seq<SearchResult>)
    ensures multiset(SortDesc(rs)) == multiset(rs)
    decreases |rs|
  {
    if rs != [] {
      var init, last := rs[..|rs| - 1], rs[|rs| - 1];
      var s := SortDesc(init);
      assert SortDesc(rs) == Insert(last, s);
      SortDescPermutes(init);
      InsertMembers(last, s);
      SnocPermutes(rs, init, last, s, Insert(last, s));
    }
  }

  lemma SnocPermutes(rs: seq<SearchResult>, init: seq<SearchResult>, last: SearchResult,
                     s: seq<SearchResult>, t: seq<SearchResult>)
    requires |rs| > 0 && init == rs[..|rs| - 1] && last == rs[|rs| - 1]
    requires multiset(s) == multiset(init) && multiset(t) == multiset(s) + multiset{last}
    ensures multiset(t) == multiset(rs)
  {
    assert rs == init + [last];
  }

  /** The sort orders by descending score and is a permutation. */
  lemma SortDescSorted(rs: seq<SearchResult>)
    ensures SortedDesc(SortDesc(rs))
    ensures multiset(SortDesc(rs)) == multiset(rs)
  {
    SortDescIsSorted(rs);
    SortDescPermutes(rs);
  }

  lemma {:induction false} WithScoreSnoc(s: seq<SearchResult>, x: SearchResult, v: real)
    ensures WithScore(s + [x], v) == WithScore(s, v) + (if x.score == v then [x] else [])
    decreases |s|
  {
    if s != [] {
      assert (s + [x])[1..] == s[1..] + [x];
      WithScoreSnoc(s[1..], x, v);
    }
  }

  lemma {:induction false} WithScoreNone(s: seq<SearchResult>, v: real)
    requires forall y :: y in s ==> y.score < v
    ensures WithScore(s, v) == []
    decreases |s|
  {
    if s != [] {
      assert s[0] in s;
      assert forall y :: y in s[1..] ==> y in s;
      WithScoreNone(s[1..], v);
    }
  }

  lemma {:induction false} InsertStable(x: SearchResult, s: seq<SearchResult>, v: real)
    requires SortedDesc(s)
    ensures WithScore(Insert(x, s), v) == WithScore(s, v) + (if x.score == v then [x] else [])
    decreases |s|
  {
    if s == [] {
    } else if s[0].score >= x.score {
      InsertStable(x, s[1..], v);
      assert Insert(x, s)[1..] == Insert(x, s[1..]);
    } else {
      if x.score == v {
        SortedBelow(s, v);
        WithScoreNone(s, v);
      }
      assert Insert(x, s) == [x] + s;
      assert ([x] + s)[1..] == s;
    }
  }

  /** A descending sequence whose first score is below `v` is below `v`
      throughout. */
  lemma SortedBelow(s: seq<SearchResult>, v: real)
    requires SortedDesc(s) && s != [] && s[0].score < v
    ensures forall y :: y in s ==> y.score < v
  {
    forall y | y in s
      ensures y.score < v
    {
      var j :| 0 <= j < |s| && s[j] == y;
    }
  }

  /** The sort keeps, for every score, the results of that score in their
      original order. */
  lemma {:induction false} SortDescStable(rs: seq<SearchResult>, v: real)
    ensures WithScore(SortDesc(rs), v) == WithScore(rs, v)
    decreases |rs|
  {
    if rs != [] {
      var init, last := rs[..|rs| - 1], rs[|rs| - 1];
      var s := SortDesc(init);
      assert SortDesc(rs) == Insert(last, s);
      SortDescStable(init, v);
      SortDescIsSorted(init);
      InsertStable(last, s, v);
      assert rs == init + [last];
      WithScoreSnoc(init, last, v);
    }
  }

  /** What `sorted(pool, key=score, reverse=True)[:k]` promises: sorted by
      descending score, as long as Python's slice `[:k]` is (a negative `k`
      drops that many from the end), drawn from `pool`, and no left-out
      result outscores a kept one. */
  predicate IsTop(r: seq<SearchResult>, pool: seq<SearchResult>, k: int) {
    && SortedDesc(r)
    && (k >= 0 ==> |r| == (if k < |pool| then k else |pool|))
    && (k < 0 ==> |r| == (if |pool| + k > 0 then |pool| + k else 0))
    && multiset(r) <= multiset(pool)
    && (forall x, y :: x in multiset(pool) - multiset(r) && y in r ==> x.score <= y.score)
  }

  /** `sorted(rs, key=score, reverse=True)[:k]`. */
  function RankTop(rs: seq<SearchResult>, k: int): (r: seq<SearchResult>)
    ensures IsTop(r, rs, k)
  {
    TopOfSorted(rs, k);
    SliceTo(SortDesc(rs), k)
  }

  lemma TopOfSorted(rs: seq<SearchResult>, k: int)
    ensures var r := SliceTo(SortDesc(rs), k);
      && |SortDesc(rs)| == |rs|
      && SortedDesc(r)
      && multiset(r) <= multiset(rs)
      && forall x, y :: x in multiset(rs) - multiset(r) && y in r ==> x.score <= y.score
  {
    var s := SortDesc(rs);
    SortDescSorted(rs);
    assert |s| == |multiset(s)| == |multiset(rs)| == |rs|;
    SortedPrefixIsTop(s, SliceTo(s, k), rs);
  }

  /** A prefix of a sorted sequence is sorted and outscores the rest. */
  lemma SortedPrefixIsTop(s: seq<SearchResult>, r: seq<SearchResult>, rs: seq<SearchResult>)
    requires SortedDesc(s) && r <= s && multiset(s) == multiset(rs)
    ensures SortedDesc(r)
    ensures multiset(r) <= multiset(rs)
    ensures forall x, y :: x in multiset(rs) - multiset(r) && y in r ==> x.score <= y.score
  {
    var rest := s[|r|..];
    PrefixSplit(s, r, rs);
    PrefixOutscoresRest(s, r);
    forall x: SearchResult, y: SearchResult | x in multiset(rs) - multiset(r) && y in r
      ensures x.score <= y.score
    {
      assert x in rest;
    }
  }

  lemma PrefixSplit(s: seq<SearchResult>, r: seq<SearchResult>, rs: seq<SearchResult>)
    requires r <= s && multiset(s) == multiset(rs)
    ensures multiset(r) <= multiset(rs)
    ensures multiset(rs) - multiset(r) == multiset(s[|r|..])
  {
    assert s == r + s[|r|..];
  }

  lemma PrefixOutscoresRest(s: seq<SearchResult>, r: seq<SearchResult>)
    requires SortedDesc(s) && r <= s
    ensures SortedDesc(r)
    ensures forall x, y :: x in s[|r|..] && y in r ==> x.score <= y.score
  {
    var n := |r|;
    forall x, y | x in s[n..] && y in r
      ensures x.score <= y.score
    {
      var i :| 0 <= i < |s[n..]| && s[n..][i] == x;
      var j :| 0 <= j < n && r[j] == y;
      assert s[n + i] == x && s[j] == y;
    }
    forall i, j | 0 <= i < j < |r|
      ensures r[i].score >= r[j].score
    {
      assert r[i] == s[i] && r[j] == s[j];
    }
  }

  /** Ranking never changes which chunk a result describes, nor its kind. */
  lemma RankTopFrom(rs: seq<SearchResult>, k: int, y: SearchResult)
    requires y in RankTop(rs, k)
    ensures y in rs
  {
    assert y in multiset(RankTop(rs, k));
  }

  lemma RankTopKind(rs: seq<SearchResult>, k: int, kind: ResultKind)
    requires AllOfKind(rs, kind)
    ensures AllOfKind(RankTop(rs, k), kind)
  {
    forall y | y in RankTop(rs, k)
      ensures y.kind == kind
    {
      RankTopFrom(rs, k, y);
    }
  }

  /** A result ranked in is a result of some chunk of `cs` whenever all the
      input results are. */
  lemma RankTopFromChunks(rs: seq<SearchResult>, k: int, cs: seq<Chunk>)
    requires FromChunks(rs, cs)
    ensures FromChunks(RankTop(rs, k), cs)
  {
    forall y | y in RankTop(rs, k)
      ensures exists c :: c in cs && ResultKey(y) == ChunkKey(c) && y.title == c.title && y.content == c.content
    {
      RankTopFrom(rs, k, y);
    }
  }

  lemma {:induction false} InsertKeys(x: SearchResult, s: seq<SearchResult>)
    requires KeysDistinct(s) && ResultKey(x) !in Keys(s)
    ensures KeysDistinct(Insert(x, s))
    ensures Keys(Insert(x, s)) == Keys(s) + {ResultKey(x)}
    decreases |s|
  {
    if s != [] && s[0].score >= x.score {
      var t := s[1..];
      UnconsKeys(s);
      InsertKeys(x, t);
      var u := Insert(x, t);
      assert Insert(x, s) == [s[0]] + u;
      KeysConcat([s[0]], u);
      KeysSingleton(s[0]);
      ConsDistinct([s[0]], u);
    } else if s != [] {
      assert Insert(x, s) == [x] + s;
      KeysConcat([x], s);
      KeysSingleton(x);
      ConsDistinct([x], s);
    }
  }

  /** Splitting off the first result of a key-distinct sequence. */
  lemma UnconsKeys(s: seq<SearchResult>)
    requires |s| > 0 && KeysDistinct(s)
    ensures KeysDistinct(s[1..]) && ResultKey(s[0]) !in Keys(s[1..])
    ensures Keys(s) == {ResultKey(s[0])} + Keys(s[1..])
  {
    var t := s[1..];
    assert s == [s[0]] + t;
    KeysConcat([s[0]], t);
    KeysSingleton(s[0]);
    forall i, j | 0 <= i < j < |t|
      ensures ResultKey(t[i]) != ResultKey(t[j])
    {
      assert t[i] == s[i + 1] && t[j] == s[j + 1];
    }
    forall y | y in t
      ensures ResultKey(y) != ResultKey(s[0])
    {
      var j :| 0 <= j < |t| && t[j] == y;
      assert s[j + 1] == y;
    }
  }

  lemma {:induction false} SortDescKeys(rs: seq<SearchResult>)
    requires KeysDistinct(rs)
    ensures KeysDistinct(SortDesc(rs)) && Keys(SortDesc(rs)) == Keys(rs)
    decreases |rs|
  {
    if rs != [] {
      var init, last := rs[..|rs| - 1], rs[|rs| - 1];
      var s := SortDesc(init);
      assert SortDesc(rs) == Insert(last, s);
      UnsnocKeys(rs);
      SortDescKeys(init);
      InsertKeys(last, s);
    }
  }

  /** Splitting off the last result of a key-distinct sequence. */
  lemma UnsnocKeys(rs: seq<SearchResult>)
    requires |rs| > 0 && KeysDistinct(rs)
    ensures var init, last := rs[..|rs| - 1], rs[|rs| - 1];
      && KeysDistinct(init) && ResultKey(last) !in Keys(init)
      && Keys(rs) == Keys(init) + {ResultKey(last)}
  {
    var init, last := rs[..|rs| - 1], rs[|rs| - 1];
    assert rs == init + [last];
    KeysConcat(init, [last]);
    KeysSingleton(last);
    forall i, j | 0 <= i < j < |init|
      ensures ResultKey(init[i]) != ResultKey(init[j])
    {
      assert init[i] == rs[i] && init[j] == rs[j];
    }
    forall y | y in init
      ensures ResultKey(y) != ResultKey(last)
    {
      var j :| 0 <= j < |init| && init[j] == y;
      assert rs[j] == y;
    }
  }

  /** Ranking keeps keys distinct. */
  lemma RankTopKeysDistinct(rs: seq<SearchResult>, k: int)
    requires KeysDistinct(rs)
    ensures KeysDistinct(RankTop(rs, k))
  {
    SortDescKeys(rs);
    var s := SortDesc(rs);
    var r := RankTop(rs, k);
    assert r <= s;
    forall i, j | 0 <= i < j < |r|
      ensures ResultKey(r[i]) != ResultKey(r[j])
    {
      assert r[i] == s[i] && r[j] == s[j];
    }
  }

  /** The chunks `score` accepts, in store order. */
  function Accepted(chunks: seq<Chunk>, score: Chunk -> Option<real>): (r: seq<Chunk>)
    decreases |chunks|
    ensures |r| <= |chunks|
    ensures forall c :: c in r <==> c in chunks && score(c).Some?
  {
    if chunks == [] then []
    else
      assert forall c :: c in chunks <==> c == chunks[0] || c in chunks[1..];
      (if score(chunks[0]).Some? then [chunks[0]] else []) + Accepted(chunks[1..], score)
  }

  /** The scoring loop itself: for each chunk in store order, its hit when
      `score` accepts it. */
  function Scored(chunks: seq<Chunk>, score: Chunk -> Option<real>, kind: ResultKind): seq<SearchResult>
    decreases |chunks|
  {
    if chunks == [] then []
    else (if score(chunks[0]).Some? then [Hit(chunks[0], score(chunks[0]).value, kind)] else []) + Scored(chunks[1..], score, kind)
  }

  /** A scoring loop over the store: one result per accepted chunk, in store
      order, carrying the score `score` gives it. */
  function ScoreEach(chunks: seq<Chunk>, score: Chunk -> Option<real>, kind: ResultKind): (r: seq<SearchResult>)
    ensures |r| == |Accepted(chunks, score)|
    ensures forall c :: c in chunks && score(c).Some? ==> Hit(c, score(c).value, kind) in r
    ensures forall x :: x in r ==>
      (exists c :: c in chunks && score(c) == Some(x.score) && x == Hit(c, x.score, kind))
  {
    ScoredFacts(chunks, score, kind);
    Scored(chunks, score, kind)
  }

  lemma {:induction false} ScoredFacts(chunks: seq<Chunk>, score: Chunk -> Option<real>, kind: ResultKind)
    ensures var r := Scored(chunks, score, kind);
      && |r| == |Accepted(chunks, score)|
      && (forall c :: c in chunks && score(c).Some? ==> Hit(c, score(c).value, kind) in r)
      && (forall x :: x in r ==>
            (exists c :: c in chunks && score(c) == Some(x.score) && x == Hit(c, x.score, kind)))
    decreases |chunks|
  {
    if chunks != [] {
      ScoredFacts(chunks[1..], score, kind);
      assert forall c :: c in chunks ==> c == chunks[0] || c in chunks[1..];
    }
  }

  /** Scoring works chunk by chunk: the results for a store made of two
      parts are the results for the first part followed by those for the
      second. */
  lemma {:induction false} ScoredAppend(a: seq<Chunk>, b: seq<Chunk>, score: Chunk -> Option<real>, kind: ResultKind)
    ensures Scored(a + b, score, kind) == Scored(a, score, kind) + Scored(b, score, kind)
    decreases |a|
  {
    if a != [] {
      var h: seq<SearchResult> := if score(a[0]).Some? then [Hit(a[0], score(a[0]).value, kind)] else [];
      assert (a + b)[0] == a[0] && (a + b)[1..] == a[1..] + b;
      assert Scored(a + b, score, kind) == h + Scored(a[1..] + b, score, kind);
      ScoredAppend(a[1..], b, score, kind);
      assert h + (Scored(a[1..], score, kind) + Scored(b, score, kind))
          == (h + Scored(a[1..], score, kind)) + Scored(b, score, kind);
    } else {
      assert a + b == b;
    }
  }

  lemma ScoreEachAppend(a: seq<Chunk>, b: seq<Chunk>, score: Chunk -> Option<real>, kind: ResultKind)
    ensures ScoreEach(a + b, score, kind) == ScoreEach(a, score, kind) + ScoreEach(b, score, kind)
  {
    ScoredAppend(a, b, score, kind);
  }

  /** The results around an accepted chunk: those of the chunks before it,
      its hit, those of the chunks after it. */
  lemma ScoredAround(chunks: seq<Chunk>, score: Chunk -> Option<real>, kind: ResultKind, i: int)
    requires 0 <= i < |chunks| && score(chunks[i]).Some?
    ensures Scored(chunks, score, kind)
      == Scored(chunks[..i], score, kind) + [Hit(chunks[i], score(chunks[i]).value, kind)] + Scored(chunks[i + 1..], score, kind)
  {
    assert chunks == chunks[..i] + ([chunks[i]] + chunks[i + 1..]);
    ScoredAppend(chunks[..i], [chunks[i]] + chunks[i + 1..], score, kind);
    ScoredAppend([chunks[i]], chunks[i + 1..], score, kind);
    assert [chunks[i]][1..] == [];
  }

  /** The results follow the store order: of two accepted chunks, the
      earlier one's hit comes first. */
  lemma ScoreEachInOrder(chunks: seq<Chunk>, score: Chunk -> Option<real>, kind: ResultKind, i: int, j: int)
    requires 0 <= i < j < |chunks|
    requires score(chunks[i]).Some? && score(chunks[j]).Some?
    ensures var r := ScoreEach(chunks, score, kind);
      exists p, q :: 0 <= p < q < |r|
        && r[p] == Hit(chunks[i], score(chunks[i]).value, kind)
        && r[q] == Hit(chunks[j], score(chunks[j]).value, kind)
  {
    var front := chunks[..j];
    assert front[..i] == chunks[..i] && front[i] == chunks[i];
    ScoredAround(chunks, score, kind, j);
    ScoredAround(front, score, kind, i);
    var r, rf := Scored(chunks, score, kind), Scored(front, score, kind);
    var hi, hj := Hit(chunks[i], score(chunks[i]).value, kind), Hit(chunks[j], score(chunks[j]).value, kind);
    var ri := Scored(chunks[..i], score, kind);
    var p, q := |ri|, |rf|;
    assert rf[p] == hi;
    assert r[p] == hi && r[q] == hj;
    assert ScoreEach(chunks, score, kind) == r;
  }

  /** Putting at most one result with a new key in front keeps keys distinct. */
  lemma ConsDistinct(head: seq<SearchResult>, rest: seq<SearchResult>)
    requires |head| <= 1 && KeysDistinct(rest)
    requires forall x, y :: x in head && y in rest ==> ResultKey(x) != ResultKey(y)
    ensures KeysDistinct(head + rest)
  {
    forall i, j | 0 <= i < j < |head + rest|
      ensures ResultKey((head + rest)[i]) != ResultKey((head + rest)[j])
    {
      if i < |head| {
        assert (head + rest)[j] == rest[j - |head|] && rest[j - |head|] in rest;
        assert (head + rest)[i] in head;
      } else {
        assert (head + rest)[i] == rest[i - |head|] && (head + rest)[j] == rest[j - |head|];
      }
    }
  }

  /** Scoring a store with distinct keys gives results with distinct keys. */
  lemma {:induction false} ScoreEachDistinct(chunks: seq<Chunk>, score: Chunk -> Option<real>, kind: ResultKind)
    requires ChunkKeysDistinct(chunks)
    ensures KeysDistinct(ScoreEach(chunks, score, kind))
    decreases |chunks|
  {
    if chunks != [] {
      var t := chunks[1..];
      TailKeysDistinct(chunks);
      ScoreEachDistinct(t, score, kind);
      var rest := ScoreEach(t, score, kind);
      HeadKeyFresh(chunks, rest, score, kind);
      var head: seq<SearchResult> := if score(chunks[0]).Some? then [Hit(chunks[0], score(chunks[0]).value, kind)] else [];
      assert ScoreEach(chunks, score, kind) == head + rest;
      ConsDistinct(head, rest);
    }
  }

  lemma TailKeysDistinct(chunks: seq<Chunk>)
    requires |chunks| > 0 && ChunkKeysDistinct(chunks)
    ensures ChunkKeysDistinct(chunks[1..])
  {
    var t := chunks[1..];
    forall i, j | 0 <= i < j < |t|
      ensures ChunkKey(t[i]) != ChunkKey(t[j])
    {
      assert t[i] == chunks[i + 1] && t[j] == chunks[j + 1];
    }
  }

  /** The first chunk's key is not among the results for the other chunks. */
  lemma HeadKeyFresh(chunks: seq<Chunk>, rest: seq<SearchResult>, score: Chunk -> Option<real>, kind: ResultKind)
    requires |chunks| > 0 && ChunkKeysDistinct(chunks)
    requires forall x :: x in rest ==>
      (exists c :: c in chunks[1..] && score(c) == Some(x.score) && x == Hit(c, x.score, kind))
    ensures forall x :: x in rest ==> ResultKey(x) != ChunkKey(chunks[0])
  {
    forall x | x in rest
      ensures ResultKey(x) != ChunkKey(chunks[0])
    {
      var c :| c in chunks[1..] && score(c) == Some(x.score) && x == Hit(c, x.score, kind);
      var j :| 0 <= j < |chunks[1..]| && chunks[1..][j] == c;
      assert chunks[j + 1] == c;
    }
  }

  lemma {:induction false} WithScorePrefix(a: seq<SearchResult>, b: seq<SearchResult>, v: real)
    requires a <= b
    ensures WithScore(a, v) <= WithScore(b, v)
    decreases |a|
  {
    if a != [] {
      assert a[1..] <= b[1..];
      WithScorePrefix(a[1..], b[1..], v);
    }
  }

  /** Ranking keeps results of equal score in the order they were found. */
  lemma RankTopStable(rs: seq<SearchResult>, k: int, v: real)
    ensures WithScore(RankTop(rs, k), v) <= WithScore(rs, v)
  {
    SortDescStable(rs, v);
    WithScorePrefix(RankTop(rs, k), SortDesc(rs), v);
  }
}

=== FILE: records.dfy ===
/** The records that flow between the chunkers, the chunk store and the
    search engine. */
module Records {

  /** The `vector` field of a stored chunk: missing or JSON `null`, some
      non-list value, or a list of numbers. */
  datatype StoredVector = Absent | NotAList | Values(values: seq<real>)

  /** One article-sized chunk. `content` is the chunk's text (the field is
      called `markdown` in the newer code and `content` in the older). */
  datatype Chunk = Chunk(docId: int, chunkId: int, title: string, content: string, vector: StoredVector)

  /** The `type` tag of a search result. */
  datatype ResultKind = VectorHit | KeywordHit | HybridHit

  datatype SearchResult = SearchResult(docId: int, chunkId: int, title: string, content: string, score: real, kind: ResultKind)

  /** A chunk's identity: `(doc_id, chunk_id)`. */
  datatype Key = Key(docId: int, chunkId: int)

  function ChunkKey(c: Chunk): Key {
    Key(c.docId, c.chunkId)
  }

  function ResultKey(r: SearchResult): Key {
    Key(r.docId, r.chunkId)
  }

  /** The result a search reports for chunk `c`. */
  function Hit(c: Chunk, score: real, kind: ResultKind): SearchResult {
    SearchResult(c.docId, c.chunkId, c.title, c.content, score, kind)
  }

  /** `{(r["doc_id"], r["chunk_id"]) for r in results}`. */
  function Keys(rs: seq<SearchResult>): set<Key> {
    set r | r in rs :: ResultKey(r)
  }

  predicate KeysDistinct(rs: seq<SearchResult>) {
    forall i, j :: 0 <= i < j < |rs| ==> ResultKey(rs[i]) != ResultKey(rs[j])
  }

  predicate ChunkKeysDistinct(cs: seq<Chunk>) {
    forall i, j :: 0 <= i < j < |cs| ==> ChunkKey(cs[i]) != ChunkKey(cs[j])
  }

  predicate AllOfKind(rs: seq<SearchResult>, kind: ResultKind) {
    forall r :: r in rs ==> r.kind == kind
  }

  /** Every result describes one of the chunks in `cs`. */
  predicate FromChunks(rs: seq<SearchResult>, cs: seq<Chunk>) {
    forall r :: r in rs ==>
      (exists c :: c in cs && ResultKey(r) == ChunkKey(c) && r.title == c.title && r.content == c.content)
  }

  lemma KeysConcat(a: seq<SearchResult>, b: seq<SearchResult>)
    ensures Keys(a + b) == Keys(a) + Keys(b)
  {
    forall k | k in Keys(a + b)
      ensures k in Keys(a) + Keys(b)
    {
      var y :| y in a + b && ResultKey(y) == k;
      if y in a {
        assert ResultKey(y) in Keys(a);
      } else {
        assert ResultKey(y) in Keys(b);
      }
    }
    forall k | k in Keys(a) + Keys(b)
      ensures k in Keys(a + b)
    {
      if k in Keys(a) {
        var y :| y in a && ResultKey(y) == k;
        assert y in a + b;
      } else {
        var y :| y in b && ResultKey(y) == k;
        assert y in a + b;
      }
    }
  }

  lemma KeysSingleton(y: SearchResult)
    ensures Keys([y]) == {ResultKey(y)}
  {
    assert y in [y];
    assert forall z :: z in [y] ==> z == y;
  }
}

=== FILE: root_chunker.dfy ===
/** The older chunker: it works on the raw paragraphs, starts a chunk at
    every paragraph opening with "Điều" or "ĐIỀU" and a number, and lets an
    encoding failure abort the whole call. */
module RootChunker {
  import opened Basics
  import opened Strings
  import opened Headings
  import opened Records
  import opened ArticleScan
  import opened ChunkBuild

  /** `DocChunker(parser, doc_id).chunks`; `None` when encoding raises. */
  function ChunkDocument(ps: seq<string>, docId: int, embed: string -> Option<seq<real>>): (r: Option<seq<Chunk>>)
    ensures r.None? <==> AnyEncodingFails(SplitByArticle(RootRule, ps), embed)
    ensures r.Some? ==> |r.value| == |HeadingLines(IsRootHeading, ps)|
    ensures r.Some? ==> forall k :: 0 <= k < |r.value| ==>
      r.value[k].title == HeadingLines(IsRootHeading, ps)[k]
      && r.value[k].docId == docId && r.value[k].chunkId == k + 1
    ensures r.Some? ==> forall k :: 0 <= k < |r.value| ==>
      var sec := SplitByArticle(RootRule, ps)[k];
      && r.value[k].content == sec.title + "\n" + Join(sec.body, "\n")
      && r.value[k].vector == Values(embed(r.value[k].content).value)
  {
    var secs := SplitByArticle(RootRule, ps);
    assert Boundary(RootRule) == IsRootHeading;
    BuildChunksStrict(docId, secs, embed)
  }

  /** When every chunk encodes, chunk `k`'s text is its article paragraph
      followed by the paragraphs up to the next article, one per line. */
  lemma ChunkContentLines(ps: seq<string>, docId: int, embed: string -> Option<seq<real>>, k: int)
    requires NoNewline(ps)
    requires ChunkDocument(ps, docId, embed).Some?
    requires 0 <= k < |ChunkDocument(ps, docId, embed).value|
    ensures var sec := SplitByArticle(RootRule, ps)[k];
      Split(ChunkDocument(ps, docId, embed).value[k].content, "\n")
        == [sec.title] + (if sec.body == [] then [""] else sec.body)
  {
    var secs := SplitByArticle(RootRule, ps);
    forall x | x == secs[k].title || x in secs[k].body
      ensures '\n' !in x
    {
      SectionLinesFromInput(RootRule, ps, k, x);
    }
    ChunkTextLines(secs[k]);
  }
}

=== FILE: root_prompt.dfy ===
/** The older service's prompt side: a keyword classification of the query
    into greeting, legal or general, one prompt template per category, and
    the strict single-article prompt. Every template is an f-string that
    opens and closes with a line break and is stripped. */
module RootPrompt {
  import opened Unicode
  import opened Strings
  import opened Records
  import opened PromptText

  const GREETINGS: seq<string> := ["chào", "xin chào", "hello", "hi", "yo", "bạn khỏe không"]
  const PERSONAL: seq<string> := ["bạn là ai", "giới thiệu", "tên bạn", "chức năng", "làm gì", "giúp gì"]
  const LEGAL_KEYWORDS: seq<string> := ["điều", "luật", "quy định", "thuế", "pháp luật", "trách nhiệm", "nghĩa vụ"]

  /** `greetings + personal`: the phrases that make a query a greeting. */
  const SOCIAL: seq<string> := GREETINGS + PERSONAL

  datatype Category = Greeting | Legal | General

  /** `any(occurs(s, w) for w in phrases)`. */
  function AnyOccurs(s: string, phrases: seq<string>, occurs: (string, string) -> bool): (b: bool)
    ensures b <==> exists k :: 0 <= k < |phrases| && occurs(s, phrases[k])
    decreases |phrases|
  {
    if phrases == [] then false
    else
      assert forall k :: 0 < k < |phrases| ==> phrases[k] == phrases[1..][k - 1];
      occurs(s, phrases[0]) || AnyOccurs(s, phrases[1..], occurs)
  }

  /** `classify_query` as written: the lower-cased query is a greeting when
      any greeting or personal phrase is a substring of it, else legal when
      any legal keyword is, else general. */
  function Classify(query: string): (c: Category)
    ensures c == Greeting <==> exists k :: 0 <= k < |SOCIAL| && Contains(Lower(query), SOCIAL[k])
    ensures c == Legal <==>
      && (forall k :: 0 <= k < |SOCIAL| ==> !Contains(Lower(query), SOCIAL[k]))
      && (exists k :: 0 <= k < |LEGAL_KEYWORDS| && Contains(Lower(query), LEGAL_KEYWORDS[k]))
    ensures c == General <==>
      && (forall k :: 0 <= k < |SOCIAL| ==> !Contains(Lower(query), SOCIAL[k]))
      && (forall k :: 0 <= k < |LEGAL_KEYWORDS| ==> !Contains(Lower(query), LEGAL_KEYWORDS[k]))
  {
    var s := Lower(query);
    if AnyOccurs(s, SOCIAL, Contains) then Greeting
    else if AnyOccurs(s, LEGAL_KEYWORDS, Contains) then Legal
    else General
  }

  /** The greeting test comes first: a query with both "chào" and "luật" is
      a greeting. */
  lemma GreetingBeforeLegal(query: string)
    requires Contains(Lower(query), "chào") && Contains(Lower(query), "luật")
    ensures Classify(query) == Greeting
  {
    assert SOCIAL[0] == "chào";
  }

  /** Classification ignores case. */
  lemma ClassifyIgnoresCase(query: string)
    ensures Classify(Lower(query)) == Classify(query)
  {
    LowerIdempotent(query);
  }

  /** Text added around a greeting keeps it a greeting. */
  lemma GreetingPersists(before: string, query: string, after: string)
    requires Classify(query) == Greeting
    ensures Classify(before + query + after) == Greeting
  {
    var k :| 0 <= k < |SOCIAL| && Contains(Lower(query), SOCIAL[k]);
    LowerConcat(before + query, after);
    LowerConcat(before, query);
    ContainsMiddle(Lower(before), Lower(query), Lower(after));
    ContainsTrans(Lower(before + query + after), Lower(query), SOCIAL[k]);
  }

  /** "trách nhiệm" contains "hi" ("n-hi-ệm"), so every query that mentions
      this legal keyword is classified as a greeting, whatever else it says. */
  lemma ResponsibilityIsGreeting(query: string)
    requires Contains(Lower(query), "trách nhiệm")
    ensures Classify(query) == Greeting
  {
    assert "trách nhiệm"[7..9] == "hi";
    ContainsAt("trách nhiệm", "hi", 7);
    ContainsTrans(Lower(query), "trách nhiệm", "hi");
    assert SOCIAL[3] == "hi";
  }

  /** `w` occurs in `s` at `i` as whole words: not preceded or followed by a
      word character. */
  predicate OccursAsWord(s: string, w: string, i: int) {
    && OccursAt(s, w, i)
    && (i == 0 || !IsWordChar(s[i - 1]))
    && (i + |w| == |s| || !IsWordChar(s[i + |w|]))
  }

  predicate ContainsWord(s: string, w: string) {
    exists i :: 0 <= i <= |s| - |w| && OccursAsWord(s, w, i)
  }

  lemma WordIsSubstring(s: string, w: string)
    ensures ContainsWord(s, w) ==> Contains(s, w)
  {
    if ContainsWord(s, w) {
      var i :| 0 <= i <= |s| - |w| && OccursAsWord(s, w, i);
      ContainsAt(s, w, i);
    }
  }

  /** The classification with greeting and personal phrases matched as whole
      words, so that "hi" no longer fires inside "nhiệm", "thi" or "chi". */
  function ClassifyWords(query: string): (c: Category)
    ensures c == Greeting <==> exists k :: 0 <= k < |SOCIAL| && ContainsWord(Lower(query), SOCIAL[k])
    ensures c == Legal <==>
      && (forall k :: 0 <= k < |SOCIAL| ==> !ContainsWord(Lower(query), SOCIAL[k]))
      && (exists k :: 0 <= k < |LEGAL_KEYWORDS| && Contains(Lower(query), LEGAL_KEYWORDS[k]))
  {
    var s := Lower(query);
    if AnyOccurs(s, SOCIAL, ContainsWord) then Greeting
    else if AnyOccurs(s, LEGAL_KEYWORDS, Contains) then Legal
    else General
  }

  /** The corrected classification only moves queries out of the greeting
      category: it agrees with the original everywhere else, and calls a
      query a greeting only where the original does. */
  lemma ClassifyWordsRefines(query: string)
    ensures ClassifyWords(query) == Greeting ==> Classify(query) == Greeting
    ensures Classify(query) != Greeting ==> ClassifyWords(query) == Classify(query)
  {
    if ClassifyWords(query) == Greeting {
      var k :| 0 <= k < |SOCIAL| && ContainsWord(Lower(query), SOCIAL[k]);
      WordIsSubstring(Lower(query), SOCIAL[k]);
    }
    forall k | 0 <= k < |SOCIAL|
      ensures ContainsWord(Lower(query), SOCIAL[k]) ==> Contains(Lower(query), SOCIAL[k])
    {
      WordIsSubstring(Lower(query), SOCIAL[k]);
    }
  }

  /** With whole-word matching a query about "trách nhiệm" is legal. */
  lemma ResponsibilityIsLegal()
    ensures ClassifyWords("trách nhiệm") == Legal
  {
    var s := "trách nhiệm";
    LowerOfLowerIsIdentity(s);
    NoSocialWordInResponsibility();
    assert LEGAL_KEYWORDS[5] == s;
    ContainsAt(s, s, 0);
  }

  lemma NoSocialWordInResponsibility()
    ensures forall k :: 0 <= k < |SOCIAL| ==> !ContainsWord("trách nhiệm", SOCIAL[k])
  {
    var s := "trách nhiệm";
    HiInsideWord();
    NoPhraseOccurs(s, "chào", 2);
    NoPhraseOccurs(s, "xin chào", 0);
    NoPhraseOccurs(s, "hello", 1);
    NoPhraseOccurs(s, "yo", 0);
    NoPhraseOccurs(s, "bạn khỏe không", 0);
    NoPhraseOccurs(s, "bạn là ai", 0);
    NoPhraseOccurs(s, "giới thiệu", 0);
    NoPhraseOccurs(s, "tên bạn", 1);
    NoPhraseOccurs(s, "chức năng", 2);
    NoPhraseOccurs(s, "làm gì", 0);
    NoPhraseOccurs(s, "giúp gì", 0);
  }

  /** The only "hi" in "trách nhiệm" follows the letter "n". */
  lemma HiInsideWord()
    ensures !ContainsWord("trách nhiệm", "hi")
  {
    var s := "trách nhiệm";
    forall i | 0 <= i <= |s| - 2 && OccursAt(s, "hi", i)
      ensures i == 7
    {
      assert s[i] == 'h' && s[i + 1] == 'i';
    }
    assert IsWordChar(s[6]);
  }

  lemma NoPhraseOccurs(s: string, w: string, k: int)
    requires 0 <= k < |w| && w[k] !in s
    ensures !ContainsWord(s, w)
  {
    NotContainsChar(s, w, k);
    WordIsSubstring(s, w);
  }

  /** Real greetings are still greetings. */
  lemma HelloIsGreeting()
    ensures ClassifyWords("xin chào") == Greeting
  {
    var s := "xin chào";
    LowerOfLowerIsIdentity(s);
    assert s[4..8] == "chào";
    assert OccursAsWord(s, "chào", 4);
    assert SOCIAL[0] == "chào";
  }

  const GREETING_HEAD: string := YOU_ARE + "trợ lý pháp lý thân thiện.\n\nNgười dùng hỏi:\n"
  const GREETING_TAIL: string :=
    "\n\n👉 Hãy chào hỏi, giới thiệu bản thân một cách ngắn gọn, thân thiện và thể hiện rằng bạn có thể hỗ trợ tra cứu điều luật khi cần."

  const LEGAL_HEAD: string := YOU_ARE + "trợ lý pháp luật thông minh.\n\nCâu hỏi:\n"
  const LEGAL_CONTEXT: string := "\n\nCác đoạn luật liên quan:\n"
  const LEGAL_TAIL: string :=
    "\n\n👉 Trả lời đúng nội dung luật, rõ ràng, dễ hiểu. Không suy đoán, không sáng tạo.  \n"
    + "❗ Nếu nội dung chưa đủ, hãy nói: \"Tôi chưa có đủ thông tin để trả lời chính xác.\""

  const NO_RESULTS_TAIL: string :=
    "\n\n👉 Rất tiếc, hiện tại tôi không tìm thấy điều luật nào liên quan đến câu hỏi này trong dữ liệu của bạn.  \n"
    + "Hãy thử đặt lại câu hỏi cụ thể hơn hoặc tải thêm tài liệu luật liên quan."

  const GENERAL_HEAD: string := YOU_ARE + "trợ lý thông minh, thân thiện.\n\nNgười dùng hỏi:\n"
  const GENERAL_TAIL: string :=
    "\n\n👉 Trả lời tự nhiên, gần gũi như một trợ lý thông minh. Nếu không rõ câu hỏi, hãy gợi ý người dùng hỏi về điều luật hoặc chủ đề cụ thể hơn."

  const STRICT_HEAD: string :=
    YOU_ARE + "trợ lý pháp lý thông minh, chuyên hỗ trợ trích xuất chính xác nội dung từ văn bản pháp luật.\n\nCâu hỏi:\n"
  const STRICT_ARTICLE: string := "\n\nNội dung điều luật:\n📘 "
  const STRICT_TAIL: string :=
    "\n\n👉 Hãy chỉ sử dụng nội dung trên để trả lời một cách thân thiện.  \n"
    + "Không được phỏng đoán, không sáng tạo.  \n"
    + "Nếu câu trả lời không nằm trong điều luật này, hãy nói: \"Tôi không có đủ thông tin trong điều luật này để trả lời chính xác.\""

  /** A template literal: the body between an opening and a closing line
      break. */
  function Framed(body: string): string {
    "\n" + body + "\n"
  }

  /** A stripped template whose head and tail do not start or end with
      whitespace: exactly head, middle and tail. */
  function Fill(head: string, middle: string, tail: string): (r: string)
    requires head != "" && !IsSpace(head[0])
    requires tail != "" && !IsSpace(tail[|tail| - 1])
    ensures r == head + middle + tail
  {
    var m := head + middle + tail;
    assert m[0] == head[0] && m[|m| - 1] == tail[|tail| - 1];
    StripExact("\n", m, "\n");
    Strip(Framed(m))
  }

  lemma TemplateEnds()
    ensures GREETING_HEAD[0] == 'B' && LEGAL_HEAD[0] == 'B' && GENERAL_HEAD[0] == 'B' && STRICT_HEAD[0] == 'B'
    ensures GREETING_TAIL[|GREETING_TAIL| - 1] == '.' && GENERAL_TAIL[|GENERAL_TAIL| - 1] == '.'
    ensures NO_RESULTS_TAIL[|NO_RESULTS_TAIL| - 1] == '.'
    ensures LEGAL_TAIL[|LEGAL_TAIL| - 1] == '"' && STRICT_TAIL[|STRICT_TAIL| - 1] == '"'
  {
  }

  /** The prompt for a category: greeting, legal with the joined contents of
      non-empty results, legal without results, general. */
  function PromptFor(category: Category, query: string, results: seq<SearchResult>): (r: string)
    ensures category == Greeting ==> r == GREETING_HEAD + Quoted(query) + GREETING_TAIL
    ensures category == Legal && results != [] ==>
      r == LEGAL_HEAD + (Quoted(query) + LEGAL_CONTEXT + JoinContents(results)) + LEGAL_TAIL
    ensures category == Legal && results == [] ==> r == LEGAL_HEAD + Quoted(query) + NO_RESULTS_TAIL
    ensures category == General ==> r == GENERAL_HEAD + Quoted(query) + GENERAL_TAIL
  {
    match category
    case Greeting => SocialPrompt(query)
    case Legal => LegalPrompt(query, results)
    case General => GeneralPrompt(query)
  }

  function SocialPrompt(query: string): (r: string)
    ensures r == GREETING_HEAD + Quoted(query) + GREETING_TAIL
  {
    TemplateEnds();
    Fill(GREETING_HEAD, Quoted(query), GREETING_TAIL)
  }

  function LegalPrompt(query: string, results: seq<SearchResult>): (r: string)
    ensures results != [] ==> r == LEGAL_HEAD + (Quoted(query) + LEGAL_CONTEXT + JoinContents(results)) + LEGAL_TAIL
    ensures results == [] ==> r == LEGAL_HEAD + Quoted(query) + NO_RESULTS_TAIL
  {
    TemplateEnds();
    if results != [] then Fill(LEGAL_HEAD, Quoted(query) + LEGAL_CONTEXT + JoinContents(results), LEGAL_TAIL)
    else Fill(LEGAL_HEAD, Quoted(query), NO_RESULTS_TAIL)
  }

  function GeneralPrompt(query: string): (r: string)
    ensures r == GENERAL_HEAD + Quoted(query) + GENERAL_TAIL
  {
    TemplateEnds();
    Fill(GENERAL_HEAD, Quoted(query), GENERAL_TAIL)
  }

  /** `build_prompt` as written: the template of the substring
      classification, around the quoted query and, for a legal query, the
      results. */
  function BuildPrompt(query: string, results: seq<SearchResult>): (r: string)
    ensures r == PromptFor(Classify(query), query, results)
    ensures Contains(r, Quoted(query))
    ensures Classify(query) == Legal ==>
      forall i :: 0 <= i < |results| ==> Contains(r, results[i].content)
    ensures Classify(query) != Legal ==> r == PromptFor(Classify(query), query, [])
  {
    PromptFacts(Classify(query), query, results);
    PromptFor(Classify(query), query, results)
  }

  /** `build_prompt` with the whole-word classification. */
  function BuildPromptWords(query: string, results: seq<SearchResult>): (r: string)
    ensures r == PromptFor(ClassifyWords(query), query, results)
    ensures Contains(r, Quoted(query))
    ensures ClassifyWords(query) == Legal ==>
      forall i :: 0 <= i < |results| ==> Contains(r, results[i].content)
    ensures ClassifyWords(query) != Legal ==> r == PromptFor(ClassifyWords(query), query, [])
  {
    PromptFacts(ClassifyWords(query), query, results);
    PromptFor(ClassifyWords(query), query, results)
  }

  /** The two prompts differ only for queries the substring test wrongly
      calls greetings. */
  lemma BuildPromptWordsRefines(query: string, results: seq<SearchResult>)
    ensures Classify(query) != Greeting ==> BuildPromptWords(query, results) == BuildPrompt(query, results)
  {
    ClassifyWordsRefines(query);
  }

  /** As written, a question about "trách nhiệm" gets the greeting prompt,
      whatever the search found; with whole-word matching it gets the legal
      prompt with the results. */
  lemma ResponsibilityPrompts(results: seq<SearchResult>)
    ensures BuildPrompt("trách nhiệm", results) == GREETING_HEAD + Quoted("trách nhiệm") + GREETING_TAIL
    ensures BuildPromptWords("trách nhiệm", results) == PromptFor(Legal, "trách nhiệm", results)
  {
    ResponsibilityIsGreetingLiteral();
    ResponsibilityIsLegal();
  }

  lemma ResponsibilityIsGreetingLiteral()
    ensures Classify("trách nhiệm") == Greeting
  {
    ContainsAt("trách nhiệm", "trách nhiệm", 0);
    LowerOfLowerIsIdentity("trách nhiệm");
    ResponsibilityIsGreeting("trách nhiệm");
  }

  lemma PromptFacts(c: Category, query: string, results: seq<SearchResult>)
    ensures Contains(PromptFor(c, query, results), Quoted(query))
    ensures c == Legal ==> forall i :: 0 <= i < |results| ==> Contains(PromptFor(c, query, results), results[i].content)
  {
    var r := PromptFor(c, query, results);
    match c
    case Greeting => ContainsMiddle(GREETING_HEAD, Quoted(query), GREETING_TAIL);
    case General => ContainsMiddle(GENERAL_HEAD, Quoted(query), GENERAL_TAIL);
    case Legal =>
      if results != [] {
        var ctx := JoinContents(results);
        ContextSections(LEGAL_HEAD, Quoted(query), LEGAL_CONTEXT, ctx, LEGAL_TAIL);
        forall i | 0 <= i < |results|
          ensures Contains(r, results[i].content)
        {
          ContainsTrans(r, ctx, results[i].content);
        }
      } else {
        ContainsMiddle(LEGAL_HEAD, Quoted(query), NO_RESULTS_TAIL);
      }
  }

  lemma ContextSections(head: string, q: string, heading: string, ctx: string, tail: string)
    ensures Contains(head + (q + heading + ctx) + tail, q)
    ensures Contains(head + (q + heading + ctx) + tail, ctx)
  {
    var p := q + heading;
    var m := p + ctx;
    var r := head + m + tail;
    ContainsMiddle(head, m, tail);
    ContainsParts(p, ctx);
    ContainsParts(q, heading);
    ContainsTrans(r, m, ctx);
    ContainsTrans(r, m, p);
    ContainsTrans(r, p, q);
  }

  /** `chunk.get(key, "")`. */
  function Field(chunk: map<string, string>, key: string): string {
    if key in chunk then chunk[key] else ""
  }

  /** `build_strict_prompt`: one article's title and content under the
      quoted query; a missing title or content leaves its place empty. */
  function StrictPrompt(query: string, chunk: map<string, string>): (r: string)
    ensures r == STRICT_HEAD + (Quoted(query) + STRICT_ARTICLE + Field(chunk, "title") + "\n" + Field(chunk, "content")) + STRICT_TAIL
    ensures "title" !in chunk && "content" !in chunk ==>
      r == STRICT_HEAD + (Quoted(query) + STRICT_ARTICLE + "\n") + STRICT_TAIL
  {
    TemplateEnds();
    var t, c := Field(chunk, "title"), Field(chunk, "content");
    assert t == "" && c == "" ==> Quoted(query) + STRICT_ARTICLE + t + "\n" + c == Quoted(query) + STRICT_ARTICLE + "\n";
    Fill(STRICT_HEAD, Quoted(query) + STRICT_ARTICLE + t + "\n" + c, STRICT_TAIL)
  }

  /** The strict prompt carries the quoted query, the title and the
      content. */
  lemma StrictPromptCarries(query: string, chunk: map<string, string>)
    ensures Contains(StrictPrompt(query, chunk), Quoted(query))
    ensures Contains(StrictPrompt(query, chunk), Field(chunk, "title"))
    ensures Contains(StrictPrompt(query, chunk), Field(chunk, "content"))
  {
    var t, c := Field(chunk, "title"), Field(chunk, "content");
    var r := StrictPrompt(query, chunk);
    ArticleSections(STRICT_HEAD, Quoted(query), STRICT_ARTICLE, t, c, STRICT_TAIL);
  }

  lemma ArticleSections(head: string, q: string, article: string, t: string, c: string, tail: string)
    ensures var r := head + (q + article + t + "\n" + c) + tail;
      Contains(r, q) && Contains(r, t) && Contains(r, c)
  {
    var p1 := q + article;
    var p2 := p1 + t;
    var p3 := p2 + "\n";
    var m := p3 + c;
    var r := head + m + tail;
    ContainsMiddle(head, m, tail);
    ContainsParts(p3, c);
    ContainsParts(p2, "\n");
    ContainsParts(p1, t);
    ContainsParts(q, article);
    ContainsTrans(r, m, c);
    ContainsTrans(r, m, p3);
    ContainsTrans(r, p3, p2);
    ContainsTrans(r, p2, t);
    ContainsTrans(r, p2, p1);
    ContainsTrans(r, p1, q);
  }
}

=== FILE: strings.dfy ===
/** Python's string operations as used by the service: `in` (substring),
    `startswith`, `sep.join`, `split(sep)`, `split()` and `strip()`. */
module Strings {
  import opened Unicode
  import opened Basics

  predicate StartsWith(s: string, p: string) {
    |p| <= |s| && s[..|p|] == p
  }

  predicate EndsWith(s: string, p: string) {
    |p| <= |s| && s[|s| - |p|..] == p
  }

  /** `t` occurs in `s` starting at index `i`. */
  predicate OccursAt(s: string, t: string, i: int) {
    0 <= i && i + |t| <= |s| && s[i..i + |t|] == t
  }

  /** Python's `t in s` for strings. */
  predicate Contains(s: string, t: string) {
    exists i :: 0 <= i <= |s| - |t| && OccursAt(s, t, i)
  }

  predicate AllSpace(s: string) {
    forall i :: 0 <= i < |s| ==> IsSpace(s[i])
  }

  predicate AllDigits(s: string) {
    forall i :: 0 <= i < |s| ==> IsDigit(s[i])
  }

  predicate NotSpace(c: char) {
    !IsSpace(c)
  }

  lemma ContainsAt(s: string, t: string, i: int)
    requires OccursAt(s, t, i)
    ensures Contains(s, t)
  {
  }

  lemma ContainsMiddle(a: string, t: string, b: string)
    ensures Contains(a + t + b, t)
  {
    assert (a + t + b)[|a|..|a| + |t|] == t;
    ContainsAt(a + t + b, t, |a|);
  }

  lemma ContainsParts(a: string, b: string)
    ensures Contains(a + b, a) && Contains(a + b, b)
  {
    assert (a + b)[..|a|] == a && (a + b)[|a|..] == b;
    ContainsAt(a + b, a, 0);
    ContainsAt(a + b, b, |a|);
  }

  lemma ContainsTrans(s: string, m: string, t: string)
    requires Contains(s, m) && Contains(m, t)
    ensures Contains(s, t)
  {
    var i :| 0 <= i <= |s| - |m| && OccursAt(s, m, i);
    var j :| 0 <= j <= |m| - |t| && OccursAt(m, t, j);
    assert forall k :: 0 <= k < |t| ==> s[i + j + k] == m[j + k] == t[k];
    assert s[i + j..i + j + |t|] == t;
    ContainsAt(s, t, i + j);
  }

  lemma ContainsPrefix(s: string, p: string, t: string)
    requires StartsWith(s, p) && Contains(p, t)
    ensures Contains(s, t)
  {
    assert s == "" + p + s[|p|..];
    ContainsMiddle("", p, s[|p|..]);
    ContainsTrans(s, p, t);
  }

  /** A string that does not contain the one-character string `[c]` does not
      hold `c`. */
  lemma CharNotIn(s: string, c: char)
    requires !Contains(s, [c])
    ensures c !in s
  {
    if c in s {
      var i :| 0 <= i < |s| && s[i] == c;
      assert s[i..i + 1] == [c];
      ContainsAt(s, [c], i);
    }
  }

  /** A string without `c` cannot contain a pattern that uses `c`. */
  lemma NotContainsChar(s: string, t: string, k: int)
    requires 0 <= k < |t|
    requires t[k] !in s
    ensures !Contains(s, t)
  {
    forall i | 0 <= i <= |s| - |t|
      ensures !OccursAt(s, t, i)
    {
    }
  }

  /** Leftmost occurrence of `t` in `s` at or after `i` (Python's `str.find`). */
  function IndexOfFrom(s: string, t: string, i: nat): (r: Option<nat>)
    ensures r.Some? ==> i <= r.value && OccursAt(s, t, r.value)
    ensures r.Some? ==> forall j :: i <= j < r.value ==> !OccursAt(s, t, j)
    ensures r.None? ==> forall j :: i <= j ==> !OccursAt(s, t, j)
    decreases |s| - i
  {
    if i + |t| > |s| then None
    else if OccursAt(s, t, i) then Some(i)
    else IndexOfFrom(s, t, i + 1)
  }

  /** The leftmost index at or after `i` (up to and including `|s|`) where the
      matcher `m` succeeds: the scan of Python's `re.search`. */
  function FirstMatchFrom(s: string, i: nat, m: (string, nat) -> bool): (r: Option<nat>)
    requires i <= |s| + 1
    ensures r.None? <==> forall j :: i <= j <= |s| ==> !m(s, j)
    ensures r.Some? ==> i <= r.value <= |s| && m(s, r.value)
    ensures r.Some? ==> forall j :: i <= j < r.value ==> !m(s, j)
    decreases |s| + 1 - i
  {
    if i > |s| then None
    else if m(s, i) then Some(i)
    else FirstMatchFrom(s, i + 1, m)
  }

  /** Python's `sep.join(parts)`. */
  function Join(parts: seq<string>, sep: string): string
    decreases |parts|
  {
    if |parts| == 0 then ""
    else if |parts| == 1 then parts[0]
    else parts[0] + sep + Join(parts[1..], sep)
  }

  /** Where part `k` starts in `Join(parts, sep)`: the lengths of the parts
      before it, each followed by a separator. */
  function Offset(parts: seq<string>, sep: string, k: nat): nat
    requires k <= |parts|
    decreases k
  {
    if k == 0 then 0 else |parts[0]| + |sep| + Offset(parts[1..], sep, k - 1)
  }

  lemma OccursShift(a: string, s: string, t: string, i: int)
    requires OccursAt(s, t, i)
    ensures OccursAt(a + s, t, |a| + i)
  {
    assert (a + s)[|a| + i..|a| + i + |t|] == s[i..i + |t|];
  }

  /** The layout of a join: part `k` sits at `Offset(parts, sep, k)`, a
      separator follows every part but the last, each part starts where the
      previous one and its separator end, and nothing follows the last
      part. */
  lemma JoinLayout(parts: seq<string>, sep: string)
    requires |parts| >= 1
    ensures |Join(parts, sep)| == Offset(parts, sep, |parts| - 1) + |parts[|parts| - 1]|
    ensures forall k :: 0 <= k < |parts| ==> OccursAt(Join(parts, sep), parts[k], Offset(parts, sep, k))
    ensures forall k :: 0 <= k < |parts| - 1 ==> OccursAt(Join(parts, sep), sep, Offset(parts, sep, k) + |parts[k]|)
    ensures forall k :: 0 <= k < |parts| ==> Offset(parts, sep, k + 1) == Offset(parts, sep, k) + |parts[k]| + |sep|
  {
    JoinLength(parts, sep);
    forall k | 0 <= k < |parts|
      ensures OccursAt(Join(parts, sep), parts[k], Offset(parts, sep, k))
      ensures Offset(parts, sep, k + 1) == Offset(parts, sep, k) + |parts[k]| + |sep|
    {
      JoinPartAt(parts, sep, k);
      OffsetStep(parts, sep, k);
    }
    forall k | 0 <= k < |parts| - 1
      ensures OccursAt(Join(parts, sep), sep, Offset(parts, sep, k) + |parts[k]|)
    {
      JoinSepAt(parts, sep, k);
    }
  }

  lemma {:induction false} OffsetStep(parts: seq<string>, sep: string, k: nat)
    requires k < |parts|
    ensures Offset(parts, sep, k + 1) == Offset(parts, sep, k) + |parts[k]| + |sep|
    decreases k
  {
    if k > 0 {
      OffsetStep(parts[1..], sep, k - 1);
      assert parts[1..][k - 1] == parts[k];
    }
  }

  lemma {:induction false} JoinLength(parts: seq<string>, sep: string)
    requires |parts| >= 1
    ensures |Join(parts, sep)| == Offset(parts, sep, |parts| - 1) + |parts[|parts| - 1]|
    decreases |parts|
  {
    if |parts| > 1 {
      JoinLength(parts[1..], sep);
      assert parts[1..][|parts| - 2] == parts[|parts| - 1];
    }
  }

  lemma {:induction false} JoinPartAt(parts: seq<string>, sep: string, k: nat)
    requires k < |parts|
    ensures OccursAt(Join(parts, sep), parts[k], Offset(parts, sep, k))
    decreases k
  {
    var j := Join(parts, sep);
    if k == 0 {
      if |parts| > 1 {
        assert j == parts[0] + (sep + Join(parts[1..], sep));
      }
      assert j[0..|parts[0]|] == parts[0];
    } else {
      var rest := parts[1..];
      JoinPartAt(rest, sep, k - 1);
      assert rest[k - 1] == parts[k];
      OccursShift(parts[0] + sep, Join(rest, sep), parts[k], Offset(rest, sep, k - 1));
    }
  }

  lemma {:induction false} JoinSepAt(parts: seq<string>, sep: string, k: nat)
    requires k + 1 < |parts|
    ensures OccursAt(Join(parts, sep), sep, Offset(parts, sep, k) + |parts[k]|)
    decreases k
  {
    var rest := parts[1..];
    if k == 0 {
      assert Join(parts, sep)[|parts[0]|..|parts[0]| + |sep|] == sep;
    } else {
      JoinSepAt(rest, sep, k - 1);
      assert rest[k - 1] == parts[k];
      OccursShift(parts[0] + sep, Join(rest, sep), sep, Offset(rest, sep, k - 1) + |parts[k]|);
    }
  }

  /** Python's `s.split(sep)`: cut at the leftmost occurrence, repeatedly.
      Every piece is free of the separator and there is at least one piece. */
  function Split(s: string, sep: string): (r: seq<string>)
    requires |sep| > 0
    ensures |r| >= 1
    ensures forall k :: 0 <= k < |r| ==> !Contains(r[k], sep)
    decreases |s|
  {
    match IndexOfFrom(s, sep, 0)
    case None => [s]
    case Some(i) =>
      var head, rest := s[..i], Split(s[i + |sep|..], sep);
      HeadFree(s, sep, i);
      SepFreeCons(head, rest, sep);
      [head] + rest
  }

  /** The text before the first occurrence holds none. */
  lemma HeadFree(s: string, sep: string, i: nat)
    requires |sep| > 0 && IndexOfFrom(s, sep, 0) == Some(i)
    ensures !Contains(s[..i], sep)
  {
    var head := s[..i];
    forall j | 0 <= j <= |head| - |sep|
      ensures !OccursAt(head, sep, j)
    {
      if OccursAt(head, sep, j) {
        assert head[j..j + |sep|] == s[j..j + |sep|];
        assert OccursAt(s, sep, j);
      }
    }
  }

  lemma SepFreeCons(head: string, rest: seq<string>, sep: string)
    requires !Contains(head, sep)
    requires forall k :: 0 <= k < |rest| ==> !Contains(rest[k], sep)
    ensures forall k :: 0 <= k < |[head] + rest| ==> !Contains(([head] + rest)[k], sep)
  {
    forall k | 0 <= k < |[head] + rest|
      ensures !Contains(([head] + rest)[k], sep)
    {
      if k > 0 {
        assert ([head] + rest)[k] == rest[k - 1];
      }
    }
  }

  /** Joining the pieces of a split gives the string back. */
  lemma {:induction false} JoinSplit(s: string, sep: string)
    requires |sep| > 0
    ensures Join(Split(s, sep), sep) == s
    decreases |s|
  {
    match IndexOfFrom(s, sep, 0)
    case None =>
    case Some(i) =>
      var rest := s[i + |sep|..];
      JoinSplit(rest, sep);
      JoinAtFirst(s, sep, i, Split(rest, sep));
  }

  /** Joining the part before the first separator with the parts of what
      follows it gives back the text. */
  lemma JoinAtFirst(s: string, sep: string, i: nat, tail: seq<string>)
    requires |sep| > 0 && IndexOfFrom(s, sep, 0) == Some(i)
    requires |tail| >= 1 && Join(tail, sep) == s[i + |sep|..]
    ensures Join([s[..i]] + tail, sep) == s
  {
    var parts := [s[..i]] + tail;
    assert parts[0] == s[..i] && parts[1..] == tail;
    assert Join(parts, sep) == s[..i] + sep + Join(tail, sep);
    assert OccursAt(s, sep, i);
    Reassemble(s, i, i + |sep|);
  }

  lemma Reassemble(s: string, i: nat, j: nat)
    requires i <= j <= |s|
    ensures s[..i] + s[i..j] + s[j..] == s
  {
  }

  lemma FirstOccurrenceAfterPrefix(p: string, sep: string, rest: string)
    requires |sep| > 0 && sep[0] !in p
    ensures IndexOfFrom(p + sep + rest, sep, 0) == Some(|p|)
  {
    var s := p + sep + rest;
    assert s[|p|..|p| + |sep|] == sep;
    assert OccursAt(s, sep, |p|);
    forall j | 0 <= j < |p|
      ensures !OccursAt(s, sep, j)
    {
      assert s[j] == p[j];
    }
  }

  lemma NoOccurrence(p: string, sep: string)
    requires |sep| > 0 && sep[0] !in p
    ensures IndexOfFrom(p, sep, 0) == None
  {
    forall j | 0 <= j
      ensures !OccursAt(p, sep, j)
    {
    }
  }

  /** Splitting a join gives the parts back, provided no part contains the
      separator's first character. */
  lemma {:induction false} SplitJoin(parts: seq<string>, sep: string)
    requires |sep| > 0 && |parts| >= 1
    requires forall k :: 0 <= k < |parts| ==> sep[0] !in parts[k]
    ensures Split(Join(parts, sep), sep) == parts
    decreases |parts|
  {
    if |parts| == 1 {
      NoOccurrence(parts[0], sep);
    } else {
      var rest := Join(parts[1..], sep);
      assert Join(parts, sep) == parts[0] + sep + rest;
      SplitAtFirst(parts[0], sep, rest);
      SplitJoin(parts[1..], sep);
      assert parts == [parts[0]] + parts[1..];
    }
  }

  /** A separator-free first part splits off at the first separator. */
  lemma SplitAtFirst(p: string, sep: string, rest: string)
    requires |sep| > 0 && sep[0] !in p
    ensures Split(p + sep + rest, sep) == [p] + Split(rest, sep)
  {
    FirstOccurrenceAfterPrefix(p, sep, rest);
    var s := p + sep + rest;
    assert s[|p| + |sep|..] == rest;
    assert s[..|p|] == p;
  }

  /** A split yields more than one piece exactly when the separator occurs. */
  lemma SplitManyIffContains(s: string, sep: string)
    requires |sep| > 0
    ensures |Split(s, sep)| >= 2 <==> Contains(s, sep)
  {
    match IndexOfFrom(s, sep, 0)
    case None =>
    case Some(i) =>
      ContainsAt(s, sep, i);
  }

  /** Length of the longest prefix of `s` whose characters satisfy `p`. */
  function Span(s: string, p: char -> bool): (n: nat)
    ensures n <= |s|
    ensures forall i :: 0 <= i < n ==> p(s[i])
    ensures n < |s| ==> !p(s[n])
    decreases |s|
  {
    if |s| > 0 && p(s[0]) then 1 + Span(s[1..], p) else 0
  }

  /** The maximal run is determined by where the first failing character is. */
  lemma SpanExact(s: string, p: char -> bool, n: nat)
    requires n <= |s|
    requires forall i :: 0 <= i < n ==> p(s[i])
    requires n < |s| ==> !p(s[n])
    ensures Span(s, p) == n
  {
  }

  function TrimStart(s: string): (r: string)
    ensures |r| <= |s| && r == s[|s| - |r|..]
    ensures AllSpace(s[..|s| - |r|])
    ensures r == "" || !IsSpace(r[0])
    decreases |s|
  {
    if |s| > 0 && IsSpace(s[0]) then
      var r := TrimStart(s[1..]);
      TrimStartStep(s, r);
      r
    else
      NothingTrimmed(s);
      s
  }

  lemma NothingTrimmed(s: string)
    ensures s[|s| - |s|..] == s && AllSpace(s[..|s| - |s|])
  {
    assert s[..0] == [];
  }

  lemma TrimStartStep(s: string, r: string)
    requires |s| > 0 && IsSpace(s[0])
    requires |r| <= |s| - 1 && r == s[1..][|s| - 1 - |r|..] && AllSpace(s[1..][..|s| - 1 - |r|])
    ensures |r| <= |s| && r == s[|s| - |r|..] && AllSpace(s[..|s| - |r|])
  {
    var t := s[1..];
    var n := |s| - |r|;
    forall i | 0 <= i < n
      ensures IsSpace(s[i])
    {
      if i > 0 {
        assert s[i] == t[..n - 1][i - 1];
      }
    }
  }

  function TrimEnd(s: string): (r: string)
    ensures |r| <= |s| && r == s[..|r|]
    ensures AllSpace(s[|r|..])
    ensures r == "" || !IsSpace(r[|r| - 1])
    decreases |s|
  {
    if |s| > 0 && IsSpace(s[|s| - 1]) then
      var r := TrimEnd(s[..|s| - 1]);
      TrimEndStep(s, r);
      r
    else
      assert s[..|s|] == s && s[|s|..] == [];
      s
  }

  lemma TrimEndStep(s: string, r: string)
    requires |s| > 0 && IsSpace(s[|s| - 1])
    requires |r| <= |s| - 1 && r == s[..|s| - 1][..|r|] && AllSpace(s[..|s| - 1][|r|..])
    ensures r == s[..|r|] && AllSpace(s[|r|..])
  {
    forall i | |r| <= i < |s|
      ensures IsSpace(s[i])
    {
      if i < |s| - 1 {
        assert s[i] == s[..|s| - 1][|r|..][i - |r|];
      }
    }
  }

  /** `m` has no whitespace at either end. */
  predicate Trimmed(m: string) {
    m == "" || (!IsSpace(m[0]) && !IsSpace(m[|m| - 1]))
  }

  /** `r` is `s` with some all-whitespace prefix and suffix removed. */
  predicate FramedBySpace(s: string, r: string, i: int) {
    0 <= i && i + |r| <= |s| && s[i..i + |r|] == r
    && AllSpace(s[..i]) && AllSpace(s[i + |r|..])
  }

  /** Python's `s.strip()`. */
  function Strip(s: string): (r: string)
    ensures Trimmed(r)
    ensures exists i :: FramedBySpace(s, r, i)
  {
    var t := TrimStart(s);
    var r := TrimEnd(t);
    StripFramed(s, t, r);
    r
  }

  lemma StripFramed(s: string, t: string, r: string)
    requires |t| <= |s| && t == s[|s| - |t|..] && AllSpace(s[..|s| - |t|])
    requires |r| <= |t| && r == t[..|r|] && AllSpace(t[|r|..])
    ensures FramedBySpace(s, r, |s| - |t|)
  {
    var i := |s| - |t|;
    assert s[i..i + |r|] == t[..|r|];
    assert s[i + |r|..] == t[|r|..];
  }

  lemma TrimStartExact(a: string, x: string)
    requires AllSpace(a) && (x == "" || !IsSpace(x[0]))
    ensures TrimStart(a + x) == x
    decreases |a|
  {
    if |a| > 0 {
      assert (a + x)[1..] == a[1..] + x;
      TrimStartExact(a[1..], x);
    }
  }

  lemma TrimEndExact(x: string, b: string)
    requires AllSpace(b) && (x == "" || !IsSpace(x[|x| - 1]))
    ensures TrimEnd(x + b) == x
    decreases |b|
  {
    if |b| > 0 {
      var s := x + b;
      assert s[|s| - 1] == b[|b| - 1];
      assert s[..|s| - 1] == x + b[..|b| - 1];
      TrimEndExact(x, b[..|b| - 1]);
    } else {
      assert x + b == x;
    }
  }

  /** Stripping removes exactly the surrounding whitespace of a trimmed core. */
  lemma StripExact(a: string, m: string, b: string)
    requires AllSpace(a) && AllSpace(b) && Trimmed(m)
    ensures Strip(a + m + b) == m
  {
    if m == "" {
      assert a + m + b == a + b;
      assert AllSpace(a + b);
      TrimStartExact(a + b, "");
      assert a + b + "" == a + b;
    } else {
      assert a + m + b == a + (m + b);
      TrimStartExact(a, m + b);
      TrimEndExact(m, b);
    }
  }

  lemma StripTrimmed(m: string)
    requires Trimmed(m)
    ensures Strip(m) == m
  {
    StripExact("", m, "");
    assert "" + m + "" == m;
  }

  /** Stripping is idempotent. */
  lemma StripIdempotent(s: string)
    ensures Strip(Strip(s)) == Strip(s)
  {
    StripTrimmed(Strip(s));
  }

  /** A non-empty run of non-whitespace characters. */
  predicate IsWord(w: string) {
    w != "" && forall i :: 0 <= i < |w| ==> !IsSpace(w[i])
  }

  /** Length of the word at the front of `t`. */
  function WordLen(t: string): (n: nat)
    requires t != "" && !IsSpace(t[0])
    ensures 1 <= n <= |t|
    ensures IsWord(t[..n])
    ensures n < |t| ==> IsSpace(t[n])
  {
    var n := Span(t, NotSpace);
    assert forall i :: 0 <= i < n ==> NotSpace(t[i]);
    n
  }

  /** Python's `s.split()`: the maximal runs of non-whitespace characters. */
  function Words(s: string): (r: seq<string>)
    ensures forall w :: w in r ==> IsWord(w)
    decreases |s|
  {
    var t := TrimStart(s);
    if t == "" then []
    else
      var n := WordLen(t);
      [t[..n]] + Words(t[n..])
  }

  predicate NonEmpty(s: string) {
    s != ""
  }

  /** `[p.strip() for p in raw if p.strip()]`: the stripped paragraphs that
      are not empty, in input order and with their multiplicity. */
  function StripAndDropEmpty(raw: seq<string>): (r: seq<string>)
    ensures |r| <= |raw|
    ensures forall k :: 0 <= k < |r| ==> r[k] != "" && Trimmed(r[k])
    decreases |raw|
  {
    if |raw| == 0 then []
    else
      var p := Strip(raw[0]);
      var head, rest := if p == "" then [] else [p], StripAndDropEmpty(raw[1..]);
      KeptConcat(head, rest);
      head + rest
  }

  /** The kept paragraphs are the stripped paragraphs filtered by
      non-emptiness: in input order, each as often as it occurs. */
  lemma {:induction false} StripAndDropEmptyIsFilter(raw: seq<string>)
    ensures StripAndDropEmpty(raw) == Filter(Map(raw, Strip), NonEmpty)
    ensures forall x :: multiset(StripAndDropEmpty(raw))[x] == if x == "" then 0 else multiset(Map(raw, Strip))[x]
    decreases |raw|
  {
    if |raw| > 0 {
      StripAndDropEmptyIsFilter(raw[1..]);
      MapCons(raw, Strip);
    }
    FilterCounts(Map(raw, Strip), NonEmpty);
  }

  /** Stripping and dropping works paragraph by paragraph, so it keeps the
      order of the kept paragraphs. */
  lemma StripAndDropEmptyAppend(a: seq<string>, b: seq<string>)
    ensures StripAndDropEmpty(a + b) == StripAndDropEmpty(a) + StripAndDropEmpty(b)
  {
    StripAndDropEmptyIsFilter(a + b);
    StripAndDropEmptyIsFilter(a);
    StripAndDropEmptyIsFilter(b);
    MapAppend(a, b, Strip);
    FilterAppend(Map(a, Strip), Map(b, Strip), NonEmpty);
  }

  lemma KeptConcat(a: seq<string>, b: seq<string>)
    requires forall k :: 0 <= k < |a| ==> a[k] != "" && Trimmed(a[k])
    requires forall k :: 0 <= k < |b| ==> b[k] != "" && Trimmed(b[k])
    ensures forall k :: 0 <= k < |a + b| ==> (a + b)[k] != "" && Trimmed((a + b)[k])
  {
    forall k | 0 <= k < |a + b|
      ensures (a + b)[k] != "" && Trimmed((a + b)[k])
    {
      if k < |a| {
        assert (a + b)[k] == a[k];
      } else {
        assert (a + b)[k] == b[k - |a|];
      }
    }
  }

  /** The kept paragraphs are exactly the non-empty stripped inputs. */
  lemma StripAndDropEmptyMembers(raw: seq<string>, x: string)
    ensures x in StripAndDropEmpty(raw) <==> x != "" && exists k :: 0 <= k < |raw| && x == Strip(raw[k])
  {
    StripAndDropEmptyIsFilter(raw);
    FilterMembers(Map(raw, Strip), NonEmpty);
    var m := Map(raw, Strip);
    if x in m {
      var k :| 0 <= k < |m| && m[k] == x;
      assert x == Strip(raw[k]);
    }
    if exists k :: 0 <= k < |raw| && x == Strip(raw[k]) {
      var k :| 0 <= k < |raw| && x == Strip(raw[k]);
      assert m[k] == x;
    }
  }
}

=== FILE: unicode.dfy ===
/** Character classes and case mapping that the Python code relies on:
    `str.isspace()` / regex `\s`, regex `\d`, regex `\w`, and `str.lower()`.
    Case mapping covers ASCII, Latin-1 and the whole Vietnamese alphabet. */
module Unicode {

  /** Python's whitespace set (`str.isspace()`, `str.strip()`, regex `\s`). */
  predicate IsSpace(c: char) {
    || c == ' '
    || ('\U{9}' <= c <= '\U{D}')
    || ('\U{1C}' <= c <= '\U{1F}')
    || c == '\U{85}' || c == '\U{A0}' || c == '\U{1680}'
    || ('\U{2000}' <= c <= '\U{200A}')
    || c == '\U{2028}' || c == '\U{2029}' || c == '\U{202F}'
    || c == '\U{205F}' || c == '\U{3000}'
  }

  /** Regex `\d`, restricted to the ASCII digits. */
  predicate IsDigit(c: char) {
    '0' <= c <= '9'
  }

  /** Regex `\w` for the Latin scripts: letters, digits and underscore, and
      the Latin-1 superscript digits and vulgar fractions, which Python counts
      as numeric. */
  predicate IsWordChar(c: char) {
    || ('a' <= c <= 'z') || ('A' <= c <= 'Z') || IsDigit(c) || c == '_'
    || c == '\U{AA}' || c == '\U{B5}' || c == '\U{BA}'
    || c == '\U{B2}' || c == '\U{B3}' || c == '\U{B9}' || ('\U{BC}' <= c <= '\U{BE}')
    || ('\U{C0}' <= c <= '\U{24F}' && c != '\U{D7}' && c != '\U{F7}')
    || ('\U{1E00}' <= c <= '\U{1EFF}')
  }

  /** Upper-case letters of ASCII, Latin-1 and Vietnamese. */
  predicate IsUpper(c: char) {
    || ('A' <= c <= 'Z')
    || ('\U{C0}' <= c <= '\U{DE}' && c != '\U{D7}')
    || c == '\U{102}' || c == '\U{110}' || c == '\U{128}'
    || c == '\U{168}' || c == '\U{1A0}' || c == '\U{1AF}'
    || ('\U{1EA0}' <= c <= '\U{1EF8}' && (c as int) % 2 == 0)
  }

  /** `str.lower()` on one character. */
  function LowerChar(c: char): (r: char)
    ensures !IsUpper(r)
    ensures !IsUpper(c) ==> r == c
    ensures IsWordChar(c) <==> IsWordChar(r)
    ensures IsSpace(c) <==> IsSpace(r)
  {
    if 'A' <= c <= 'Z' || ('\U{C0}' <= c <= '\U{DE}' && c != '\U{D7}') then
      (c as int + 32) as char
    else if c == '\U{102}' || c == '\U{110}' || c == '\U{128}'
         || c == '\U{168}' || c == '\U{1A0}' || c == '\U{1AF}' then
      (c as int + 1) as char
    else if '\U{1EA0}' <= c <= '\U{1EF8}' && (c as int) % 2 == 0 then
      (c as int + 1) as char
    else
      c
  }

  /** `str.lower()`: a character-wise map. */
  function Lower(s: string): (r: string)
    ensures |r| == |s|
    ensures forall i :: 0 <= i < |s| ==> r[i] == LowerChar(s[i])
  {
    seq(|s|, i requires 0 <= i < |s| => LowerChar(s[i]))
  }

  /** A string is in lower case when lowering leaves every character alone. */
  predicate IsLower(s: string) {
    forall i :: 0 <= i < |s| ==> !IsUpper(s[i])
  }

  lemma LowerIsLower(s: string)
    ensures IsLower(Lower(s))
  {
  }

  lemma LowerOfLowerIsIdentity(s: string)
    requires IsLower(s)
    ensures Lower(s) == s
  {
  }

  /** Lowering twice is lowering once. */
  lemma LowerIdempotent(s: string)
    ensures Lower(Lower(s)) == Lower(s)
  {
    LowerIsLower(s);
    LowerOfLowerIsIdentity(Lower(s));
  }

  lemma LowerConcat(a: string, b: string)
    ensures Lower(a + b) == Lower(a) + Lower(b)
  {
  }

  lemma LowerSlice(s: string, i: int, j: int)
    requires 0 <= i <= j <= |s|
    ensures Lower(s[i..j]) == Lower(s)[i..j]
  {
  }
}

=== FILE: vector_search.dfy ===
/** Vector search: score every chunk that has a stored vector against the
    query's embedding, sort by descending score, keep the first `top_k`. The
    embedding model and the similarity arithmetic are parameters: `embed`
    returns `None` where encoding raises, and `sim` stands for the numpy
    product of two vectors of equal dimension. */
module VectorSearch {
  import opened Basics
  import opened Records
  import opened Ranking

  /** `if not vector or not isinstance(vector, list): continue`: a chunk is
      scored only when its vector is a non-empty list. */
  predicate Eligible(c: Chunk) {
    c.vector.Values? && c.vector.values != []
  }

  /** Score the accepted chunks as `kind` results, then rank them. */
  function RankScored(chunks: seq<Chunk>, score: Chunk -> Option<real>, topK: int): (r: seq<SearchResult>)
    ensures IsTop(r, ScoreEach(chunks, score, VectorHit), topK)
    ensures |r| <= |Accepted(chunks, score)|
    ensures forall x :: x in r ==>
      (exists c :: c in chunks && score(c) == Some(x.score) && x == Hit(c, x.score, VectorHit))
    ensures forall c :: c in chunks && score(c).Some? && Hit(c, score(c).value, VectorHit) !in r ==>
      forall y :: y in r ==> score(c).value <= y.score
    ensures topK >= |Accepted(chunks, score)| ==>
      forall c :: c in chunks && score(c).Some? ==> Hit(c, score(c).value, VectorHit) in r
    ensures ChunkKeysDistinct(chunks) ==> KeysDistinct(r)
  {
    var rs := ScoreEach(chunks, score, VectorHit);
    var r := RankTop(rs, topK);
    RankScoredFacts(chunks, score, topK, rs, r);
    r
  }

  lemma RankScoredFacts(chunks: seq<Chunk>, score: Chunk -> Option<real>, topK: int,
                        rs: seq<SearchResult>, r: seq<SearchResult>)
    requires rs == ScoreEach(chunks, score, VectorHit) && r == RankTop(rs, topK)
    ensures |r| <= |Accepted(chunks, score)|
    ensures forall x :: x in r ==>
      (exists c :: c in chunks && score(c) == Some(x.score) && x == Hit(c, x.score, VectorHit))
    ensures forall c :: c in chunks && score(c).Some? && Hit(c, score(c).value, VectorHit) !in r ==>
      forall y :: y in r ==> score(c).value <= y.score
    ensures topK >= |Accepted(chunks, score)| ==>
      forall c :: c in chunks && score(c).Some? ==> Hit(c, score(c).value, VectorHit) in r
    ensures ChunkKeysDistinct(chunks) ==> KeysDistinct(r)
  {
    SubMultisetSize(multiset(r), multiset(rs));
    forall x | x in r
      ensures x in rs
    {
      RankTopFrom(rs, topK, x);
    }
    forall c, y | c in chunks && score(c).Some? && Hit(c, score(c).value, VectorHit) !in r && y in r
      ensures score(c).value <= y.score
    {
      var h := Hit(c, score(c).value, VectorHit);
      assert h in multiset(rs) - multiset(r);
    }
    if topK >= |Accepted(chunks, score)| {
      assert |r| == |rs|;
      assert multiset(r) == multiset(rs) by {
        assert |multiset(r)| == |multiset(rs)|;
        SubMultisetOfSameSize(multiset(r), multiset(rs));
      }
      forall c | c in chunks && score(c).Some?
        ensures Hit(c, score(c).value, VectorHit) in r
      {
        assert Hit(c, score(c).value, VectorHit) in multiset(rs);
      }
    }
    if ChunkKeysDistinct(chunks) {
      ScoreEachDistinct(chunks, score, VectorHit);
      RankTopKeysDistinct(rs, topK);
    }
  }

  lemma SubMultisetSize<T>(a: multiset<T>, b: multiset<T>)
    requires a <= b
    ensures |a| <= |b|
  {
    assert b == a + (b - a);
  }

  lemma SubMultisetOfSameSize<T>(a: multiset<T>, b: multiset<T>)
    requires a <= b && |a| == |b|
    ensures a == b
  {
    assert |b - a| == |b| - |a|;
    assert b == a + (b - a);
  }

  /** The newer engine's score for a chunk: eligible chunks whose vector has
      the query's dimension; a mismatch raises inside the loop, is caught,
      and the chunk is skipped. */
  function ProductScore(q: seq<real>, sim: (seq<real>, seq<real>) -> real): Chunk -> Option<real> {
    (c: Chunk) => if Eligible(c) && |c.vector.values| == |q| then Some(sim(q, c.vector.values)) else None
  }

  /** The newer `vector_search`: a failed query encoding gives no results. */
  function Search(chunks: seq<Chunk>, query: string, topK: int,
                  embed: string -> Option<seq<real>>, sim: (seq<real>, seq<real>) -> real): (r: seq<SearchResult>)
    ensures embed(query).None? ==> r == []
    ensures embed(query).Some? ==> IsTop(r, ScoreEach(chunks, ProductScore(embed(query).value, sim), VectorHit), topK)
    ensures SortedDesc(r)
    ensures AllOfKind(r, VectorHit)
    ensures FromChunks(r, chunks)
    ensures forall x :: x in r ==>
      (exists c :: c in chunks && Eligible(c) && |c.vector.values| == |embed(query).value|
        && x == Hit(c, sim(embed(query).value, c.vector.values), VectorHit))
    ensures ChunkKeysDistinct(chunks) ==> KeysDistinct(r)
  {
    match embed(query)
    case None => []
    case Some(q) =>
      var r := RankScored(chunks, ProductScore(q, sim), topK);
      ScoredFacts(chunks, ProductScore(q, sim), r);
      r
  }

  lemma ScoredFacts(chunks: seq<Chunk>, score: Chunk -> Option<real>, r: seq<SearchResult>)
    requires forall x :: x in r ==>
      (exists c :: c in chunks && score(c) == Some(x.score) && x == Hit(c, x.score, VectorHit))
    ensures AllOfKind(r, VectorHit) && FromChunks(r, chunks)
  {
    forall x | x in r
      ensures x.kind == VectorHit
      ensures exists c :: c in chunks && ResultKey(x) == ChunkKey(c) && x.title == c.title && x.content == c.content
    {
      var c :| c in chunks && score(c) == Some(x.score) && x == Hit(c, x.score, VectorHit);
    }
  }

  /** An eligible chunk of matching dimension that is left out scores no
      more than any returned result; with `topK` at least the number of such
      chunks, all of them are returned. */
  lemma SearchKeepsBest(chunks: seq<Chunk>, query: string, topK: int,
                        embed: string -> Option<seq<real>>, sim: (seq<real>, seq<real>) -> real, c: Chunk)
    requires embed(query).Some?
    requires c in chunks && Eligible(c) && |c.vector.values| == |embed(query).value|
    ensures var h := Hit(c, sim(embed(query).value, c.vector.values), VectorHit);
      && (h !in Search(chunks, query, topK, embed, sim) ==>
            forall y :: y in Search(chunks, query, topK, embed, sim) ==> h.score <= y.score)
      && (topK >= |Accepted(chunks, ProductScore(embed(query).value, sim))| ==> h in Search(chunks, query, topK, embed, sim))
  {
    assert ProductScore(embed(query).value, sim)(c) == Some(sim(embed(query).value, c.vector.values));
  }

  /** Results of equal score keep the store order: those of score `v` are
      the first of the score-`v` hits in the order `ScoreEach` lists them,
      which is the order of `chunks` (`ScoreEachInOrder`). */
  lemma TiesKeepStoreOrder(chunks: seq<Chunk>, query: string, topK: int,
                           embed: string -> Option<seq<real>>, sim: (seq<real>, seq<real>) -> real, v: real)
    requires embed(query).Some?
    ensures WithScore(Search(chunks, query, topK, embed, sim), v)
      <= WithScore(ScoreEach(chunks, ProductScore(embed(query).value, sim), VectorHit), v)
  {
    var rs := ScoreEach(chunks, ProductScore(embed(query).value, sim), VectorHit);
    assert Search(chunks, query, topK, embed, sim) == RankTop(rs, topK);
    RankTopStable(rs, topK, v);
  }

  /** A chunk with no vector, an empty vector, or a non-list value is never
      returned. */
  lemma IneligibleNeverReturned(chunks: seq<Chunk>, query: string, topK: int,
                                embed: string -> Option<seq<real>>, sim: (seq<real>, seq<real>) -> real, i: int)
    requires 0 <= i < |chunks| && !Eligible(chunks[i]) && ChunkKeysDistinct(chunks)
    ensures ChunkKey(chunks[i]) !in Keys(Search(chunks, query, topK, embed, sim))
  {
    var r := Search(chunks, query, topK, embed, sim);
    forall x | x in r
      ensures ResultKey(x) != ChunkKey(chunks[i])
    {
      var d :| d in chunks && Eligible(d) && |d.vector.values| == |embed(query).value|
        && x == Hit(d, sim(embed(query).value, d.vector.values), VectorHit);
      var j :| 0 <= j < |chunks| && chunks[j] == d;
      assert j != i;
    }
  }

  /** Where any eligible chunk's vector has a dimension other than the
      query's. */
  predicate Mismatch(chunks: seq<Chunk>, q: seq<real>) {
    exists c :: c in chunks && Eligible(c) && |c.vector.values| != |q|
  }

  /** The older engine's score: both vectors are L2-normalised and multiplied,
      which `cos` stands for. */
  function CosineScore(q: seq<real>, cos: (seq<real>, seq<real>) -> real): Chunk -> Option<real> {
    (c: Chunk) => if Eligible(c) then Some(cos(q, c.vector.values)) else None
  }

  /** The older `vector_search`: an encoding error and a dimension mismatch
      both raise out of the search (`None`). */
  function SearchStrict(chunks: seq<Chunk>, query: string, topK: int,
                        embed: string -> Option<seq<real>>, cos: (seq<real>, seq<real>) -> real): (r: Option<seq<SearchResult>>)
    ensures r.None? <==> embed(query).None? || Mismatch(chunks, embed(query).value)
    ensures r.Some? ==> SortedDesc(r.value) && AllOfKind(r.value, VectorHit) && FromChunks(r.value, chunks)
    ensures r.Some? ==> IsTop(r.value, ScoreEach(chunks, CosineScore(embed(query).value, cos), VectorHit), topK)
    ensures r.Some? ==> forall x :: x in r.value ==>
      (exists c :: c in chunks && Eligible(c) && x == Hit(c, cos(embed(query).value, c.vector.values), VectorHit))
    ensures r.Some? && ChunkKeysDistinct(chunks) ==> KeysDistinct(r.value)
  {
    var q :- embed(query);
    if Mismatch(chunks, q) then None
    else
      var r := RankScored(chunks, CosineScore(q, cos), topK);
      ScoredFacts(chunks, CosineScore(q, cos), r);
      Some(r)
  }
}

=== FILE: web_chunker.dfy ===
/** The crawler's chunker: it takes the crawled page's markdown split at
    blank lines (or, failing that, its text split at newlines), strips the
    paragraphs and drops empty ones, starts a chunk at every paragraph
    matching `(#+\s*)?Điều\s+\d`, and stores an empty vector when encoding
    raises. */
module WebChunker {
  import opened Basics
  import opened Strings
  import opened Headings
  import opened Records
  import opened ArticleScan
  import opened ChunkBuild

  /** The crawled page: its `markdown` and `text` entries, either possibly
      missing (`dict.get(key, "")`). */
  datatype WebData = WebData(markdown: Option<string>, text: Option<string>)

  /** The markdown's blank-line pieces, unless there are fewer than two, in
      which case the text's lines. */
  function RawParagraphs(data: WebData): (r: seq<string>)
    ensures |r| >= 1
    ensures var md := data.markdown.GetOr("");
      && (|Split(md, "\n\n")| >= 2 ==> r == Split(md, "\n\n"))
      && (|Split(md, "\n\n")| < 2 ==> r == Split(data.text.GetOr(""), "\n"))
    ensures Contains(data.markdown.GetOr(""), "\n\n") ==> Join(r, "\n\n") == data.markdown.GetOr("")
    ensures Contains(data.markdown.GetOr(""), "\n\n") ==> forall k :: 0 <= k < |r| ==> !Contains(r[k], "\n\n")
    ensures !Contains(data.markdown.GetOr(""), "\n\n") ==> Join(r, "\n") == data.text.GetOr("")
    ensures !Contains(data.markdown.GetOr(""), "\n\n") ==> forall k :: 0 <= k < |r| ==> !Contains(r[k], "\n")
  {
    var md := data.markdown.GetOr("");
    var ps := Split(md, "\n\n");
    SplitManyIffContains(md, "\n\n");
    JoinSplit(md, "\n\n");
    JoinSplit(data.text.GetOr(""), "\n");
    if |ps| < 2 then Split(data.text.GetOr(""), "\n") else ps
  }

  /** The paragraphs the loop acts on: stripped, empty ones skipped. */
  function Paragraphs(data: WebData): seq<string> {
    StripAndDropEmpty(RawParagraphs(data))
  }

  /** `WebChunker(data, doc_id).chunk_by_article()`. */
  function ChunkByArticle(data: WebData, docId: int, embed: string -> Option<seq<real>>): (r: seq<Chunk>)
    ensures |r| == |HeadingLines(IsWebHeading, Paragraphs(data))|
    ensures forall k :: 0 <= k < |r| ==> r[k].title == HeadingLines(IsWebHeading, Paragraphs(data))[k]
    ensures forall k :: 0 <= k < |r| ==> r[k].docId == docId && r[k].chunkId == k + 1
    ensures forall k :: 0 <= k < |r| ==>
      r[k].content == r[k].title + "\n" + Join(SplitByArticle(WebRule, Paragraphs(data))[k].body, "\n")
    ensures forall k :: 0 <= k < |r| ==> r[k].vector.Values?
    ensures forall k :: 0 <= k < |r| ==> (embed(r[k].content).None? ==> r[k].vector.values == [])
    ensures forall k :: 0 <= k < |r| ==>
      (embed(r[k].content).Some? ==> r[k].vector.values == embed(r[k].content).value)
  {
    assert Boundary(WebRule) == IsWebHeading;
    ChunkParagraphs(Paragraphs(data), docId, embed)
  }

  /** The loop and the chunk building over given paragraphs. */
  function ChunkParagraphs(ps: seq<string>, docId: int, embed: string -> Option<seq<real>>): (r: seq<Chunk>)
    ensures |r| == |HeadingLines(IsWebHeading, ps)|
    ensures forall k :: 0 <= k < |r| ==> r[k].title == HeadingLines(IsWebHeading, ps)[k]
    ensures forall k :: 0 <= k < |r| ==> r[k].docId == docId && r[k].chunkId == k + 1
    ensures forall k :: 0 <= k < |r| ==>
      r[k].content == r[k].title + "\n" + Join(SplitByArticle(WebRule, ps)[k].body, "\n")
    ensures forall k :: 0 <= k < |r| ==> r[k].vector.Values?
    ensures forall k :: 0 <= k < |r| ==> (embed(r[k].content).None? ==> r[k].vector.values == [])
    ensures forall k :: 0 <= k < |r| ==>
      (embed(r[k].content).Some? ==> r[k].vector.values == embed(r[k].content).value)
  {
    var secs := SplitByArticle(WebRule, ps);
    assert Boundary(WebRule) == IsWebHeading;
    BuildChunks(docId, secs, embed)
  }

  /** When no paragraph holds a line break, chunk `k`'s text is its heading
      paragraph followed by the paragraphs up to the next heading, one per
      line. */
  lemma ChunkContentLines(data: WebData, docId: int, embed: string -> Option<seq<real>>, k: int)
    requires NoNewline(Paragraphs(data))
    requires 0 <= k < |ChunkByArticle(data, docId, embed)|
    ensures var sec := SplitByArticle(WebRule, Paragraphs(data))[k];
      Split(ChunkByArticle(data, docId, embed)[k].content, "\n")
        == [sec.title] + (if sec.body == [] then [""] else sec.body)
  {
    var secs := SplitByArticle(WebRule, Paragraphs(data));
    forall x | x == secs[k].title || x in secs[k].body
      ensures '\n' !in x
    {
      SectionLinesFromInput(WebRule, Paragraphs(data), k, x);
    }
    BuiltChunkLines(docId, secs, embed, k);
  }

  /** The paragraphs before the first article paragraph are kept as the
      first body lines of chunk 1. */
  lemma PreambleOpensFirstChunk(data: WebData, docId: int, embed: string -> Option<seq<real>>)
    requires ChunkByArticle(data, docId, embed) != []
    ensures HeadingLines(IsWebHeading, Paragraphs(data)) != []
    ensures var r := ChunkByArticle(data, docId, embed);
      var ps := Paragraphs(data);
      r[0].content == r[0].title + "\n" + Join(SplitByArticle(WebRule, ps)[0].body, "\n")
      && ps[..FirstHeading(IsWebHeading, ps)] <= SplitByArticle(WebRule, ps)[0].body
  {
    assert Boundary(WebRule) == IsWebHeading;
  }

  /** Every line of every section is a non-empty, stripped paragraph of the
      page. */
  lemma SectionLinesAreStrippedParagraphs(data: WebData, k: int, x: string)
    requires 0 <= k < |SplitByArticle(WebRule, Paragraphs(data))|
    requires x == SplitByArticle(WebRule, Paragraphs(data))[k].title
          || x in SplitByArticle(WebRule, Paragraphs(data))[k].body
    ensures x != "" && Trimmed(x)
    ensures exists j :: 0 <= j < |RawParagraphs(data)| && x == Strip(RawParagraphs(data)[j])
  {
    SectionLinesFromInput(WebRule, Paragraphs(data), k, x);
    StripAndDropEmptyMembers(RawParagraphs(data), x);
    var ps := Paragraphs(data);
    var i :| 0 <= i < |ps| && ps[i] == x;
  }
}
